=== FILE: README.md ===
# gorm-neo4j write and read engine, modelled in Dafny

This project models the core of the GORM for Neo4j datastore. That core
turns saves, updates, deletes and loads of mapped domain objects into
Cypher statements against a Neo4j database. The modelled parts are:

- **CypherBuilder** (`cypher_builder.dfy`): the query builder. It keeps match
  fragments, conditions, optional matches, delete and return columns, a
  property SET map, and parameters numbered `"1"`, `"2"`, …. It assembles them
  into one Cypher text.
- **Ledger** (`ledger.dfy`): the session's two bounded maps of pending
  relationship inserts and deletes, keyed by (parent id, association). An
  overflow raises the resource-failure error. Keys hash in 32-bit arithmetic.
- **Session** (`session.dfy`):
  - the flush guard;
  - the UPDATE of dirty properties, with optimistic locking on a `Long` version;
  - cascading deletes;
  - the multi-node `CREATE` statement for pending inserts;
  - the choice of ledger key for an association, and the draining of that
    key into edge operations.
- **RelationshipOps** (`relationship_ops.dfy`): the statements run by a pending
  relationship insert and delete. This covers the rewrite of a
  relationship entity's `from`/`to` ends, the `rProps` map, the
  delete-previous statement and the `MERGE`.
- **Persister** (`persister.dfy`):
  - resolution of the most specific entity for a node's labels;
  - loading a node from cache or by unmarshalling: stored properties, each
    association resolved in its fixed order of precedence, undeclared
    properties;
  - saving one object: ignore, proxy, update, native-id insert, generated-id
    insert;
  - the batch save of native-id objects as one `CREATE`. Each pattern
    `n<i>` is correlated back to the position of its object in the list.
- **Datastore** (`datastore.dfy`):
  - the schema statements (unique constraints and indexes) written at start-up;
  - the table of child datastores per connection source;
  - routing by tenant id and by connection qualifier.

`Values` and `Metadata` hold the shared vocabulary: identifiers, property
values, statements, entities, properties and associations.

The model has no I/O. Every statement the code would run on the driver
becomes a `Statement(text, params)` value. Whatever the database would answer
is a parameter of the operation: whether an UPDATE returned a row, the row a
`CREATE` returned, the node a query loaded. String helpers that live outside
the core are function-valued fields of `Metadata.Helpers`, for example the
label text of an entity or `formatId`. The model treats them as
uninterpreted.

All paths below are relative to
`grails-datastore-gorm-neo4j/src/main/groovy/org/grails/datastore/gorm/neo4j/`
in the repository, written out in full in the table.

## Model

| member | source | states |
|---|---|---|
| CypherBuilder.Put | grails-datastore-gorm-neo4j/src/main/groovy/org/grails/datastore/gorm/neo4j/CypherBuilder.java:52 | insertion-ordered map put: an existing key keeps its position and its first entry becomes (key, new value); a new key is appended at the end; entries under other keys are untouched |
| CypherBuilder.LookupFindsLast | grails-datastore-gorm-neo4j/src/main/groovy/org/grails/datastore/gorm/neo4j/CypherBuilder.java:52 | looking up a key yields the value of its last occurrence in the parameter list |
| CypherBuilder.New | grails-datastore-gorm-neo4j/src/main/groovy/org/grails/datastore/gorm/neo4j/CypherBuilder.java:57-59 | a fresh builder holds the given labels, starts on variable `n` with the default return, and has no parameters, SET map, match or relationship fragments, conditions, order/limit text, RETURN or delete columns |
| CypherBuilder.SetStartNode | grails-datastore-gorm-neo4j/src/main/groovy/org/grails/datastore/gorm/neo4j/CypherBuilder.java:66-71 | a null name changes nothing; otherwise the built text opens with `MATCH (<name><labels>)`, and a builder without RETURN columns, order text, SET map or delete columns builds to its head followed by `RETURN <name> as data` |
| CypherBuilder.SetConditions | grails-datastore-gorm-neo4j/src/main/groovy/org/grails/datastore/gorm/neo4j/CypherBuilder.java:108-110 | a null or empty predicate builds the same text as no predicate; any other predicate appears as ` WHERE <predicate>` right after the match fragments; the optional matches and everything after the head are unaffected |
| CypherBuilder.SetOrderAndLimits | grails-datastore-gorm-neo4j/src/main/groovy/org/grails/datastore/gorm/neo4j/CypherBuilder.java:112-114 | with delete columns the text does not change; otherwise the order/limit text follows the default return and a new line, or the RETURN columns and a space |
| CypherBuilder.AddReturnColumn | grails-datastore-gorm-neo4j/src/main/groovy/org/grails/datastore/gorm/neo4j/CypherBuilder.java:142-144 | with delete columns the text does not change; otherwise the statement returns the earlier columns then the new one, comma separated, in place of the default return, followed by the order/limit text |
| CypherBuilder.AddDeleteColumn | grails-datastore-gorm-neo4j/src/main/groovy/org/grails/datastore/gorm/neo4j/CypherBuilder.java:151-153 | whatever SET map or RETURN columns the builder holds, the statement becomes the head, `DETACH DELETE`, and the earlier delete columns then the new one, comma separated |
| CypherBuilder.AddMatch | grails-datastore-gorm-neo4j/src/main/groovy/org/grails/datastore/gorm/neo4j/CypherBuilder.java:73-77 | a match already present is not added again; a new one is appended; the match list stays duplicate-free |
| CypherBuilder.AddMatchTwice | grails-datastore-gorm-neo4j/src/main/groovy/org/grails/datastore/gorm/neo4j/CypherBuilder.java:73-77 | adding the same match twice is idempotent, for the builder and for the built text |
| CypherBuilder.AddMatchExtendsMatchSection | grails-datastore-gorm-neo4j/src/main/groovy/org/grails/datastore/gorm/neo4j/CypherBuilder.java:175-177 | a new match appears in the MATCH section as `, <m>` after the earlier matches |
| CypherBuilder.AddRelationshipMatch | grails-datastore-gorm-neo4j/src/main/groovy/org/grails/datastore/gorm/neo4j/CypherBuilder.java:79-83 | relationship matches are deduplicated in insertion order like matches |
| CypherBuilder.AddRelationshipMatchTwice | grails-datastore-gorm-neo4j/src/main/groovy/org/grails/datastore/gorm/neo4j/CypherBuilder.java:79-83 | adding the same relationship match twice equals adding it once |
| CypherBuilder.ReplaceFirstRelationshipMatch | grails-datastore-gorm-neo4j/src/main/groovy/org/grails/datastore/gorm/neo4j/CypherBuilder.java:85-92 | on an empty list the match becomes the only one; otherwise only the first is replaced and the rest and the length are kept |
| CypherBuilder.AddOptionalMatch | grails-datastore-gorm-neo4j/src/main/groovy/org/grails/datastore/gorm/neo4j/CypherBuilder.java:100-102 | optional matches are appended without deduplication |
| CypherBuilder.AddOptionalMatchAppends | grails-datastore-gorm-neo4j/src/main/groovy/org/grails/datastore/gorm/neo4j/CypherBuilder.java:184-191 | each optional match adds `\nOPTIONAL MATCH <m>` at the end of the head of the statement, and the tail is unchanged |
| CypherBuilder.AddOptionalMatchTwice | grails-datastore-gorm-neo4j/src/main/groovy/org/grails/datastore/gorm/neo4j/CypherBuilder.java:100-102 | adding the same optional match twice emits it twice |
| CypherBuilder.AddParam | grails-datastore-gorm-neo4j/src/main/groovy/org/grails/datastore/gorm/neo4j/CypherBuilder.java:116-119 | on keys `"1".."k"` the value is stored under `"k+1"`, the keys stay consecutive, the returned position is k+1 and looking it up yields the value |
| CypherBuilder.NextKeyIsFresh | grails-datastore-gorm-neo4j/src/main/groovy/org/grails/datastore/gorm/neo4j/CypherBuilder.java:117 | on consecutive keys the next number is not yet a key, so `put` appends |
| CypherBuilder.AddParamsConsecutive | grails-datastore-gorm-neo4j/src/main/groovy/org/grails/datastore/gorm/neo4j/CypherBuilder.java:116-119 | any run of `addParam` keeps the keys consecutive and adds one entry per value |
| CypherBuilder.ReplaceParamAt | grails-datastore-gorm-neo4j/src/main/groovy/org/grails/datastore/gorm/neo4j/CypherBuilder.java:126-128 | replacing an existing position keeps the length and the numbering, changes only that entry, and the position then yields the new value |
| CypherBuilder.SparseReplaceThenAdd | grails-datastore-gorm-neo4j/src/main/groovy/org/grails/datastore/gorm/neo4j/CypherBuilder.java:116-128 | replacing position 2 of an empty map and then adding a parameter returns position 1 but stores the value under `"2"`, and no `"1"` exists |
| CypherBuilder.AddPropertySet | grails-datastore-gorm-neo4j/src/main/groovy/org/grails/datastore/gorm/neo4j/CypherBuilder.java:159-165 | a null map changes nothing; otherwise the map becomes parameter k+1 and the SET index records that position |
| CypherBuilder.NullPropertySetIsNoOp | grails-datastore-gorm-neo4j/src/main/groovy/org/grails/datastore/gorm/neo4j/CypherBuilder.java:159-165 | a null SET map leaves the text and the parameters unchanged |
| CypherBuilder.SetClauseNamesItsParameter | grails-datastore-gorm-neo4j/src/main/groovy/org/grails/datastore/gorm/neo4j/CypherBuilder.java:205-207 | the text carries `\nSET n += {k+1}\n` right after the head; parameter k+1 holds the map; the clause targets `n` whatever the start variable |
| CypherBuilder.Build | grails-datastore-gorm-neo4j/src/main/groovy/org/grails/datastore/gorm/neo4j/CypherBuilder.java:167-230 | every statement begins `MATCH (<start><labels>)`, then the head; with delete columns it is the head followed by `DETACH DELETE` and the comma-joined columns |
| CypherBuilder.WhereOnlyWhenNonEmpty | grails-datastore-gorm-neo4j/src/main/groovy/org/grails/datastore/gorm/neo4j/CypherBuilder.java:180-182 | a null or empty condition emits nothing, so the text equals that of a builder without conditions; a non-empty one adds ` WHERE <c>` to the MATCH section |
| CypherBuilder.DeletePrecedence | grails-datastore-gorm-neo4j/src/main/groovy/org/grails/datastore/gorm/neo4j/CypherBuilder.java:193-203 | with delete columns the text ends in `DELETE` and the comma-joined columns; SET map, return columns, order/limit and parameters do not affect it |
| CypherBuilder.ReturnShape | grails-datastore-gorm-neo4j/src/main/groovy/org/grails/datastore/gorm/neo4j/CypherBuilder.java:209-227 | without delete columns the text is head + SET + RETURN; with no return columns the default return is followed by the order/limit text and a newline; otherwise ` RETURN ` + the joined columns + a space and the order/limit text |
| CypherBuilder.SameHead | grails-datastore-gorm-neo4j/src/main/groovy/org/grails/datastore/gorm/neo4j/CypherBuilder.java:169-191 | the head of the statement depends only on labels, matches, conditions, optional matches and the start variable |
| Ledger.Record | grails-datastore-gorm-neo4j/src/main/groovy/org/grails/datastore/gorm/neo4j/Neo4jSession.java:112-123 | a null id or parent id records nothing; a new key in a full ledger of 5000 fails with the resource-failure message, leaving the new key stored with no ids and the evicted key gone; otherwise the id is in the key's list, which only grows by at most one, and other keys are untouched |
| Ledger.RecordIdempotent | grails-datastore-gorm-neo4j/src/main/groovy/org/grails/datastore/gorm/neo4j/Neo4jSession.java:120-122 | recording the same id under the same key twice equals recording it once |
| Ledger.RecordStep | grails-datastore-gorm-neo4j/src/main/groovy/org/grails/datastore/gorm/neo4j/Neo4jSession.java:112-123 | with room, recording succeeds, keeps the key's earlier ids as a prefix, makes its id set exactly the old set plus the new id, and changes no other key |
| Ledger.RecordAllKeepsFirstOccurrences | grails-datastore-gorm-neo4j/src/main/groovy/org/grails/datastore/gorm/neo4j/Neo4jSession.java:112-123 | recording a list of ids keeps the earlier ones as a prefix, stays duplicate-free and holds exactly the old ids plus the new ones |
| Ledger.RecordAll | grails-datastore-gorm-neo4j/src/main/groovy/org/grails/datastore/gorm/neo4j/Neo4jSession.java:112-123 | no ids change nothing; recording a list fails exactly when it is non-empty and its key is new to a full ledger; on success the key is present |
| Ledger.OverflowEvicts | grails-datastore-gorm-neo4j/src/main/groovy/org/grails/datastore/gorm/neo4j/Neo4jSession.java:59-74 | an overflowing record under a new key fails with the message, and leaves a valid map of exactly 5000 keys holding the new key without the id and without the evicted key |
| Ledger.Drain | grails-datastore-gorm-neo4j/src/main/groovy/org/grails/datastore/gorm/neo4j/Neo4jSession.java:386-395 | a non-empty entry is handed out whole and removed; a missing or empty one yields nothing and leaves the ledger as it was; other keys are untouched |
| Ledger.DrainTwice | grails-datastore-gorm-neo4j/src/main/groovy/org/grails/datastore/gorm/neo4j/Neo4jSession.java:386-395 | a key drained once yields nothing the second time |
| Ledger.DrainMakesRoom | grails-datastore-gorm-neo4j/src/main/groovy/org/grails/datastore/gorm/neo4j/Neo4jSession.java:59-74 | in a full ledger a new key is refused, and after draining one key it is accepted |
| Ledger.RecordThenDrain | grails-datastore-gorm-neo4j/src/main/groovy/org/grails/datastore/gorm/neo4j/Neo4jSession.java:112-123 | recording one id under a new key and draining that key returns exactly that id and the original ledger |
| Ledger.KeyEquals | grails-datastore-gorm-neo4j/src/main/groovy/org/grails/datastore/gorm/neo4j/Neo4jSession.java:983-993 | two keys are equal exactly when their association and nullable id are equal |
| Ledger.KeyHash | grails-datastore-gorm-neo4j/src/main/groovy/org/grails/datastore/gorm/neo4j/Neo4jSession.java:995-1000 | the hash is `31 * hash(association) + hash(id)` (0 for a null id), reduced to 32 bits |
| Ledger.HashConsistentWithEquals | grails-datastore-gorm-neo4j/src/main/groovy/org/grails/datastore/gorm/neo4j/Neo4jSession.java:974-1001 | equal keys have equal hashes |
| Ledger.ClearPendingOperations | grails-datastore-gorm-neo4j/src/main/groovy/org/grails/datastore/gorm/neo4j/Neo4jSession.java:126-133 | both ledgers end empty whether the superclass clear succeeded or failed, and its outcome is passed through |
| Session.Flush | grails-datastore-gorm-neo4j/src/main/groovy/org/grails/datastore/gorm/neo4j/Neo4jSession.java:822-835 | writes are flushed exactly when a transaction exists, is active and is not read-only; a missing transaction is exactly the no-transaction error |
| Session.PropertyNamed | grails-datastore-gorm-neo4j/src/main/groovy/org/grails/datastore/gorm/neo4j/Neo4jSession.java:251-252 | the property found has the name asked for; none is found only when no property has that name |
| Session.DirtyProps | grails-datastore-gorm-neo4j/src/main/groovy/org/grails/datastore/gorm/neo4j/Neo4jSession.java:248-265 | the update map holds exactly the dirty names that are simple or basic properties, each with its current value (null included) |
| Session.CurrentVersion | grails-datastore-gorm-neo4j/src/main/groovy/org/grails/datastore/gorm/neo4j/Neo4jSession.java:282-285 | a null version reads as 0, a long as itself, and anything else is the failing cast |
| Session.FlushUpdate | grails-datastore-gorm-neo4j/src/main/groovy/org/grails/datastore/gorm/neo4j/Neo4jSession.java:230-304 | a vetoed update runs nothing and keeps its object; one without dirty simple properties runs nothing; at most one statement runs; every successful non-vetoed flush leaves the object with no recorded changes (so a later save ignores it) and otherwise unchanged but for the version; an unversioned entity keeps its values; the lock failure carries that one statement, the update's key, and the object with the bumped version and its changes still recorded |
| Session.VersionedUpdate | grails-datastore-gorm-neo4j/src/main/groovy/org/grails/datastore/gorm/neo4j/Neo4jSession.java:280-300 | a versioned update binds the old version and writes version+1 (with 64-bit wrap), sets it on the object, and fails with optimistic locking exactly when no row comes back |
| Session.UpdateStatementParams | grails-datastore-gorm-neo4j/src/main/groovy/org/grails/datastore/gorm/neo4j/Neo4jSession.java:242-280 | the UPDATE binds `id` to the native key and `props` to a map holding every dirty simple value |
| Session.UpdateSetsOnlyDirty | grails-datastore-gorm-neo4j/src/main/groovy/org/grails/datastore/gorm/neo4j/Neo4jSession.java:248-280 | the SET map holds exactly the dirty simple names (plus `version` when versioned), and the statement binds exactly `id`, `props` and, when versioned, `version` |
| Session.OneStatementPerWritingUpdate | grails-datastore-gorm-neo4j/src/main/groovy/org/grails/datastore/gorm/neo4j/Neo4jSession.java:225-307 | flushing a list of updates runs one statement per update that is not vetoed and has dirty simple properties |
| Session.FlushUpdates | grails-datastore-gorm-neo4j/src/main/groovy/org/grails/datastore/gorm/neo4j/Neo4jSession.java:225-307 | a successful flush runs at most one statement per update |
| Session.FlushEachFirstFailure | grails-datastore-gorm-neo4j/src/main/groovy/org/grails/datastore/gorm/neo4j/Neo4jSession.java:225-307 | for any one-update step, the loop succeeds exactly when every update does, and otherwise fails with the failure of the first failing update, all earlier ones having succeeded |
| Session.FlushUpdatesFirstFailure | grails-datastore-gorm-neo4j/src/main/groovy/org/grails/datastore/gorm/neo4j/Neo4jSession.java:225-307 | the same first-failure law for the UPDATE of each pending update |
| Session.Cascading | grails-datastore-gorm-neo4j/src/main/groovy/org/grails/datastore/gorm/neo4j/Neo4jSession.java:937-939 | only associations that cascade REMOVE are kept, every one of them is kept, and none is added |
| Session.CascadingAppend | grails-datastore-gorm-neo4j/src/main/groovy/org/grails/datastore/gorm/neo4j/Neo4jSession.java:937-939 | filtering distributes over concatenation, and a single association is kept exactly when it cascades REMOVE |
| Session.BuildCascadingDeletes | grails-datastore-gorm-neo4j/src/main/groovy/org/grails/datastore/gorm/neo4j/Neo4jSession.java:932-949 | a relationship entity deletes `r`; otherwise each cascading association gets optional match `(n)<rel>(a<i>)` and delete column `a<i>` numbered from 1, then `n` is deleted last |
| Session.CascadingDeleteText | grails-datastore-gorm-neo4j/src/main/groovy/org/grails/datastore/gorm/neo4j/Neo4jSession.java:932-949 | the built text ends in `DELETE` and the delete columns; with no cascades it is `DELETE n` (or `DELETE r` for a relationship entity) |
| Session.CascadeVarsDistinct | grails-datastore-gorm-neo4j/src/main/groovy/org/grails/datastore/gorm/neo4j/Neo4jSession.java:941 | distinct cascade numbers give distinct variables |
| Session.IdKey | grails-datastore-gorm-neo4j/src/main/groovy/org/grails/datastore/gorm/neo4j/Neo4jSession.java:681-687 | a snowflake id is stored under `__id__`, any other non-native id under the identity's name |
| Session.NodePropertiesForInsert | grails-datastore-gorm-neo4j/src/main/groovy/org/grails/datastore/gorm/neo4j/Neo4jSession.java:677-703 | the insert map holds the id key for non-native ids, and every non-null stored property and nothing else |
| Session.PatternsAt | grails-datastore-gorm-neo4j/src/main/groovy/org/grails/datastore/gorm/neo4j/Neo4jSession.java:646-659 | the k-th created object's pattern is `(n<k+1><labels> {props<k+1>})` |
| Session.CreatePattern | grails-datastore-gorm-neo4j/src/main/groovy/org/grails/datastore/gorm/neo4j/Neo4jSession.java:655-658 | the pattern of insert i binds node variable `n<i>` and ends in its parameter ` {props<i>})` |
| Session.ParamsForAt | grails-datastore-gorm-neo4j/src/main/groovy/org/grails/datastore/gorm/neo4j/Neo4jSession.java:659 | parameter `props<i>` holds the insert map of the i-th created object |
| Session.ParamsForKeys | grails-datastore-gorm-neo4j/src/main/groovy/org/grails/datastore/gorm/neo4j/Neo4jSession.java:659 | the create parameters hold nothing but `props1..props<k>` |
| Session.PropsKeyDistinct | grails-datastore-gorm-neo4j/src/main/groovy/org/grails/datastore/gorm/neo4j/Neo4jSession.java:657-659 | distinct indexes give distinct `props<i>` keys |
| Session.CreateWalkMeaning | grails-datastore-gorm-neo4j/src/main/groovy/org/grails/datastore/gorm/neo4j/Neo4jSession.java:604-638 | the step-by-step walk numbers exactly the not-yet-executed, non-vetoed inserts of a node entity and yields their joined patterns and parameters |
| Session.BuildCypherCreateStatement | grails-datastore-gorm-neo4j/src/main/groovy/org/grails/datastore/gorm/neo4j/Neo4jSession.java:604-638 | the loop's text and parameters are those of the created inserts, and afterwards every insert of a node entity is marked executed |
| Session.NothingLeftToCreate | grails-datastore-gorm-neo4j/src/main/groovy/org/grails/datastore/gorm/neo4j/Neo4jSession.java:610 | when every insert is executed, nothing is created |
| Session.CreateTwice | grails-datastore-gorm-neo4j/src/main/groovy/org/grails/datastore/gorm/neo4j/Neo4jSession.java:604-638 | building the create statement twice over the same inserts yields the statement once and then the empty text |
| Session.KeyFor | grails-datastore-gorm-neo4j/src/main/groovy/org/grails/datastore/gorm/neo4j/Neo4jSession.java:360-384 | a reversed many-to-many has no key; a reversed association whose inverse side and value are set is keyed by the associated object's id and the inverse side; every other case by the parent id and the association |
| Session.ProcessAssociation | grails-datastore-gorm-neo4j/src/main/groovy/org/grails/datastore/gorm/neo4j/Neo4jSession.java:359-396 | without a key nothing happens: no operation, and both ledgers as they were |
| Session.ProcessAssociationValid | grails-datastore-gorm-neo4j/src/main/groovy/org/grails/datastore/gorm/neo4j/Neo4jSession.java:359-396 | processing one association keeps both ledgers valid: at most 5000 keys, each with a parent id and a duplicate-free queue |
| Session.ProcessAssociationDrains | grails-datastore-gorm-neo4j/src/main/groovy/org/grails/datastore/gorm/neo4j/Neo4jSession.java:386-395 | the key leaves both ledgers unless its entry was empty; every other key is unchanged |
| Session.ProcessAssociationOperations | grails-datastore-gorm-neo4j/src/main/groovy/org/grails/datastore/gorm/neo4j/Neo4jSession.java:386-395 | one insert operation if inserts were pending and then one delete operation if deletes were, each carrying the drained ids, the owner and the association the key was chosen for |
| Session.RecordedInsertIsFlushed | grails-datastore-gorm-neo4j/src/main/groovy/org/grails/datastore/gorm/neo4j/Neo4jSession.java:98-123 | an id recorded for a plain association comes out as the first operation for that association, and its key is drained |
| Session.ReversedSideDrainsInverseKey | grails-datastore-gorm-neo4j/src/main/groovy/org/grails/datastore/gorm/neo4j/Neo4jSession.java:366-378 | for a reversed association the inserts recorded under the inverse side of the associated object are flushed from that side |
| Session.ProcessEntity | grails-datastore-gorm-neo4j/src/main/groovy/org/grails/datastore/gorm/neo4j/Neo4jSession.java:311-322 | the per-entity pass keeps both ledgers valid |
| Session.ProcessAssociationsValid | grails-datastore-gorm-neo4j/src/main/groovy/org/grails/datastore/gorm/neo4j/Neo4jSession.java:319-322 | the association loop keeps both ledgers valid |
| Session.ProcessAssociationsDrains | grails-datastore-gorm-neo4j/src/main/groovy/org/grails/datastore/gorm/neo4j/Neo4jSession.java:319-322 | after the association loop, every key it drained has nothing pending, and every other key of both ledgers is as before |
| Session.ProcessAssociationsAppend | grails-datastore-gorm-neo4j/src/main/groovy/org/grails/datastore/gorm/neo4j/Neo4jSession.java:319-322 | the loop over two runs of associations is the loop over the first followed by the loop over the second on the ledgers it left, operations concatenated in order |
| Session.ProcessAssociationsSingle | grails-datastore-gorm-neo4j/src/main/groovy/org/grails/datastore/gorm/neo4j/Neo4jSession.java:319-322 | the loop over one association is that association's processing |
| Session.EntityDrainsOwnKeys | grails-datastore-gorm-neo4j/src/main/groovy/org/grails/datastore/gorm/neo4j/Neo4jSession.java:311-322 | after processing an entity, each non-reversed association's key, under the entity's id or the `from` end's id for a relationship entity with `from` set, has nothing pending in either ledger |
| Session.BasicCollectionSkipped | grails-datastore-gorm-neo4j/src/main/groovy/org/grails/datastore/gorm/neo4j/Neo4jSession.java:320 | adding a basic collection property to an entity changes neither its operations nor the ledgers it leaves |
| RelationshipOps.RewriteEnds | grails-datastore-gorm-neo4j/src/main/groovy/org/grails/datastore/gorm/neo4j/engine/RelationshipPendingInsert.java:81-100 | for a relationship entity the ends become its `from` and `to` entities, with the `from` id as start and the `to` id as the only target; otherwise the parent, child, parent id and targets are kept |
| RelationshipOps.EdgeParams | grails-datastore-gorm-neo4j/src/main/groovy/org/grails/datastore/gorm/neo4j/engine/RelationshipPendingInsert.java:102-103 | exactly `start` (the parent id) and `end` (the target list) are bound |
| RelationshipOps.RelProps | grails-datastore-gorm-neo4j/src/main/groovy/org/grails/datastore/gorm/neo4j/engine/RelationshipPendingInsert.java:128-144 | `rProps` holds every dynamic attribute, every non-null stored property other than `type`, and nothing else |
| RelationshipOps.DeletePreviousStatement | grails-datastore-gorm-neo4j/src/main/groovy/org/grails/datastore/gorm/neo4j/engine/RelationshipPendingInsert.java:151-172 | one-to-one and dynamic to-one bind `start` to the parent id alone; the others bind it to the targets; the text is the relationship match followed by the `from` (one-to-one, dynamic to-one) or `to` id condition and ` IN $start DELETE r` |
| RelationshipOps.DeletePreviousByKind | grails-datastore-gorm-neo4j/src/main/groovy/org/grails/datastore/gorm/neo4j/engine/RelationshipPendingInsert.java:151-154 | previous edges are deleted only on update: always for dynamic to-one; never for many-to-one, many-to-many or reversed associations; for one-to-one; and for one-to-many exactly when bidirectional |
| RelationshipOps.InsertRun | grails-datastore-gorm-neo4j/src/main/groovy/org/grails/datastore/gorm/neo4j/engine/RelationshipPendingInsert.java:72-196 | nothing runs for the `to` end of a relationship entity or a cancelled insert; otherwise an optional delete-previous and a MERGE binding `start`, `end` and, exactly for a declared association of a relationship entity, `rProps`, whose value is the relationship's property map |
| RelationshipOps.MergeShape | grails-datastore-gorm-neo4j/src/main/groovy/org/grails/datastore/gorm/neo4j/engine/RelationshipPendingInsert.java:174-188 | the MERGE text is the from/to match with the id conditions, `MERGE (from)<rel>(to)`, and ` ON CREATE SET r=$rProps` exactly for a relationship entity |
| RelationshipOps.DeletePreviousUsesMergePattern | grails-datastore-gorm-neo4j/src/main/groovy/org/grails/datastore/gorm/neo4j/engine/RelationshipPendingInsert.java:151-188 | on update the delete-previous statement matches the same relationship pattern, and the MERGE after it is the one an insert would run |
| RelationshipOps.DeletePreviousShape | grails-datastore-gorm-neo4j/src/main/groovy/org/grails/datastore/gorm/neo4j/engine/RelationshipPendingInsert.java:151-172 | on update, the first statement of an insert run is the delete-previous statement, with its full text and its `start` binding |
| RelationshipOps.DeleteStatement | grails-datastore-gorm-neo4j/src/main/groovy/org/grails/datastore/gorm/neo4j/engine/RelationshipPendingDelete.java:98-108 | the delete binds `start` and `end` like the insert; its text is the relationship match, the `from` id condition on `{start}`, the `to` id condition on `{end}` and ` DELETE r` |
| RelationshipOps.DeleteShape | grails-datastore-gorm-neo4j/src/main/groovy/org/grails/datastore/gorm/neo4j/engine/RelationshipPendingDelete.java:63-115 | for both readings, the one statement of a delete run has the full text: relationship match, `from` id on `{start}`, `to` id in `{end}`, ` DELETE r` |
| RelationshipOps.DeleteRunAsWritten | grails-datastore-gorm-neo4j/src/main/groovy/org/grails/datastore/gorm/neo4j/engine/RelationshipPendingDelete.java:63-115 | the `to` end of a relationship entity runs nothing; otherwise one delete whose labels are read before the end rewrite |
| RelationshipOps.DeleteRun | grails-datastore-gorm-neo4j/src/main/groovy/org/grails/datastore/gorm/neo4j/engine/RelationshipPendingDelete.java:63-115 | the delete with labels read after the end rewrite: one statement over the same ends the insert uses |
| RelationshipOps.DeleteRunsAgreeOnNodes | grails-datastore-gorm-neo4j/src/main/groovy/org/grails/datastore/gorm/neo4j/engine/RelationshipPendingDelete.java:67-89 | for an ordinary entity both readings give the same statement |
| RelationshipOps.DeleteMatchesInsert | grails-datastore-gorm-neo4j/src/main/groovy/org/grails/datastore/gorm/neo4j/engine/RelationshipPendingDelete.java:90-101 | a delete binds the same `start` and `end` as the MERGE it undoes, and for a declared association of an ordinary entity uses the same relationship pattern |
| RelationshipOps.DeleteRunsUnfold | grails-datastore-gorm-neo4j/src/main/groovy/org/grails/datastore/gorm/neo4j/engine/RelationshipPendingDelete.java:63-115 | the two readings differ only in which entities' labels the match names |
| RelationshipOps.DeleteLabelsOfRelationshipEntity | grails-datastore-gorm-neo4j/src/main/groovy/org/grails/datastore/gorm/neo4j/engine/RelationshipPendingDelete.java:67-68 | for a relationship entity the as-written delete matches the relationship entity's and the `from` end's labels, while the insert and the corrected delete use the `from` and `to` ends' labels |
| Persister.ChainLengthCountsAncestors | grails-datastore-gorm-neo4j/src/main/groovy/org/grails/datastore/gorm/neo4j/engine/Neo4jEntityPersister.java:390-396 | the inheritance chain length is the number of entities from the entity up to its root |
| Persister.InParentsChainIffAncestor | grails-datastore-gorm-neo4j/src/main/groovy/org/grails/datastore/gorm/neo4j/engine/Neo4jEntityPersister.java:382-388 | an entity is in another's parents chain exactly when it is one of its ancestors (itself included) |
| Persister.AncestorHasShorterChain | grails-datastore-gorm-neo4j/src/main/groovy/org/grails/datastore/gorm/neo4j/engine/Neo4jEntityPersister.java:390-396 | a proper ancestor has a strictly shorter chain |
| Persister.FirstQualifying | grails-datastore-gorm-neo4j/src/main/groovy/org/grails/datastore/gorm/neo4j/engine/Neo4jEntityPersister.java:371-380 | the result is the first entity in order that descends from the parent and carries the label, and none when no entity does |
| Persister.DerivedWithLabelMeaning | grails-datastore-gorm-neo4j/src/main/groovy/org/grails/datastore/gorm/neo4j/engine/Neo4jEntityPersister.java:371-380 | over the mapping context's order: the first qualifying entity, or none when no mapped entity qualifies |
| Persister.BestNoneIff | grails-datastore-gorm-neo4j/src/main/groovy/org/grails/datastore/gorm/neo4j/engine/Neo4jEntityPersister.java:349-362 | no entity is chosen exactly when no label finds a derived entity |
| Persister.BestRankIsMax | grails-datastore-gorm-neo4j/src/main/groovy/org/grails/datastore/gorm/neo4j/engine/Neo4jEntityPersister.java:353-361 | the chosen entity's chain is at least as long as that of the entity found for any label |
| Persister.BestIsFirst | grails-datastore-gorm-neo4j/src/main/groovy/org/grails/datastore/gorm/neo4j/engine/Neo4jEntityPersister.java:357-360 | the chosen entity is the one found for some label j, and every earlier label found a strictly shorter chain (ties keep the first) |
| Persister.MostSpecificIsFirstLongest | grails-datastore-gorm-neo4j/src/main/groovy/org/grails/datastore/gorm/neo4j/engine/Neo4jEntityPersister.java:349-369 | with no derived entity for any label the given entity is used; otherwise the result is the entity of the first label with the longest chain |
| Persister.MostSpecificDescends | grails-datastore-gorm-neo4j/src/main/groovy/org/grails/datastore/gorm/neo4j/engine/Neo4jEntityPersister.java:349-369 | the most specific entity always descends from the given one |
| Persister.MostSpecific | grails-datastore-gorm-neo4j/src/main/groovy/org/grails/datastore/gorm/neo4j/engine/Neo4jEntityPersister.java:349-369 | the loop over the labels computes the most specific entity |
| Persister.CountUpdates | grails-datastore-gorm-neo4j/src/main/groovy/org/grails/datastore/gorm/neo4j/engine/Neo4jEntityPersister.java:1101-1109 | zero without updates; otherwise congruent to the sum of the five counters modulo 2^32 (an `int` sum); while the sum fits in an `int`, the count is zero exactly when every counter is and bounds each counter |
| Persister.CountUpdatesWraps | grails-datastore-gorm-neo4j/src/main/groovy/org/grails/datastore/gorm/neo4j/engine/Neo4jEntityPersister.java:1105 | one node created on top of `Integer.MAX_VALUE` properties set is reported as `Integer.MIN_VALUE` |
| Persister.ShouldIgnore | grails-datastore-gorm-neo4j/src/main/groovy/org/grails/datastore/gorm/neo4j/engine/Neo4jEntityPersister.java:831-834 | an object is skipped exactly when it is already pending or is dirty-checkable and unchanged |
| Persister.TargetIds | grails-datastore-gorm-neo4j/src/main/groovy/org/grails/datastore/gorm/neo4j/engine/Neo4jEntityPersister.java:502-506 | an ids column that is not a collection reads as no ids |
| Persister.ResolveAssociation | grails-datastore-gorm-neo4j/src/main/groovy/org/grails/datastore/gorm/neo4j/engine/Neo4jEntityPersister.java:437-581 | an initialized association wins; a to-one `<name>Nodes` column gives no value for no node, the eager node for one and a more-than-one-node failure for several; a to-many takes every node of `<name>Rels` (relationship entities) or `<name>Nodes` as an eager collection; a column that is not a node collection fails; a to-many `<name>Ids` column gives a collection over its ids; without either column a lazy to-one gives a lazy proxy for the owner, an eager to-one the first query result (unset exactly when the query returns nothing), and a to-many a lazy collection keyed by the owner |
| Persister.ToOneIds | grails-datastore-gorm-neo4j/src/main/groovy/org/grails/datastore/gorm/neo4j/engine/Neo4jEntityPersister.java:507-523 | a to-one with ids fails exactly on more than one id, becomes a proxy for exactly one, and stays unset for none |
| Persister.ReadStored | grails-datastore-gorm-neo4j/src/main/groovy/org/grails/datastore/gorm/neo4j/engine/Neo4jEntityPersister.java:420-430 | exactly the stored properties present on the node are read, with the node's values |
| Persister.NodePropertiesPartition | grails-datastore-gorm-neo4j/src/main/groovy/org/grails/datastore/gorm/neo4j/engine/Neo4jEntityPersister.java:590-598 | every node property other than `__id__` is either read as declared or collected as undeclared, never both, with its node value |
| Persister.FirstFailureWins | grails-datastore-gorm-neo4j/src/main/groovy/org/grails/datastore/gorm/neo4j/engine/Neo4jEntityPersister.java:420-588 | properties are resolved in order: success exactly when none fails, and otherwise the error of the first failing property |
| Persister.ResolveAllEntries | grails-datastore-gorm-neo4j/src/main/groovy/org/grails/datastore/gorm/neo4j/engine/Neo4jEntityPersister.java:420-588 | every entry of a successful load belongs to an association property, and an association whose name no other property shares is present exactly when it resolves to a value, with that value |
| Persister.Unmarshall | grails-datastore-gorm-neo4j/src/main/groovy/org/grails/datastore/gorm/neo4j/engine/Neo4jEntityPersister.java:399-609 | the load succeeds exactly when every property resolves, fails with the first property's failure otherwise, and on success the instance's associations are exactly the resolved ones; it has the entity and id asked for, and each stored property present on the node holds the node's value |
| Persister.UndeclaredAttached | grails-datastore-gorm-neo4j/src/main/groovy/org/grails/datastore/gorm/neo4j/engine/Neo4jEntityPersister.java:590-605 | undeclared node properties become dynamic attributes only when the instance supports them, and no other attribute is added |
| Persister.UnmarshallOrFromCache | grails-datastore-gorm-neo4j/src/main/groovy/org/grails/datastore/gorm/neo4j/engine/Neo4jEntityPersister.java:270-289 | a write lock fails; a cached instance under (most specific entity, id) is returned as is; a success leaves the instance cached under that key and no other entry changed |
| Persister.SecondLoadHitsCache | grails-datastore-gorm-neo4j/src/main/groovy/org/grails/datastore/gorm/neo4j/engine/Neo4jEntityPersister.java:283-287 | loading the same node again returns the same instance, whatever the second load's row and initialized associations |
| Persister.FreshLoadUnmarshalls | grails-datastore-gorm-neo4j/src/main/groovy/org/grails/datastore/gorm/neo4j/engine/Neo4jEntityPersister.java:279-287 | an uncached node is unmarshalled as its most specific entity with the id read from it |
| Persister.SingleCreate | grails-datastore-gorm-neo4j/src/main/groovy/org/grails/datastore/gorm/neo4j/Neo4jSession.java:640-659 | a single insert binds only `props`, holding the object's insert map |
| Persister.SingleCreateText | grails-datastore-gorm-neo4j/src/main/groovy/org/grails/datastore/gorm/neo4j/engine/Neo4jEntityPersister.java:749-755 | the single insert is `CREATE (n<labels> {props})` followed by the entity's id return |
| Persister.PersistEntity | grails-datastore-gorm-neo4j/src/main/groovy/org/grails/datastore/gorm/neo4j/engine/Neo4jEntityPersister.java:667-792 | null fails; an ignored object returns its id and changes nothing; every other non-proxy becomes pending; the only other failure is a missing generated identifier; an insert run now returns the identifier the database gave; a non-ignored proxy returns its key and changes nothing; a non-ignored, non-proxy object registers an update exactly when it has an id, no insert was asked for, and it is not an assigned-id object missing from the session, and the update carries the object and its id |
| Persister.AssignedIdNotInSessionInserts | grails-datastore-gorm-neo4j/src/main/groovy/org/grails/datastore/gorm/neo4j/engine/Neo4jEntityPersister.java:690-695 | an assigned-id object the session does not hold is never treated as an update |
| Persister.NativeInsertIdentity | grails-datastore-gorm-neo4j/src/main/groovy/org/grails/datastore/gorm/neo4j/engine/Neo4jEntityPersister.java:733-783 | a new native-id node is vetoed with no id, or is created at once; it fails exactly when no identifier comes back; otherwise it takes that identifier |
| Persister.GeneratedIdQueued | grails-datastore-gorm-neo4j/src/main/groovy/org/grails/datastore/gorm/neo4j/engine/Neo4jEntityPersister.java:702-710 | a new object with a generator takes the next generated id and is queued as an unexecuted insert under it |
| Persister.RepeatedSaveIgnored | grails-datastore-gorm-neo4j/src/main/groovy/org/grails/datastore/gorm/neo4j/engine/Neo4jEntityPersister.java:674-687 | once saved, saving the same object again in the same flush is ignored |
| Persister.SlotMeaning | grails-datastore-gorm-neo4j/src/main/groovy/org/grails/datastore/gorm/neo4j/engine/Neo4jEntityPersister.java:114-190 | in the batch, an ignored object keeps its id, a proxy its key, an object with an id that id; a new one is a null placeholder if vetoed and awaits a pattern otherwise |
| Persister.ClassifyShape | grails-datastore-gorm-neo4j/src/main/groovy/org/grails/datastore/gorm/neo4j/engine/Neo4jEntityPersister.java:166-183 | the j-th pattern inserts the new, non-vetoed object at position `indexMap[j]`, whose slot awaits pattern j, and every awaiting slot is the position of its own pattern |
| Persister.BatchPersist | grails-datastore-gorm-neo4j/src/main/groovy/org/grails/datastore/gorm/neo4j/engine/Neo4jEntityPersister.java:101-227 | the batch fails exactly when some object became a pattern and the row lacks a node column; otherwise one id per object, and a statement exactly when there is a pattern |
| Persister.BatchCorrelation | grails-datastore-gorm-neo4j/src/main/groovy/org/grails/datastore/gorm/neo4j/engine/Neo4jEntityPersister.java:211-222 | the node id in column `n<j+1>` is returned at the position of the object whose pattern was numbered j+1 |
| Persister.BatchPatternNumbering | grails-datastore-gorm-neo4j/src/main/groovy/org/grails/datastore/gorm/neo4j/engine/Neo4jEntityPersister.java:178-183 | pattern j+1 is that object's pattern, and `props<j+1>` holds that object's insert map |
| Persister.BatchKnownPositions | grails-datastore-gorm-neo4j/src/main/groovy/org/grails/datastore/gorm/neo4j/engine/Neo4jEntityPersister.java:117-174 | positions not awaiting a pattern return the id the walk already knew |
| Persister.BatchInsertsNotRecreated | grails-datastore-gorm-neo4j/src/main/groovy/org/grails/datastore/gorm/neo4j/engine/Neo4jEntityPersister.java:211-222 | the inserts the batch hands to the session are executed, so the flush creates none of them again |
| Persister.WalkBatch | grails-datastore-gorm-neo4j/src/main/groovy/org/grails/datastore/gorm/neo4j/engine/Neo4jEntityPersister.java:114-190 | the loop's ids, patterns, index map, text and parameters mirror the declarative walk |
| Persister.Correlate | grails-datastore-gorm-neo4j/src/main/groovy/org/grails/datastore/gorm/neo4j/engine/Neo4jEntityPersister.java:206-222 | the reading loop fails exactly when a column `n1..n<k>` is missing; otherwise it resolves every slot and stamps each insert with its node id |
| Persister.RunBatch | grails-datastore-gorm-neo4j/src/main/groovy/org/grails/datastore/gorm/neo4j/engine/Neo4jEntityPersister.java:101-227 | the batch method computes the declarative batch result |
| Persister.PersistEntities | grails-datastore-gorm-neo4j/src/main/groovy/org/grails/datastore/gorm/neo4j/engine/Neo4jEntityPersister.java:87-239 | a native-id node entity without dynamic associations takes the batch path with one id per object; the other paths return only non-null ids, at most one per object |
| Persister.PersistEachGenerated | grails-datastore-gorm-neo4j/src/main/groovy/org/grails/datastore/gorm/neo4j/engine/Neo4jEntityPersister.java:229-235 | saving new, non-proxy, not-yet-pending changed objects of an entity with an id generator one by one returns the generated ids in order and leaves every object pending |
| Persister.PersistEntitiesGenerated | grails-datastore-gorm-neo4j/src/main/groovy/org/grails/datastore/gorm/neo4j/engine/Neo4jEntityPersister.java:91-97 | on the per-object path, `persistEntities` returns one id per such object: the generator's ids, in order |
| Datastore.PropertyStatement | grails-datastore-gorm-neo4j/src/main/groovy/org/grails/datastore/gorm/neo4j/Neo4jDatastore.java:512-526 | a property yields at most one statement |
| Datastore.PropertyStatementsMembership | grails-datastore-gorm-neo4j/src/main/groovy/org/grails/datastore/gorm/neo4j/Neo4jDatastore.java:512-526 | a statement is among a label's property statements exactly when some simple mapped property asks for it: unique gives the constraint, else index gives the index |
| Datastore.IdentityStatement | grails-datastore-gorm-neo4j/src/main/groovy/org/grails/datastore/gorm/neo4j/Neo4jDatastore.java:503-509 | the identity yields at most one statement |
| Datastore.LabelStatementsMembership | grails-datastore-gorm-neo4j/src/main/groovy/org/grails/datastore/gorm/neo4j/Neo4jDatastore.java:501-528 | a label's statements are exactly the identity constraint (on `__id__` for snowflake, on the identity for other non-native ids) and the properties' statements |
| Datastore.EntityStatementsMembership | grails-datastore-gorm-neo4j/src/main/groovy/org/grails/datastore/gorm/neo4j/Neo4jDatastore.java:501-529 | an entity's statements are exactly those some of its labels ask for |
| Datastore.SchemaMembership | grails-datastore-gorm-neo4j/src/main/groovy/org/grails/datastore/gorm/neo4j/Neo4jDatastore.java:494-530 | the schema holds exactly the statements of entities that are neither external nor relationships |
| Datastore.SchemaStatements | grails-datastore-gorm-neo4j/src/main/groovy/org/grails/datastore/gorm/neo4j/Neo4jDatastore.java:494-530 | a non-empty schema needs an entity that is neither external nor a relationship |
| Datastore.SetupIndexing | grails-datastore-gorm-neo4j/src/main/groovy/org/grails/datastore/gorm/neo4j/Neo4jDatastore.java:491 | skipping index setup yields no statements |
| Datastore.SchemaStrings | grails-datastore-gorm-neo4j/src/main/groovy/org/grails/datastore/gorm/neo4j/Neo4jDatastore.java:490-530 | the nested loops collect the declarative schema in order |
| Datastore.AddEntityStatements | grails-datastore-gorm-neo4j/src/main/groovy/org/grails/datastore/gorm/neo4j/Neo4jDatastore.java:501-529 | the label loop appends the entity's statements to the collected ones |
| Datastore.AddPropertyStatements | grails-datastore-gorm-neo4j/src/main/groovy/org/grails/datastore/gorm/neo4j/Neo4jDatastore.java:512-527 | the property loop appends the label's property statements |
| Datastore.ConstraintNotIndex | grails-datastore-gorm-neo4j/src/main/groovy/org/grails/datastore/gorm/neo4j/Neo4jDatastore.java:519-522 | a unique constraint and an index statement never coincide |
| Datastore.PropertyIndexInjective | grails-datastore-gorm-neo4j/src/main/groovy/org/grails/datastore/gorm/neo4j/Neo4jDatastore.java:521 | on one label, the index text determines its property |
| Datastore.UniqueBeforeIndex | grails-datastore-gorm-neo4j/src/main/groovy/org/grails/datastore/gorm/neo4j/Neo4jDatastore.java:516-523 | a property mapped both unique and indexed gets the constraint and no index |
| Datastore.RegistryMeaning | grails-datastore-gorm-neo4j/src/main/groovy/org/grails/datastore/gorm/neo4j/Neo4jDatastore.java:129-149 | with several connection sources every source name is registered, the default one to this datastore and the others to their own child; a single source registers nothing |
| Datastore.DatastoreForTenant | grails-datastore-gorm-neo4j/src/main/groovy/org/grails/datastore/gorm/neo4j/Neo4jDatastore.java:607-612 | outside DATABASE mode every tenant is served by this datastore |
| Datastore.TenantRouting | grails-datastore-gorm-neo4j/src/main/groovy/org/grails/datastore/gorm/neo4j/Neo4jDatastore.java:607-612 | in DATABASE mode a tenant is served by the datastore of the source of the same name, and by none exactly when no such source exists |
| Datastore.DatastoreForQualifier | grails-datastore-gorm-neo4j/src/main/groovy/org/grails/datastore/gorm/neo4j/Neo4jDatastore.java:458-474 | the default qualifier of an entity on the default connection is this datastore; the only error names the entity's default connection |
| Datastore.QualifierRouting | grails-datastore-gorm-neo4j/src/main/groovy/org/grails/datastore/gorm/neo4j/Neo4jDatastore.java:458-474 | with several sources the effective qualifier reaches this datastore for the default connection, its child otherwise, and an error exactly when it names no source |
| Datastore.DefaultQualifierAlias | grails-datastore-gorm-neo4j/src/main/groovy/org/grails/datastore/gorm/neo4j/Neo4jDatastore.java:465-467 | asking for the default qualifier equals asking for the entity's default connection by name |
| Datastore.EffectiveQualifier | grails-datastore-gorm-neo4j/src/main/groovy/org/grails/datastore/gorm/neo4j/Neo4jDatastore.java:459-467 | the default qualifier stands for the entity's default connection; any other qualifier for itself |
| Values.WrapInt32 | grails-datastore-gorm-neo4j/src/main/groovy/org/grails/datastore/gorm/neo4j/Neo4jSession.java:997-999 | Java `int` arithmetic: values in range are unchanged, others are reduced modulo 2^32 |
| Values.LongIncrement | grails-datastore-gorm-neo4j/src/main/groovy/org/grails/datastore/gorm/neo4j/Neo4jSession.java:287 | `version + 1` on a Java `long`: the successor, and wrapping to the minimum at the maximum |

## Left out

- The UNWIND batch path for entities with generated ids (`processInsertsForEntity`) and the flushing of pending inserts that runs the create statement are not modelled. Only the construction of the statement (`buildCypherCreateStatement`) is.
- `amendMapWithUndeclaredProperties`, custom-type marshallers (`applyCustomType`) and `convertToNative`: property values are stored as they are. Undeclared properties on save are not written.
- Events (pre/post insert, update, load), the pre-operations and cascade operations of pending operations, and proxies are left out. Vetoes and the cancelled relationship insert are boolean inputs.
- Dynamic associations: the dynamic-association drain at the end of the entity-level `processPendingRelationshipUpdates` (Neo4jSession.java:323-356), which walks the concurrent map's key set in an order the model does not fix and sorts inserts by association name, and the dynamic-association parameter of a create are left out. Dynamic to-one associations are modelled only inside the relationship statements.
- `persistAssociationsOfEntity` and the association walk after an insert are left out. Only the ledger they write into is modelled.
- Unmarshalling:
  - The `nodeId` property is not modelled.
  - Eager nodes are not unmarshalled recursively: they are recorded as `EagerOne`/`EagerMany` values.
  - The collection wrappers for lists, sorted sets and sets are reduced to a collection-type tag.
  - The instance cached before its properties are read is not modelled: on a failure the model's cache stays as it was.
- Persister.UnmarshallOrFromCache: the relationship overload of `unmarshallOrFromCache` is not modelled.
- A `<name>Nodes` column that holds ids, and the relationships of a `<name>Rels` column, are both carried as node lists.
- Persister.BatchPersist: a missing `n<k>` column and a column holding a null node are treated alike, as a failure to generate an identifier.
- Persister.ChainLengthCountsAncestors: `calcInheritenceChain(null) == 0` is not modelled on its own. The chain is counted from a non-null entity.
- Driver I/O, logging, and running the schema strings in a transaction (with its `DatastoreConfigurationException`) are left out. Result rows and replies are parameters.
- Datastore.DatastoreForTenant: the tenant id is given as its string form, and `toString` is not modelled.
- Datastore.Registry: the singleton connection source is a boolean flag. Building the child datastores is not modelled.
- Datastore.UniqueBeforeIndex: assumes property names are distinct within an entity, as the mapping guarantees.
- Persister.RepeatedSaveIgnored: the first save must not have been ignored or a proxy. Those two actions do not make the object pending.
- Ledger.Record: the key evicted on overflow is an input, `victim`; the least-recently-used order of the concurrent map that picks it is not modelled.
- Concurrency: the ledgers are concurrent maps in the code, and the model treats them as plain maps.
- Session.FlushUpdate: the cast of the updated object to `DirtyCheckable` is assumed to succeed. The model resets change tracking on every object, and the `ClassCastException` for an object that does not track changes is not modelled.
- The `versioned` flag of an entity stands for `isVersioned()` together with a `version` property of type `Long` (Neo4jSession.java:228); an entity that is versioned with a version of another type updates as unversioned.

## Notes on the code

- The mapping is reversed when the code chooses the ledger key (`processPendingRelationshipUpdates`). The statements always bind `start` to the owner and `end` to the targets.
- Only the native-id batch path returns one id per object, with `null` for vetoed objects. The per-object paths skip null ids.
- The SET clause always targets the literal variable `n`, even after `setStartNode` renamed the start variable.
- Index setup considers only `Simple` properties. Tenant-id and basic properties never get constraints or indexes.

## Findings

| source | as written | input that shows it | evidently intended | confidence | as-written member | corrected member |
|---|---|---|---|---|---|---|
| grails-datastore-gorm-neo4j/src/main/groovy/org/grails/datastore/gorm/neo4j/engine/RelationshipPendingDelete.java:67-68 | the MATCH labels are read before a relationship entity's ends are rewritten, so the match uses the labels of the relationship entity and of its `from` end | deleting the `from` association of a relationship entity whose nodes carry only their own labels (RelationshipOps.DeleteLabelsOfRelationshipEntity) | use the labels of the `from` and `to` ends, as the insert does, so the delete matches the edge its MERGE created | not executed | RelationshipOps.DeleteRunAsWritten | RelationshipOps.DeleteRun |

=== FILE: cypher_builder.dfy ===
/**
 * The Cypher statement builder: an immutable builder state, the operations
 * that add clause fragments and positional parameters, and `Build`, which
 * assembles the statement text. Every operation returns a new state;
 * `Build` only reads its argument, so building twice yields the same text
 * and leaves the parameters as they were.
 */
module CypherBuilder {
  import opened Values

  const WHERE: string := " WHERE "
  const RETURN: string := " RETURN "
  const COMMAND_SEPARATOR: string := ", "
  const DEFAULT_RETURN_STATEMENT: string := RETURN + "n as data\n"
  const NEW_LINE: string := " \n"
  const START_MATCH: string := "MATCH ("
  const SPACE: string := " "
  const OPTIONAL_MATCH: string := "OPTIONAL MATCH"
  const CYPHER_CREATE: string := "CREATE "
  const DELETE: string := "\n DETACH DELETE "
  const NODE_VAR: string := "n"
  const REL_VAR: string := "r"

  /** The parameter map: a LinkedHashMap, so entries keep their insertion order. */
  type Params = seq<(string, Value)>

  datatype Builder = Builder(
    forLabels: string,
    matches: seq<string>,
    relationshipMatches: seq<string>,
    optionalMatches: seq<string>,
    conditions: Option<string>,
    orderAndLimits: Option<string>,
    returnColumns: seq<string>,
    deleteColumns: seq<string>,
    sets: Option<map<string, Value>>,
    params: Params,
    setIndex: int,
    startNode: string,
    defaultReturnStatement: string)

  // ---------------------------------------------------------------------
  // The parameter map
  // ---------------------------------------------------------------------

  function Lookup(p: Params, key: string): Option<Value>
  {
    if |p| == 0 then None
    else if p[|p| - 1].0 == key then Some(p[|p| - 1].1)
    else Lookup(p[..|p| - 1], key)
  }

  predicate HasKey(p: Params, key: string)
  {
    exists k :: 0 <= k < |p| && p[k].0 == key
  }

  /** `Map.put`: overwrite the value of an existing key in place, otherwise append. */
  function Put(p: Params, key: string, v: Value): (r: Params)
    ensures HasKey(p, key) ==> |r| == |p|
    ensures !HasKey(p, key) ==> r == p + [(key, v)]
    ensures forall k :: 0 <= k < |p| ==> r[k].0 == p[k].0
    ensures forall k :: 0 <= k < |p| && p[k].0 != key ==> r[k] == p[k]
    ensures forall k :: 0 <= k < |p| && p[k].0 == key && (forall j :: 0 <= j < k ==> p[j].0 != key) ==>
              r[k] == (key, v)
  {
    if |p| == 0 then [(key, v)]
    else if p[0].0 == key then [(key, v)] + p[1..]
    else [p[0]] + Put(p[1..], key, v)
  }

  /** Keys are exactly `"1"`, `"2"`, ..., `"k"` in insertion order. */
  ghost predicate Consecutive(p: Params)
  {
    |p| == 0 || (p[|p| - 1].0 == NatToString(|p|) && Consecutive(p[..|p| - 1]))
  }

  /** Entry `k` of a consecutive map is keyed `"k+1"`. */
  lemma {:induction false} ConsecutiveAt(p: Params, k: nat)
    requires Consecutive(p) && k < |p|
    ensures p[k].0 == NatToString(k + 1)
  {
    if k < |p| - 1 {
      ConsecutiveAt(p[..|p| - 1], k);
    }
  }

  /** Consecutiveness depends on the keys alone. */
  lemma {:induction false} ConsecutiveSameKeys(p: Params, q: Params)
    requires Consecutive(p) && |q| == |p|
    requires forall k :: 0 <= k < |p| ==> q[k].0 == p[k].0
    ensures Consecutive(q)
  {
    if |p| > 0 {
      var p', q' := p[..|p| - 1], q[..|q| - 1];
      forall k | 0 <= k < |p'| ensures q'[k].0 == p'[k].0 {
        assert q'[k] == q[k] && p'[k] == p[k];
      }
      ConsecutiveSameKeys(p', q');
    }
  }

  /** `String.valueOf(int)`. */
  function IntToString(i: int): string
  {
    if i >= 0 then NatToString(i) else "-" + NatToString(-i)
  }

  lemma LookupFindsLast(p: Params, key: string, k: nat)
    requires k < |p| && p[k].0 == key
    requires forall j :: k < j < |p| ==> p[j].0 != key
    ensures Lookup(p, key) == Some(p[k].1)
  {
    if k < |p| - 1 {
      LookupFindsLast(p[..|p| - 1], key, k);
    }
  }

  lemma LookupAbsent(p: Params, key: string)
    requires !HasKey(p, key)
    ensures Lookup(p, key) == None
  {
    if |p| > 0 {
      var q := p[..|p| - 1];
      forall k | 0 <= k < |q| ensures q[k].0 != key {
        assert q[k] == p[k];
      }
      LookupAbsent(q, key);
    }
  }

  // ---------------------------------------------------------------------
  // Operations
  // ---------------------------------------------------------------------

  /** `new CypherBuilder(forLabels)`: start variable `n`, nothing added yet. */
  function New(forLabels: string): (b: Builder)
    ensures b.startNode == NODE_VAR && b.defaultReturnStatement == DEFAULT_RETURN_STATEMENT
    ensures b.forLabels == forLabels && b.params == [] && b.sets.None?
    ensures b.matches == [] && b.relationshipMatches == [] && b.optionalMatches == []
    ensures b.deleteColumns == [] && b.returnColumns == []
    ensures b.conditions.None? && b.orderAndLimits.None?
  {
    Builder(forLabels, [], [], [], None, None, [], [], None, [], 0, NODE_VAR, DEFAULT_RETURN_STATEMENT)
  }

  /**
   * `setStartNode`: a null name changes nothing; otherwise the statement
   * opens with a MATCH on the new name, and, when no RETURN column, order
   * text, SET map or delete column is given, returns that name as `data`.
   */
  function SetStartNode(b: Builder, startNode: Option<string>): (r: Builder)
    ensures startNode.None? ==> r == b
    ensures startNode.Some? ==> r == b.(startNode := startNode.value,
                                        defaultReturnStatement := RETURN + startNode.value + " as data\n")
    ensures startNode.Some? ==> START_MATCH + startNode.value + b.forLabels + ")" <= Build(r)
    ensures startNode.Some? && |b.returnColumns| == 0 && b.orderAndLimits.None? && b.sets.None?
            && |b.deleteColumns| == 0 ==>
              Build(r) == Head(r) + (RETURN + startNode.value + " as data\n")
  {
    match startNode
    case None => b
    case Some(s) =>
      var r := b.(startNode := s, defaultReturnStatement := RETURN + s + " as data\n");
      assert Build(r) == Head(r) + Tail(r);
      PrefixTrans(START_MATCH + s + b.forLabels + ")", Head(r), Build(r));
      r
  }

  /** `addMatch`: appended only when that exact text is not already present. */
  function AddMatch(b: Builder, m: string): (r: Builder)
    ensures r == b.(matches := r.matches)
    ensures m in b.matches ==> r == b
    ensures m !in b.matches ==> r.matches == b.matches + [m]
    ensures NoDup(b.matches) ==> NoDup(r.matches)
  {
    b.(matches := AppendIfAbsent(b.matches, m))
  }

  /** `addRelationshipMatch`: same deduplication as `addMatch`, on the relationship fragments. */
  function AddRelationshipMatch(b: Builder, m: string): (r: Builder)
    ensures r == b.(relationshipMatches := r.relationshipMatches)
    ensures m in b.relationshipMatches ==> r == b
    ensures m !in b.relationshipMatches ==> r.relationshipMatches == b.relationshipMatches + [m]
    ensures NoDup(b.relationshipMatches) ==> NoDup(r.relationshipMatches)
  {
    b.(relationshipMatches := AppendIfAbsent(b.relationshipMatches, m))
  }

  /** `replaceFirstRelationshipMatch`: the first fragment becomes `m`; the others stay. */
  function ReplaceFirstRelationshipMatch(b: Builder, m: string): (r: Builder)
    ensures r == b.(relationshipMatches := r.relationshipMatches)
    ensures |b.relationshipMatches| == 0 ==> r.relationshipMatches == [m]
    ensures |b.relationshipMatches| > 0 ==> |r.relationshipMatches| == |b.relationshipMatches|
    ensures r.relationshipMatches[0] == m
    ensures r.relationshipMatches[1..] == if |b.relationshipMatches| == 0 then [] else b.relationshipMatches[1..]
  {
    if |b.relationshipMatches| == 0 then b.(relationshipMatches := [m])
    else b.(relationshipMatches := b.relationshipMatches[0 := m])
  }

  /** `addOptionalMatch`: never deduplicated. */
  function AddOptionalMatch(b: Builder, m: string): (r: Builder)
    ensures r == b.(optionalMatches := b.optionalMatches + [m])
  {
    b.(optionalMatches := b.optionalMatches + [m])
  }

  /**
   * `setConditions`: a null or empty predicate leaves the text as without
   * conditions; any other predicate becomes a WHERE clause right after the
   * match fragments. Nothing after the head changes.
   */
  function SetConditions(b: Builder, c: Option<string>): (r: Builder)
    ensures r == b.(conditions := c)
    ensures Tail(r) == Tail(b) && OptionalSection(r) == OptionalSection(b)
    ensures c.None? || c == Some("") ==> Build(r) == Build(b.(conditions := None))
    ensures c.Some? && c.value != "" ==>
              MatchSection(r) == MatchSection(b.(conditions := None)) + (WHERE + c.value)
  {
    var r := b.(conditions := c);
    WhereOnlyWhenNonEmpty(r);
    assert r.(conditions := None) == b.(conditions := None);
    r
  }

  /**
   * `setOrderAndLimits`: the text is appended to the RETURN clause (after
   * the default return and before a new line, or after the columns and a
   * space); a delete column makes it irrelevant.
   */
  function SetOrderAndLimits(b: Builder, o: Option<string>): (r: Builder)
    ensures r == b.(orderAndLimits := o)
    ensures |b.deleteColumns| > 0 ==> Build(r) == Build(b)
    ensures |b.deleteColumns| == 0 && |b.returnColumns| == 0 ==>
              Build(r) == Head(b) + (SetClause(b) + (b.defaultReturnStatement + (if o.Some? then o.value + NEW_LINE else "")))
    ensures |b.deleteColumns| == 0 && |b.returnColumns| > 0 ==>
              Build(r) == Head(b) + (SetClause(b) + (RETURN + Join(b.returnColumns, COMMAND_SEPARATOR)
                                                      + (if o.Some? then SPACE + o.value else "")))
  {
    b.(orderAndLimits := o)
  }

  /**
   * `addReturnColumn`: without delete columns the statement returns the
   * earlier columns and then `c`, comma separated, in place of the default
   * return; with delete columns the text does not change.
   */
  function AddReturnColumn(b: Builder, c: string): (r: Builder)
    ensures r == b.(returnColumns := b.returnColumns + [c])
    ensures |b.deleteColumns| > 0 ==> Build(r) == Build(b)
    ensures |b.deleteColumns| == 0 && |b.returnColumns| == 0 ==>
              Build(r) == Head(b) + (SetClause(b) + (RETURN + c
                                                      + (if b.orderAndLimits.Some? then SPACE + b.orderAndLimits.value else "")))
    ensures |b.deleteColumns| == 0 && |b.returnColumns| > 0 ==>
              Build(r) == Head(b) + (SetClause(b) + (RETURN + (Join(b.returnColumns, COMMAND_SEPARATOR) + COMMAND_SEPARATOR + c)
                                                      + (if b.orderAndLimits.Some? then SPACE + b.orderAndLimits.value else "")))
  {
    var r := b.(returnColumns := b.returnColumns + [c]);
    if |b.returnColumns| > 0 then JoinSnoc(b.returnColumns, c, COMMAND_SEPARATOR); r
    else assert r.returnColumns == [c]; r
  }

  /**
   * `addDeleteColumn`: the statement becomes the head followed by
   * `DETACH DELETE` over the earlier delete columns and `c`, whatever SET
   * map or RETURN columns the builder holds.
   */
  function AddDeleteColumn(b: Builder, c: string): (r: Builder)
    ensures r == b.(deleteColumns := b.deleteColumns + [c])
    ensures Build(r) == Head(b) + (DELETE + Join(b.deleteColumns + [c], COMMAND_SEPARATOR))
    ensures |b.deleteColumns| > 0 ==>
              Build(r) == Head(b) + (DELETE + (Join(b.deleteColumns, COMMAND_SEPARATOR) + COMMAND_SEPARATOR + c))
  {
    var r := b.(deleteColumns := b.deleteColumns + [c]);
    if |b.deleteColumns| > 0 then JoinSnoc(b.deleteColumns, c, COMMAND_SEPARATOR); r
    else r
  }

  /**
   * `addParam`: stores `v` under the key `String.valueOf(size + 1)` and
   * returns the new size. On a map whose keys are `"1".."k"` this appends
   * under `"k+1"` and returns `k + 1`, the position that names `v`.
   */
  function AddParam(b: Builder, v: Value): (r: (Builder, int))
    ensures r.0 == b.(params := r.0.params)
    ensures r.1 == |r.0.params|
    ensures Consecutive(b.params) ==>
              && r.0.params == b.params + [(NatToString(|b.params| + 1), v)]
              && Consecutive(r.0.params)
              && r.1 == |b.params| + 1
              && Lookup(r.0.params, NatToString(r.1)) == Some(v)
  {
    var key := NatToString(|b.params| + 1);
    var p := Put(b.params, key, v);
    AppendNextKey(b.params, v);
    (b.(params := p), |p|)
  }

  lemma AppendNextKey(p: Params, v: Value)
    ensures var key := NatToString(|p| + 1);
            Consecutive(p) ==>
              && Put(p, key, v) == p + [(key, v)]
              && Consecutive(p + [(key, v)])
              && Lookup(Put(p, key, v), key) == Some(v)
  {
    var key := NatToString(|p| + 1);
    if Consecutive(p) {
      NextKeyIsFresh(p);
      LookupFindsLast(p + [(key, v)], key, |p|);
      ConsecutiveSnoc(p, v);
    }
  }

  /** Appending under the next number keeps the keys consecutive. */
  lemma ConsecutiveSnoc(p: Params, v: Value)
    requires Consecutive(p)
    ensures Consecutive(p + [(NatToString(|p| + 1), v)])
  {
    var q := p + [(NatToString(|p| + 1), v)];
    assert q[..|p|] == p;
  }

  /** On consecutive keys `"1".."k"`, the key `"k+1"` is not yet used. */
  lemma NextKeyIsFresh(p: Params)
    requires Consecutive(p)
    ensures !HasKey(p, NatToString(|p| + 1))
  {
    var key := NatToString(|p| + 1);
    forall k | 0 <= k < |p| ensures p[k].0 != key {
      ConsecutiveAt(p, k);
      if p[k].0 == key {
        NatToStringInjective(k + 1, |p| + 1);
      }
    }
  }

  /** `replaceParamAt`: `put(String.valueOf(position), value)`; position 1 is the first parameter. */
  function ReplaceParamAt(b: Builder, position: int, v: Value): (r: Builder)
    ensures r == b.(params := r.params)
    ensures Consecutive(b.params) && 1 <= position <= |b.params| ==>
              && |r.params| == |b.params|
              && Consecutive(r.params)
              && Lookup(r.params, NatToString(position)) == Some(v)
              && (forall k :: 0 <= k < |b.params| && k != position - 1 ==> r.params[k] == b.params[k])
  {
    var p := Put(b.params, IntToString(position), v);
    ReplaceInRange(b.params, position, v);
    b.(params := p)
  }

  lemma ReplaceInRange(p: Params, position: int, v: Value)
    ensures Consecutive(p) && 1 <= position <= |p| ==>
            var r := Put(p, NatToString(position), v);
            && |r| == |p|
            && r[position - 1] == (NatToString(position), v)
            && (forall k :: 0 <= k < |p| && k != position - 1 ==> r[k] == p[k])
            && Lookup(r, NatToString(position)) == Some(v)
            && Consecutive(r)
  {
    if !(Consecutive(p) && 1 <= position <= |p|) {
      return;
    }
    var key := NatToString(position);
    ConsecutiveKeyUnique(p, position - 1);
    PutAtUniqueKey(p, key, v, position - 1);
    var r := p[position - 1 := (key, v)];
    forall j | position - 1 < j < |r| ensures r[j].0 != key {
      assert r[j] == p[j];
    }
    LookupFindsLast(r, key, position - 1);
    ConsecutiveSameKeys(p, r);
  }

  /** In a consecutive map, entry `i` is the only one keyed `"i+1"`. */
  lemma ConsecutiveKeyUnique(p: Params, i: nat)
    requires Consecutive(p) && i < |p|
    ensures p[i].0 == NatToString(i + 1)
    ensures forall k :: 0 <= k < |p| && k != i ==> p[k].0 != NatToString(i + 1)
  {
    ConsecutiveAt(p, i);
    forall k | 0 <= k < |p| && k != i ensures p[k].0 != NatToString(i + 1) {
      ConsecutiveAt(p, k);
      if p[k].0 == NatToString(i + 1) {
        NatToStringInjective(k + 1, i + 1);
      }
    }
  }

  lemma PutAtUniqueKey(p: Params, key: string, v: Value, i: nat)
    requires i < |p| && p[i].0 == key
    requires forall k :: 0 <= k < |p| && k != i ==> p[k].0 != key
    ensures Put(p, key, v) == p[i := (key, v)]
  {
    if i > 0 {
      var q := p[1..];
      forall k | 0 <= k < |q| && k != i - 1 ensures q[k].0 != key {
        assert q[k] == p[k + 1];
      }
      PutAtUniqueKey(q, key, v, i - 1);
      assert p[0].0 != key;
      assert Put(p, key, v) == [p[0]] + Put(q, key, v);
      assert [p[0]] + q[i - 1 := (key, v)] == p[i := (key, v)];
    } else {
      assert Put(p, key, v) == [(key, v)] + p[1..];
      assert [(key, v)] + p[1..] == p[0 := (key, v)];
    }
  }

  /**
   * `addPropertySet`: a null map changes nothing; otherwise the map becomes
   * a parameter and its position is recorded for the SET clause.
   */
  function AddPropertySet(b: Builder, sets: Option<map<string, Value>>): (r: Builder)
    ensures sets.None? ==> r == b
    ensures sets.Some? ==> r.sets == sets && r.setIndex == |r.params|
    ensures sets.Some? ==> r == b.(params := r.params, sets := sets, setIndex := r.setIndex)
    ensures sets.Some? && Consecutive(b.params) ==>
              && Consecutive(r.params)
              && r.setIndex == |b.params| + 1
              && Lookup(r.params, NatToString(r.setIndex)) == Some(Props(sets.value))
  {
    match sets
    case None => b
    case Some(s) =>
      var (b1, index) := AddParam(b, Props(s));
      b1.(setIndex := index, sets := Some(s))
  }

  // ---------------------------------------------------------------------
  // build()
  // ---------------------------------------------------------------------

  /** The WHERE clause, present only for a non-null, non-empty predicate. */
  function WhereClause(c: Option<string>): string
  {
    if c.Some? && c.value != "" then WHERE + c.value else ""
  }

  /** `MATCH (start labels)`, relationship fragments, extra matches, WHERE. */
  function MatchSection(b: Builder): string
  {
    START_MATCH + b.startNode + b.forLabels + ")"
    + Concat(b.relationshipMatches)
    + PrefixEach(COMMAND_SEPARATOR, b.matches)
    + WhereClause(b.conditions)
  }

  /** Every optional match on its own line, in insertion order. */
  function OptionalSection(b: Builder): string
  {
    PrefixEach(NEW_LINE + OPTIONAL_MATCH, b.optionalMatches)
  }

  function Head(b: Builder): string
  {
    MatchSection(b) + OptionalSection(b)
  }

  function SetClause(b: Builder): string
  {
    if b.sets.Some? then "\nSET n += {" + IntToString(b.setIndex) + "}\n" else ""
  }

  function ReturnClause(b: Builder): string
  {
    if |b.returnColumns| == 0 then
      b.defaultReturnStatement + (if b.orderAndLimits.Some? then b.orderAndLimits.value + NEW_LINE else "")
    else
      RETURN + Join(b.returnColumns, COMMAND_SEPARATOR)
      + (if b.orderAndLimits.Some? then SPACE + b.orderAndLimits.value else "")
  }

  /** What follows the head: `DETACH DELETE` when there are delete columns, otherwise SET and RETURN. */
  function Tail(b: Builder): string
  {
    if |b.deleteColumns| > 0 then DELETE + Join(b.deleteColumns, COMMAND_SEPARATOR)
    else SetClause(b) + ReturnClause(b)
  }

  /**
   * `build()`: the statement text. It always opens with the start match,
   * and a delete column takes precedence over SET and RETURN.
   */
  function Build(b: Builder): (r: string)
    ensures START_MATCH + b.startNode + b.forLabels + ")" <= Head(b) <= r
    ensures |b.deleteColumns| > 0 ==> r == Head(b) + (DELETE + Join(b.deleteColumns, COMMAND_SEPARATOR))
  {
    Head(b) + Tail(b)
  }

  // ---------------------------------------------------------------------
  // Laws of build()
  // ---------------------------------------------------------------------

  /**
   * Delete precedence: with a delete column the statement ends in
   * `DETACH DELETE` over the comma-joined columns, and neither the SET map,
   * the RETURN columns, the order/limit suffix nor the parameters influence
   * the text at all.
   */
  lemma DeletePrecedence(b: Builder, sets: Option<map<string, Value>>, setIndex: int,
                         returnColumns: seq<string>, orderAndLimits: Option<string>,
                         defaultReturn: string, params: Params)
    requires |b.deleteColumns| > 0
    ensures Build(b) == Head(b) + (DELETE + Join(b.deleteColumns, COMMAND_SEPARATOR))
    ensures Build(b) == Build(b.(sets := sets, setIndex := setIndex, returnColumns := returnColumns,
                                 orderAndLimits := orderAndLimits, defaultReturnStatement := defaultReturn,
                                 params := params))
  {
  }

  /** A null or empty predicate emits no WHERE: the text equals that of a builder without conditions. */
  lemma WhereOnlyWhenNonEmpty(b: Builder)
    ensures b.conditions.None? || b.conditions == Some("") ==>
              Build(b) == Build(b.(conditions := None))
    ensures b.conditions.Some? && b.conditions.value != "" ==>
              MatchSection(b) == MatchSection(b.(conditions := None)) + (WHERE + b.conditions.value)
  {
    var b0 := b.(conditions := None);
    var pre := START_MATCH + b.startNode + b.forLabels + ")" + Concat(b.relationshipMatches)
               + PrefixEach(COMMAND_SEPARATOR, b.matches);
    assert MatchSection(b0) == pre + "";
    assert pre + "" == pre;
    assert MatchSection(b) == pre + WhereClause(b.conditions);
    if b.conditions.None? || b.conditions == Some("") {
      assert WhereClause(b.conditions) == "";
      assert MatchSection(b) == MatchSection(b0);
      assert OptionalSection(b) == OptionalSection(b0);
      assert Tail(b) == Tail(b0);
    }
  }

  /** Dedup law: adding the same match text a second time leaves the statement unchanged. */
  lemma AddMatchTwice(b: Builder, m: string)
    ensures AddMatch(AddMatch(b, m), m) == AddMatch(b, m)
    ensures Build(AddMatch(AddMatch(b, m), m)) == Build(AddMatch(b, m))
  {
  }

  /** The same law for relationship fragments. */
  lemma AddRelationshipMatchTwice(b: Builder, m: string)
    ensures AddRelationshipMatch(AddRelationshipMatch(b, m), m) == AddRelationshipMatch(b, m)
  {
  }

  /** A new match text is emitted after the earlier ones, preceded by `", "`. */
  lemma {:induction false} AddMatchExtendsMatchSection(b: Builder, m: string)
    requires m !in b.matches
    ensures MatchSection(AddMatch(b, m))
            == START_MATCH + b.startNode + b.forLabels + ")" + Concat(b.relationshipMatches)
               + (PrefixEach(COMMAND_SEPARATOR, b.matches) + COMMAND_SEPARATOR + m)
               + WhereClause(b.conditions)
  {
    var r := AddMatch(b, m);
    assert r.matches == b.matches + [m];
    PrefixEachSnoc(COMMAND_SEPARATOR, b.matches, m);
  }

  /**
   * Optional matches are order-preserving and not deduplicated: each call
   * adds one `" \nOPTIONAL MATCH" + m` after all earlier content of the
   * head, and the rest of the statement is unchanged.
   */
  lemma {:induction false} AddOptionalMatchAppends(b: Builder, m: string)
    ensures Head(AddOptionalMatch(b, m)) == Head(b) + (NEW_LINE + OPTIONAL_MATCH) + m
    ensures Build(AddOptionalMatch(b, m)) == Head(b) + (NEW_LINE + OPTIONAL_MATCH) + m + Tail(b)
  {
    var r := AddOptionalMatch(b, m);
    assert r.optionalMatches == b.optionalMatches + [m];
    PrefixEachSnoc(NEW_LINE + OPTIONAL_MATCH, b.optionalMatches, m);
    assert OptionalSection(r) == OptionalSection(b) + (NEW_LINE + OPTIONAL_MATCH) + m;
    AppendAssoc(MatchSection(b), OptionalSection(b), NEW_LINE + OPTIONAL_MATCH, m);
    assert Tail(r) == Tail(b);
  }

  /** Adding the same optional match twice emits it twice. */
  lemma {:induction false} AddOptionalMatchTwice(b: Builder, m: string)
    ensures Head(AddOptionalMatch(AddOptionalMatch(b, m), m))
            == Head(b) + (NEW_LINE + OPTIONAL_MATCH) + m + (NEW_LINE + OPTIONAL_MATCH) + m
  {
    AddOptionalMatchAppends(b, m);
    AddOptionalMatchAppends(AddOptionalMatch(b, m), m);
  }

  /** The head only reads the match fragments, the conditions, the optional matches and the start variable. */
  lemma SameHead(a: Builder, b: Builder)
    requires a.forLabels == b.forLabels && a.matches == b.matches && a.relationshipMatches == b.relationshipMatches
    requires a.optionalMatches == b.optionalMatches && a.conditions == b.conditions && a.startNode == b.startNode
    ensures Head(a) == Head(b)
  {
  }

  /**
   * Without delete columns the statement is the head, the SET clause and
   * the RETURN clause; without RETURN columns the latter is the default
   * return of the current start variable (then the order/limit text and
   * `" \n"`); with columns it is `" RETURN "`, the comma-joined columns
   * and the order/limit text after a space.
   */
  lemma ReturnShape(b: Builder)
    requires |b.deleteColumns| == 0
    ensures Build(b) == Head(b) + (SetClause(b) + ReturnClause(b))
    ensures |b.returnColumns| == 0 && b.orderAndLimits.None? ==>
              ReturnClause(b) == b.defaultReturnStatement
    ensures |b.returnColumns| == 0 && b.orderAndLimits.Some? ==>
              ReturnClause(b) == b.defaultReturnStatement + (b.orderAndLimits.value + NEW_LINE)
    ensures |b.returnColumns| > 0 ==>
              ReturnClause(b) == RETURN + Join(b.returnColumns, COMMAND_SEPARATOR)
                                 + (if b.orderAndLimits.Some? then SPACE + b.orderAndLimits.value else "")
  {
  }

  /**
   * The SET clause names the parameter that holds the property map: after
   * `addPropertySet(m)` on a builder with keys `"1".."k"`, the text (when
   * nothing is deleted) has `"\nSET n += {k+1}\n"` right after the head,
   * and parameter `"k+1"` holds `m`. The clause always targets the literal
   * variable `n`, whatever the start variable is.
   */
  lemma SetClauseNamesItsParameter(b: Builder, m: map<string, Value>)
    requires Consecutive(b.params) && |b.deleteColumns| == 0
    ensures var r := AddPropertySet(b, Some(m));
            var key := NatToString(|b.params| + 1);
            && Build(r) == Head(b) + (("\nSET n += {" + key + "}\n") + ReturnClause(b))
            && Lookup(r.params, key) == Some(Props(m))
  {
    var r := AddPropertySet(b, Some(m));
    SameHead(r, b);
    assert ReturnClause(r) == ReturnClause(b);
    assert IntToString(r.setIndex) == NatToString(|b.params| + 1);
  }

  /** `addPropertySet(null)` leaves the statement and the parameters untouched. */
  lemma NullPropertySetIsNoOp(b: Builder)
    ensures Build(AddPropertySet(b, None)) == Build(b)
    ensures AddPropertySet(b, None).params == b.params
  {
  }

  /** Adding parameters one after another keeps the keys consecutive and adds one entry per value. */
  lemma {:induction false} AddParamsConsecutive(b: Builder, vs: seq<Value>)
    requires Consecutive(b.params)
    ensures Consecutive(AddParams(b, vs).params)
    ensures |AddParams(b, vs).params| == |b.params| + |vs|
  {
    if |vs| > 0 {
      AddParamsConsecutive(b, vs[..|vs| - 1]);
    }
  }

  /** `addParam` of each value in turn. */
  function AddParams(b: Builder, vs: seq<Value>): Builder
  {
    if |vs| == 0 then b else AddParam(AddParams(b, vs[..|vs| - 1]), vs[|vs| - 1]).0
  }

  /**
   * `replaceParamAt` beyond the current size breaks the numbering: after
   * `replaceParamAt(2, x)` on an empty map, `addParam(y)` returns 1 but
   * stores `y` under `"2"`, overwriting `x`, and no parameter `"1"` exists.
   */
  lemma SparseReplaceThenAdd(b: Builder, x: Value, y: Value)
    requires b.params == []
    ensures var r := AddParam(ReplaceParamAt(b, 2, x), y);
            && r.1 == 1
            && Lookup(r.0.params, "1") == None
            && Lookup(r.0.params, "2") == Some(y)
  {
    var b1 := ReplaceParamAt(b, 2, x);
    assert b1.params == [("2", x)];
    assert NatToString(1) == "1";
    var r := AddParam(b1, y);
    assert r.0.params == [("2", y)];
  }
}

=== FILE: datastore.dfy ===
/**
 * The datastore's start-up and routing decisions: the schema statements
 * (unique constraints and indexes) written for the mapped entities, the
 * table of child datastores kept per connection source, and which
 * datastore serves a tenant or a connection qualifier.
 */
module Datastore {
  import opened Values
  import opened Metadata

  // ---------------------------------------------------------------------
  // Schema statements (setupIndexing)
  // ---------------------------------------------------------------------

  const CONSTRAINT_PREFIX: string := "CREATE CONSTRAINT ON (n:"
  const CONSTRAINT_SUFFIX: string := " IS UNIQUE"
  const INDEX_PREFIX: string := "CREATE INDEX ON :"

  /** `CREATE CONSTRAINT ON (n:<label>) ASSERT n.<prop> IS UNIQUE`. */
  function UniqueConstraint(lbl: string, prop: string): string
  {
    CONSTRAINT_PREFIX + lbl + ") ASSERT n." + prop + CONSTRAINT_SUFFIX
  }

  /** `CREATE INDEX ON :<label>(<prop>)`. */
  function PropertyIndex(lbl: string, prop: string): string
  {
    INDEX_PREFIX + lbl + "(" + prop + ")"
  }

  /** Only simple properties get constraints or indexes. */
  predicate IsSimple(p: Property)
  {
    p.kind == Simple
  }

  /**
   * The statement one property contributes for one label: a unique
   * constraint when its mapping says unique, otherwise an index when its
   * mapping says index; nothing for unmapped or non-simple properties.
   */
  function PropertyStatement(lbl: string, p: Property): (r: seq<string>)
    ensures |r| <= 1
  {
    if !IsSimple(p) || p.mapping.None? then []
    else if p.mapping.value.unique then [UniqueConstraint(lbl, p.name)]
    else if p.mapping.value.index then [PropertyIndex(lbl, p.name)]
    else []
  }

  /** The statements of the properties, in declaration order. */
  function PropertyStatements(lbl: string, props: seq<Property>): (r: seq<string>)
    ensures |r| <= |props|
  {
    if |props| == 0 then []
    else PropertyStatements(lbl, props[..|props| - 1]) + PropertyStatement(lbl, props[|props| - 1])
  }

  /**
   * The identity's statement for one label: a snowflake-generated id is
   * unique on `__id__`; otherwise an id that is not the backend's native
   * id is unique on the identity property.
   */
  function IdentityStatement(e: Entity, lbl: string): (r: seq<string>)
    ensures |r| <= 1
  {
    if e.generator == Some(Snowflake) then [UniqueConstraint(lbl, IDENTIFIER)]
    else if !e.nativeId then [UniqueConstraint(lbl, e.identityName)]
    else []
  }

  /** One label's statements: the identity's first, then the properties'. */
  function LabelStatements(e: Entity, lbl: string): (r: seq<string>)
    ensures |r| <= |e.properties| + 1
  {
    IdentityStatement(e, lbl) + PropertyStatements(lbl, e.properties)
  }

  /** The statements of an entity over the given labels, label by label. */
  function EntityStatements(e: Entity, labels: seq<string>): seq<string>
  {
    if |labels| == 0 then []
    else EntityStatements(e, labels[..|labels| - 1]) + LabelStatements(e, labels[|labels| - 1])
  }

  /** External entities and relationship entities get no schema. */
  predicate Indexed(e: Entity)
  {
    !e.isExternal && !e.isRelationship
  }

  /** The statements for the mapped entities, in the mapping context's order. */
  function SchemaStatements(entities: seq<Entity>): (r: seq<string>)
    ensures r != [] ==> exists i :: 0 <= i < |entities| && Indexed(entities[i])
  {
    if |entities| == 0 then []
    else
      SchemaStatements(entities[..|entities| - 1]) + EntityPart(entities[|entities| - 1])
  }

  /** What one entity contributes to the schema. */
  function EntityPart(e: Entity): seq<string>
  {
    if Indexed(e) then EntityStatements(e, e.labels) else []
  }

  /** `setupIndexing`: nothing at all when index setup is skipped. */
  function SetupIndexing(skipIndexSetup: bool, entities: seq<Entity>): (r: seq<string>)
    ensures skipIndexSetup ==> r == []
  {
    if skipIndexSetup then [] else SchemaStatements(entities)
  }

  // ---------------------------------------------------------------------
  // Which statements are produced
  // ---------------------------------------------------------------------

  /** Property `p` asks for statement `s` on label `lbl`. */
  predicate PropertyAsks(lbl: string, p: Property, s: string)
  {
    && IsSimple(p) && p.mapping.Some?
    && ((p.mapping.value.unique && s == UniqueConstraint(lbl, p.name))
        || (!p.mapping.value.unique && p.mapping.value.index && s == PropertyIndex(lbl, p.name)))
  }

  /** The identity of `e` asks for statement `s` on label `lbl`. */
  predicate IdentityAsks(e: Entity, lbl: string, s: string)
  {
    || (e.generator == Some(Snowflake) && s == UniqueConstraint(lbl, IDENTIFIER))
    || (e.generator != Some(Snowflake) && !e.nativeId && s == UniqueConstraint(lbl, e.identityName))
  }

  /** Label `lbl` of `e` asks for `s`, through the identity or one of the properties. */
  predicate LabelAsks(e: Entity, lbl: string, s: string)
  {
    IdentityAsks(e, lbl, s) || exists i :: 0 <= i < |e.properties| && PropertyAsks(lbl, e.properties[i], s)
  }

  lemma {:induction false} PropertyStatementsMembership(lbl: string, props: seq<Property>, s: string)
    ensures s in PropertyStatements(lbl, props) <==> exists i :: 0 <= i < |props| && PropertyAsks(lbl, props[i], s)
  {
    if |props| > 0 {
      var init := props[..|props| - 1];
      PropertyStatementsMembership(lbl, init, s);
      if s in PropertyStatements(lbl, init) {
        var i :| 0 <= i < |init| && PropertyAsks(lbl, init[i], s);
        assert props[i] == init[i];
      } else if s in PropertyStatement(lbl, props[|props| - 1]) {
        assert PropertyAsks(lbl, props[|props| - 1], s);
      } else {
        forall i | 0 <= i < |init|
          ensures !PropertyAsks(lbl, props[i], s)
        {
          assert init[i] == props[i];
        }
      }
    }
  }

  /**
   * One label's statements are exactly what its identity and its
   * properties ask for; a unique property never yields an index.
   */
  lemma LabelStatementsMembership(e: Entity, lbl: string, s: string)
    ensures s in LabelStatements(e, lbl) <==> LabelAsks(e, lbl, s)
  {
    PropertyStatementsMembership(lbl, e.properties, s);
  }

  /** An entity's statements are exactly what some label of it asks for. */
  lemma {:induction false} EntityStatementsMembership(e: Entity, labels: seq<string>, s: string)
    ensures s in EntityStatements(e, labels) <==> exists k :: 0 <= k < |labels| && LabelAsks(e, labels[k], s)
  {
    if |labels| > 0 {
      var init := labels[..|labels| - 1];
      var last := labels[|labels| - 1];
      EntityStatementsMembership(e, init, s);
      LabelStatementsMembership(e, last, s);
      if s in EntityStatements(e, init) {
        var k :| 0 <= k < |init| && LabelAsks(e, init[k], s);
        assert labels[k] == init[k];
      } else if s in LabelStatements(e, last) {
        assert LabelAsks(e, labels[|labels| - 1], s);
      } else {
        forall k | 0 <= k < |init|
          ensures !LabelAsks(e, labels[k], s)
        {
          assert init[k] == labels[k];
        }
      }
    }
  }

  /** Entity `e` is indexed and one of its labels yields `s`. */
  predicate EntityYields(e: Entity, s: string)
  {
    Indexed(e) && s in EntityStatements(e, e.labels)
  }

  /**
   * The schema is exactly what the indexed entities yield: external and
   * relationship entities contribute nothing.
   */
  lemma SchemaMembership(entities: seq<Entity>, s: string)
    ensures s in SchemaStatements(entities) <==> exists i :: 0 <= i < |entities| && EntityYields(entities[i], s)
  {
    SchemaIsGather(entities);
    GatherMembership(EntityPart, entities, s);
    if s in SchemaStatements(entities) {
      var i :| 0 <= i < |entities| && s in EntityPart(entities[i]);
      assert EntityYields(entities[i], s);
    }
  }

  /** The parts `part` gives each entity, concatenated in order. */
  function Gather(part: Entity -> seq<string>, entities: seq<Entity>): seq<string>
  {
    if |entities| == 0 then [] else Gather(part, entities[..|entities| - 1]) + part(entities[|entities| - 1])
  }

  /** The schema is the entities' parts gathered in order. */
  lemma {:induction false} SchemaIsGather(entities: seq<Entity>)
    ensures SchemaStatements(entities) == Gather(EntityPart, entities)
  {
    if |entities| > 0 {
      SchemaIsGather(entities[..|entities| - 1]);
    }
  }

  /** A statement is gathered exactly when some entity's part holds it. */
  lemma {:induction false} GatherMembership(part: Entity -> seq<string>, entities: seq<Entity>, s: string)
    ensures s in Gather(part, entities) <==> exists i :: 0 <= i < |entities| && s in part(entities[i])
  {
    if |entities| > 0 {
      var init := entities[..|entities| - 1];
      GatherMembership(part, init, s);
      if s in Gather(part, init) {
        var i :| 0 <= i < |init| && s in part(init[i]);
        assert entities[i] == init[i];
      } else if s !in part(entities[|entities| - 1]) {
        forall i | 0 <= i < |entities|
          ensures s !in part(entities[i])
        {
          if i < |init| {
            assert init[i] == entities[i];
          }
        }
      }
    }
  }

  /** A unique constraint never reads as an index. */
  lemma ConstraintNotIndex(l1: string, p1: string, l2: string, p2: string)
    ensures UniqueConstraint(l1, p1) != PropertyIndex(l2, p2)
  {
    assert UniqueConstraint(l1, p1)[7] == 'C';
    assert PropertyIndex(l2, p2)[7] == 'I';
  }

  /** On one label, the index text names its property unambiguously. */
  lemma PropertyIndexInjective(lbl: string, a: string, b: string)
    requires PropertyIndex(lbl, a) == PropertyIndex(lbl, b)
    ensures a == b
  {
    var head := INDEX_PREFIX + lbl + "(";
    assert PropertyIndex(lbl, a) == head + a + ")";
    assert PropertyIndex(lbl, b) == head + b + ")";
    assert a == PropertyIndex(lbl, a)[|head|..|head| + |a|];
    assert b == PropertyIndex(lbl, b)[|head|..|head| + |b|];
  }

  /**
   * A property mapped both unique and indexed gets the constraint and no
   * index (property names being distinct within an entity).
   */
  lemma UniqueBeforeIndex(e: Entity, lbl: string, p: Property)
    requires p in e.properties && IsSimple(p) && p.mapping == Some(MappedForm(true, true))
    requires forall q :: q in e.properties && q.name == p.name ==> q == p
    ensures UniqueConstraint(lbl, p.name) in LabelStatements(e, lbl)
    ensures PropertyIndex(lbl, p.name) !in PropertyStatements(lbl, e.properties)
  {
    var i :| 0 <= i < |e.properties| && e.properties[i] == p;
    assert PropertyAsks(lbl, e.properties[i], UniqueConstraint(lbl, p.name));
    LabelStatementsMembership(e, lbl, UniqueConstraint(lbl, p.name));
    PropertyStatementsMembership(lbl, e.properties, PropertyIndex(lbl, p.name));
    ConstraintNotIndex(lbl, p.name, lbl, p.name);
    forall j | 0 <= j < |e.properties|
      ensures !PropertyAsks(lbl, e.properties[j], PropertyIndex(lbl, p.name))
    {
      ConstraintNotIndex(lbl, e.properties[j].name, lbl, p.name);
      if PropertyAsks(lbl, e.properties[j], PropertyIndex(lbl, p.name)) {
        PropertyIndexInjective(lbl, e.properties[j].name, p.name);
        assert false;
      }
    }
  }

  // ---------------------------------------------------------------------
  // setupIndexing as the source writes it: one list, three nested loops
  // ---------------------------------------------------------------------

  method AddPropertyStatements(lbl: string, props: seq<Property>, schema: seq<string>) returns (out: seq<string>)
    ensures out == schema + PropertyStatements(lbl, props)
  {
    out := schema;
    for k := 0 to |props|
      invariant out == schema + PropertyStatements(lbl, props[..k])
    {
      assert props[..k + 1][..k] == props[..k];
      var p := props[k];
      if IsSimple(p) && p.mapping.Some? {
        if p.mapping.value.unique {
          out := out + [UniqueConstraint(lbl, p.name)];
        } else if p.mapping.value.index {
          out := out + [PropertyIndex(lbl, p.name)];
        }
      }
    }
    assert props[..|props|] == props;
  }

  method AddLabelStatements(e: Entity, lbl: string, schema: seq<string>) returns (out: seq<string>)
    ensures out == schema + LabelStatements(e, lbl)
  {
    out := schema;
    if e.generator == Some(Snowflake) {
      out := out + [UniqueConstraint(lbl, IDENTIFIER)];
    } else if !e.nativeId {
      out := out + [UniqueConstraint(lbl, e.identityName)];
    }
    out := AddPropertyStatements(lbl, e.properties, out);
  }

  method AddEntityStatements(e: Entity, schema: seq<string>) returns (out: seq<string>)
    ensures out == schema + EntityStatements(e, e.labels)
  {
    out := schema;
    for k := 0 to |e.labels|
      invariant out == schema + EntityStatements(e, e.labels[..k])
    {
      assert e.labels[..k + 1][..k] == e.labels[..k];
      out := AddLabelStatements(e, e.labels[k], out);
    }
    assert e.labels[..|e.labels|] == e.labels;
  }

  /** The list of schema strings `setupIndexing` runs, in order. */
  method SchemaStrings(skipIndexSetup: bool, entities: seq<Entity>) returns (schema: seq<string>)
    ensures schema == SetupIndexing(skipIndexSetup, entities)
  {
    schema := [];
    if skipIndexSetup {
      return;
    }
    for i := 0 to |entities|
      invariant schema == SchemaStatements(entities[..i])
    {
      assert entities[..i + 1][..i] == entities[..i];
      var e := entities[i];
      if !e.isExternal && !e.isRelationship {
        schema := AddEntityStatements(e, schema);
      }
    }
    assert entities[..|entities|] == entities;
  }

  // ---------------------------------------------------------------------
  // Child datastores and routing
  // ---------------------------------------------------------------------

  /** The name of the default connection source. */
  const DEFAULT: string := "DEFAULT"

  /** A datastore reached by routing: this one, or the child built for a connection source. */
  datatype DatastoreRef = Self | Child(connection: string)

  datatype TenancyMode = NoTenancy | Database | Schema | Discriminator

  /** The exception `getDatastoreForQualifier` raises; it names the entity's default connection. */
  datatype ConfigurationError = InvalidConnection(connection: string, entity: EntityName)

  /**
   * `datastoresByConnectionSource` as the constructor fills it: empty for
   * a single connection source; otherwise one entry per source, this
   * datastore for the default source and a child for every other one.
   */
  function Registry(sources: seq<string>, singleton: bool): (r: map<string, DatastoreRef>)
  {
    if singleton || |sources| == 0 then map[]
    else
      var name := sources[|sources| - 1];
      Registry(sources[..|sources| - 1], singleton)[name := if name == DEFAULT then Self else Child(name)]
  }

  lemma {:induction false} RegistryMeaning(sources: seq<string>, singleton: bool, name: string)
    ensures name in Registry(sources, singleton) <==> !singleton && name in sources
    ensures name in Registry(sources, singleton) ==>
              Registry(sources, singleton)[name] == (if name == DEFAULT then Self else Child(name))
  {
    if !singleton && |sources| > 0 {
      var init := sources[..|sources| - 1];
      RegistryMeaning(init, singleton, name);
      assert sources == init + [sources[|sources| - 1]];
    }
  }

  /**
   * `getDatastoreForTenantId`: in DATABASE mode the child registered
   * under the tenant id's text (null when none is), otherwise this
   * datastore whatever the tenant.
   */
  function DatastoreForTenant(mode: TenancyMode, registry: map<string, DatastoreRef>, tenantId: string)
    : (r: Option<DatastoreRef>)
    ensures mode != Database ==> r == Some(Self)
  {
    if mode == Database then
      if tenantId in registry then Some(registry[tenantId]) else None
    else Some(Self)
  }

  /**
   * In DATABASE mode a tenant is served by the datastore of the connection
   * source of the same name: this one for the default source, the
   * source's child otherwise, and none when no such source exists.
   */
  lemma TenantRouting(sources: seq<string>, tenantId: string)
    ensures var r := DatastoreForTenant(Database, Registry(sources, false), tenantId);
            && (r.None? <==> tenantId !in sources)
            && (tenantId in sources ==> r == Some(if tenantId == DEFAULT then Self else Child(tenantId)))
  {
    RegistryMeaning(sources, false, tenantId);
  }

  /**
   * The qualifier `getDatastoreForQualifier` looks up: the entity's
   * default connection when the caller asked for the default one.
   */
  function EffectiveQualifier(entityDefault: string, qualifier: string): (r: string)
    ensures qualifier == DEFAULT ==> r == entityDefault
    ensures qualifier != DEFAULT ==> r == qualifier
  {
    if qualifier == DEFAULT then entityDefault else qualifier
  }

  /**
   * `getDatastoreForQualifier`: this datastore when both the qualifier and
   * the entity's default connection are the default; otherwise the
   * effective qualifier must name a configured connection source (else a
   * configuration error naming the entity's default connection), and the
   * registered datastore for it is returned (null when none is).
   */
  function DatastoreForQualifier(registry: map<string, DatastoreRef>, sources: set<string>, entity: EntityName,
                                 entityDefault: string, qualifier: string)
    : (r: Result<Option<DatastoreRef>, ConfigurationError>)
    ensures r.Err? ==> r.error == InvalidConnection(entityDefault, entity)
    ensures qualifier == DEFAULT && entityDefault == DEFAULT ==> r == Ok(Some(Self))
  {
    var isDefault := qualifier == DEFAULT;
    if isDefault && entityDefault == DEFAULT then Ok(Some(Self))
    else
      var q := if isDefault then entityDefault else qualifier;
      if q !in sources then Err(InvalidConnection(entityDefault, entity))
      else if q in registry then Ok(Some(registry[q]))
      else Ok(None)
  }

  /**
   * With several connection sources, a qualifier reaches the datastore of
   * its effective connection: this one for the default connection, the
   * child otherwise, and a configuration error for an unknown name.
   */
  lemma QualifierRouting(sources: seq<string>, entity: EntityName, entityDefault: string, qualifier: string)
    ensures var q := EffectiveQualifier(entityDefault, qualifier);
            var r := DatastoreForQualifier(Registry(sources, false), (set s | s in sources), entity, entityDefault, qualifier);
            && (q == DEFAULT ==> r == Ok(Some(Self)))
            && (q != DEFAULT ==> (r.Err? <==> q !in sources))
            && (q != DEFAULT && q in sources ==> r == Ok(Some(Child(q))))
  {
    RegistryMeaning(sources, false, EffectiveQualifier(entityDefault, qualifier));
  }

  /**
   * Asking for the default connection is the same as asking for the
   * entity's own default connection by name.
   */
  lemma DefaultQualifierAlias(registry: map<string, DatastoreRef>, sources: set<string>, entity: EntityName,
                              entityDefault: string)
    ensures DatastoreForQualifier(registry, sources, entity, entityDefault, DEFAULT)
            == DatastoreForQualifier(registry, sources, entity, entityDefault, entityDefault)
  {
  }
}

=== FILE: ledger.dfy ===
/**
 * The session's two relationship ledgers (pending relationship inserts and
 * pending relationship deletes). Each maps a key (parent identity,
 * association) to the identities of the target nodes recorded under it, in
 * recording order and without repetition. A ledger holds at most 5000 keys;
 * a new key beyond that fails with the eviction listener's error.
 */
module Ledger {
  import opened Values
  import opened Metadata

  /** `maximumWeightedCapacity(5000)`, every entry weighing 1. */
  const Capacity: nat := 5000

  /** The message of the `DataAccessResourceFailureException` thrown on eviction. */
  const OverflowMessage: string :=
    "Maximum number (5000) of relationship update operations to flush() exceeded. "
    + "Flush the session periodically to avoid this error for batch operations."

  /** `RelationshipUpdateKey`: a nullable parent identity and an association. */
  datatype Key = Key(id: Option<Id>, association: Association)

  datatype Ledger = Ledger(entries: map<Key, seq<Id>>)

  /**
   * The raised `DataAccessResourceFailureException`, with the ledger as the
   * map leaves it: the listener runs after the map has stored the new key
   * and evicted another one.
   */
  datatype Failure = ResourceFailure(message: string, after: Ledger)

  const Empty: Ledger := Ledger(map[])

  /** What every reachable ledger satisfies. */
  ghost predicate Valid(l: Ledger)
  {
    && |l.entries| <= Capacity
    && forall k :: k in l.entries ==> k.id.Some? && NoDup(l.entries[k])
  }

  // ---------------------------------------------------------------------
  // RelationshipUpdateKey.equals / hashCode
  // ---------------------------------------------------------------------

  /** `RelationshipUpdateKey.equals`: null-safe comparison of association, then id. */
  function KeyEquals(a: Key, b: Key): (r: bool)
    ensures r <==> a == b
  {
    if a.association != b.association then false
    else if a.id.Some? then b.id.Some? && a.id.value == b.id.value
    else b.id.None?
  }

  /**
   * `RelationshipUpdateKey.hashCode`: `31 * hash(association) + hash(id)` in
   * 32-bit arithmetic, a null id hashing to 0. The hash functions of the
   * association and of identities are parameters.
   */
  function KeyHash(k: Key, associationHash: Association -> Int32, idHash: Id -> Int32): (r: Int32)
    ensures (r - 31 * associationHash(k.association) - (if k.id.Some? then idHash(k.id.value) else 0)) % 0x1_0000_0000 == 0
  {
    WrapInt32(31 * associationHash(k.association) + (if k.id.Some? then idHash(k.id.value) else 0))
  }

  /** Equal keys hash alike, for any hash functions of their parts. */
  lemma HashConsistentWithEquals(a: Key, b: Key, associationHash: Association -> Int32, idHash: Id -> Int32)
    requires KeyEquals(a, b)
    ensures KeyHash(a, associationHash, idHash) == KeyHash(b, associationHash, idHash)
  {
  }

  // ---------------------------------------------------------------------
  // addRelationshipUpdate
  // ---------------------------------------------------------------------

  /**
   * `addRelationshipUpdate(parentId, association, id, ledger)`: nothing
   * happens when either identity is null; otherwise `id` is added to the
   * key's sequence unless already there. Only a new key is a `put`, so only
   * a new key can overflow the capacity. The overflowing `put` completes
   * before the eviction listener throws: the new key is stored with an
   * empty collection (the `add` after the `put` never runs), and the key
   * the map's eviction policy picks, `victim`, is removed with its targets.
   * That policy (least recently used, as the map's access order records
   * it) is not modelled; `victim` stands for its choice.
   */
  function Record(l: Ledger, parentId: Option<Id>, association: Association, id: Option<Id>, victim: Key)
    : (r: Result<Ledger, Failure>)
    ensures id.None? || parentId.None? ==> r == Ok(l)
    ensures r.Err? <==> id.Some? && parentId.Some? && Key(parentId, association) !in l.entries
                        && |l.entries| >= Capacity
    ensures r.Err? ==> r.error.message == OverflowMessage
    ensures r.Err? ==>
              var key := Key(parentId, association);
              var after := r.error.after.entries;
              && key in after && after[key] == []
              && (victim != key ==> victim !in after)
              && (forall k :: k != key && k != victim ==> (k in after <==> k in l.entries))
              && (forall k :: k != key && k != victim && k in l.entries ==> after[k] == l.entries[k])
    ensures r.Ok? && id.Some? && parentId.Some? ==>
              var key := Key(parentId, association);
              && key in r.value.entries
              && id.value in r.value.entries[key]
              && (key in l.entries ==> l.entries[key] <= r.value.entries[key])
              && |r.value.entries[key]| <= (if key in l.entries then |l.entries[key]| else 0) + 1
              && (forall k :: k != key ==> (k in r.value.entries <==> k in l.entries))
              && (forall k :: k != key && k in l.entries ==> r.value.entries[k] == l.entries[k])
    ensures Valid(l) && r.Ok? ==> Valid(r.value)
  {
    if id.None? || parentId.None? then Ok(l)
    else
      var key := Key(parentId, association);
      if key in l.entries then
        Ok(Ledger(l.entries[key := AppendIfAbsent(l.entries[key], id.value)]))
      else if |l.entries| >= Capacity then
        Err(ResourceFailure(OverflowMessage, Ledger((l.entries - {victim})[key := []])))
      else
        Ok(Ledger(l.entries[key := [id.value]]))
  }

  /** Recording the same update twice is the same as recording it once. */
  lemma RecordIdempotent(l: Ledger, parentId: Option<Id>, association: Association, id: Option<Id>, victim: Key)
    requires Record(l, parentId, association, id, victim).Ok?
    ensures Record(Record(l, parentId, association, id, victim).value, parentId, association, id, victim)
            == Record(l, parentId, association, id, victim)
  {
    if id.Some? && parentId.Some? {
      var key := Key(parentId, association);
      var l1 := Record(l, parentId, association, id, victim).value;
      assert id.value in l1.entries[key];
      assert l1.entries[key := AppendIfAbsent(l1.entries[key], id.value)] == l1.entries;
    }
  }

  /** Records each identity of `ids` in turn under one key; stops at the first failure. */
  function RecordAll(l: Ledger, parentId: Id, association: Association, ids: seq<Id>, victim: Key)
    : (r: Result<Ledger, Failure>)
    ensures |ids| == 0 ==> r == Ok(l)
    ensures r.Err? <==> |ids| > 0 && Key(Some(parentId), association) !in l.entries && |l.entries| >= Capacity
    ensures r.Ok? && |ids| > 0 ==> Key(Some(parentId), association) in r.value.entries
  {
    if |ids| == 0 then Ok(l)
    else
      match RecordAll(l, parentId, association, ids[..|ids| - 1], victim)
      case Err(e) => Err(e)
      case Ok(l1) => Record(l1, Some(parentId), association, Some(ids[|ids| - 1]), victim)
  }

  /**
   * One recording under a key that is present or fits: it succeeds, keeps
   * the key's earlier targets as a prefix, adds exactly `x`, and leaves
   * every other key as it was.
   */
  lemma RecordStep(l: Ledger, parentId: Id, association: Association, x: Id, victim: Key)
    requires Valid(l)
    requires Key(Some(parentId), association) in l.entries || |l.entries| < Capacity
    ensures var key := Key(Some(parentId), association);
            var before := if key in l.entries then l.entries[key] else [];
            var r := Record(l, Some(parentId), association, Some(x), victim);
            && r.Ok?
            && Valid(r.value)
            && key in r.value.entries
            && before <= r.value.entries[key]
            && (forall y :: y in r.value.entries[key] <==> y in before || y == x)
            && r.value.entries - {key} == l.entries - {key}
  {
    var key := Key(Some(parentId), association);
    var before := if key in l.entries then l.entries[key] else [];
    var r := Record(l, Some(parentId), association, Some(x), victim).value;
    var after := AppendIfAbsent(before, x);
    if key in l.entries {
      assert r.entries == l.entries[key := after];
    } else {
      assert after == [x];
      assert r.entries == l.entries[key := after];
    }
    assert r.entries - {key} == l.entries - {key};
  }

  /**
   * Recording a batch of target identities under one key yields, for that
   * key, a duplicate-free sequence that keeps what was there as a prefix
   * and holds exactly the earlier targets and the batch's. Other keys are
   * untouched.
   */
  lemma {:induction false} RecordAllKeepsFirstOccurrences(l: Ledger, parentId: Id, association: Association, ids: seq<Id>, victim: Key)
    requires Valid(l)
    requires |ids| > 0
    requires Key(Some(parentId), association) in l.entries || |l.entries| < Capacity
    ensures RecordAll(l, parentId, association, ids, victim).Ok?
    ensures var key := Key(Some(parentId), association);
            var before := if key in l.entries then l.entries[key] else [];
            var r := RecordAll(l, parentId, association, ids, victim).value;
            && Valid(r)
            && key in r.entries
            && before <= r.entries[key]
            && NoDup(r.entries[key])
            && (forall x :: x in r.entries[key] <==> x in before || x in ids)
            && r.entries - {key} == l.entries - {key}
  {
    var key := Key(Some(parentId), association);
    var init := ids[..|ids| - 1];
    var x := ids[|ids| - 1];
    assert ids == init + [x];
    if |init| == 0 {
      assert RecordAll(l, parentId, association, init, victim) == Ok(l);
      RecordStep(l, parentId, association, x, victim);
    } else {
      RecordAllKeepsFirstOccurrences(l, parentId, association, init, victim);
      var l1 := RecordAll(l, parentId, association, init, victim).value;
      RecordStep(l1, parentId, association, x, victim);
      assert RecordAll(l, parentId, association, ids, victim) == Record(l1, Some(parentId), association, Some(x), victim);
    }
  }

  // ---------------------------------------------------------------------
  // Draining a key (processPendingRelationshipUpdates)
  // ---------------------------------------------------------------------

  /**
   * `get(key)`; when the collection is non-null and non-empty it becomes an
   * operation and the key is removed. Returns the drained targets, if any,
   * and the ledger afterwards.
   */
  function Drain(l: Ledger, key: Key): (r: (Option<seq<Id>>, Ledger))
    ensures r.0.Some? <==> key in l.entries && |l.entries[key]| > 0
    ensures r.0.Some? ==> r.0.value == l.entries[key] && key !in r.1.entries
                          && |r.1.entries| == |l.entries| - 1
    ensures r.0.None? ==> r.1 == l
    ensures forall k :: k != key ==> (k in r.1.entries <==> k in l.entries)
    ensures forall k :: k != key && k in l.entries ==> r.1.entries[k] == l.entries[k]
    ensures Valid(l) ==> Valid(r.1)
  {
    if key in l.entries && |l.entries[key]| > 0 then (Some(l.entries[key]), Ledger(l.entries - {key}))
    else (None, l)
  }

  /** A drained key yields nothing a second time. */
  lemma DrainTwice(l: Ledger, key: Key)
    ensures Drain(Drain(l, key).1, key).0.None?
  {
  }

  /**
   * Draining frees a slot: on a full ledger a new key overflows, but once
   * any key has been drained the same recording succeeds.
   */
  lemma DrainMakesRoom(l: Ledger, drained: Key, parentId: Id, association: Association, id: Id, victim: Key)
    requires Valid(l) && |l.entries| == Capacity
    requires drained in l.entries && |l.entries[drained]| > 0
    requires Key(Some(parentId), association) !in l.entries
    ensures Record(l, Some(parentId), association, Some(id), victim).Err?
    ensures Record(Drain(l, drained).1, Some(parentId), association, Some(id), victim).Ok?
  {
  }

  /**
   * An overflow loses recorded edges: recording under a new key of a full
   * ledger fails, and the map is left holding `Capacity` keys, among them
   * the new key without its target, while the evicted key is gone with
   * every target recorded under it.
   */
  lemma OverflowEvicts(l: Ledger, parentId: Id, association: Association, id: Id, victim: Key)
    requires Valid(l) && |l.entries| == Capacity
    requires Key(Some(parentId), association) !in l.entries
    requires victim in l.entries
    ensures var r := Record(l, Some(parentId), association, Some(id), victim);
            && r.Err? && r.error.message == OverflowMessage
            && Valid(r.error.after) && |r.error.after.entries| == Capacity
            && Key(Some(parentId), association) in r.error.after.entries
            && id !in r.error.after.entries[Key(Some(parentId), association)]
            && victim !in r.error.after.entries
  {
    var key := Key(Some(parentId), association);
    var rest := l.entries - {victim};
    assert |rest| == Capacity - 1;
    assert Record(l, Some(parentId), association, Some(id), victim).error.after.entries == rest[key := []];
  }

  /** Recording then draining a key hands back exactly the recorded target. */
  lemma RecordThenDrain(l: Ledger, parentId: Id, association: Association, id: Id, victim: Key)
    requires Key(Some(parentId), association) !in l.entries && |l.entries| < Capacity
    ensures var r := Record(l, Some(parentId), association, Some(id), victim);
            && r.Ok?
            && Drain(r.value, Key(Some(parentId), association)) == (Some([id]), l)
  {
    var key := Key(Some(parentId), association);
    var r := Record(l, Some(parentId), association, Some(id), victim).value;
    assert r.entries - {key} == l.entries;
  }

  // ---------------------------------------------------------------------
  // clearPendingOperations
  // ---------------------------------------------------------------------

  /** The session's pair of ledgers. */
  datatype Pending = Pending(inserts: Ledger, deletes: Ledger)

  /**
   * `clearPendingOperations`: the superclass clear runs first and its
   * outcome (success or the exception it throws) is passed through, but
   * both ledgers end up empty either way, as in a `finally` block.
   */
  function ClearPendingOperations<E>(p: Pending, superOutcome: Result<(), E>): (r: (Pending, Result<(), E>))
    ensures r.0.inserts.entries == map[] && r.0.deletes.entries == map[]
    ensures r.1 == superOutcome
    ensures Valid(r.0.inserts) && Valid(r.0.deletes)
  {
    (Pending(Empty, Empty), superOutcome)
  }
}

=== FILE: metadata.dfy ===
/**
 * Mapping metadata consumed by the engine (persistent entities, their
 * properties and associations, the mapping context that lists them), the
 * view of one domain object that the engine reads through its entity
 * access, and the string helpers of the mapping layer that the engine
 * calls but that are not part of this model. Those helpers are carried as
 * function-valued fields of `Helpers`, so every statement shape is stated
 * over arbitrary implementations of them.
 */
module Metadata {
  import opened Values

  type EntityName = string

  /** Property names the engine treats specially. */
  const FROM: string := "from"
  const TO: string := "to"
  const TYPE: string := "type"
  const VERSION: string := "version"
  const IDENTITY: string := "id"
  const IDENTIFIER: string := "__id__"

  /**
   * The association classes the engine distinguishes. `OneToOne`,
   * `ManyToOne` and `DynamicToOne` are to-one; `OneToMany` and
   * `ManyToMany` are to-many. `DynamicToOne` is the schemaless association
   * created at runtime from an undeclared attribute.
   */
  datatype AssocKind = OneToOne | ManyToOne | OneToMany | ManyToMany | DynamicToOne

  /** Declared collection type of a to-many association. */
  datatype CollectionType = ListType | SortedSetType | SetType

  datatype Association = Association(
    name: string,
    owner: EntityName,
    associated: EntityName,
    kind: AssocKind,
    bidirectional: bool,
    /** the physical edge points from the associated entity to the owner */
    reversed: bool,
    cascadeRemove: bool,
    lazy: bool,
    collectionType: CollectionType)
  {
    predicate IsToOne() { kind == OneToOne || kind == ManyToOne || kind == DynamicToOne }
    predicate IsToMany() { kind == OneToMany || kind == ManyToMany }
    predicate IsDynamic() { kind == DynamicToOne }
  }

  /** Kinds of persistent property. */
  datatype PropKind = Simple | TenantIdProp | Basic | Custom | Assoc(association: Association)
  {
    /** Simple, tenant-id and basic (collection of simple values) properties are stored as node properties. */
    predicate IsStored() { this == Simple || this == TenantIdProp || this == Basic }
  }

  datatype MappedForm = MappedForm(unique: bool, index: bool)

  datatype Property = Property(name: string, kind: PropKind, mapping: Option<MappedForm>)

  datatype IdGeneratorType = Snowflake | OtherGenerator

  datatype Entity = Entity(
    name: EntityName,
    simpleName: string,
    labels: seq<string>,
    parent: Option<EntityName>,
    properties: seq<Property>,
    identityName: string,
    nativeId: bool,
    generator: Option<IdGeneratorType>,
    assignedId: bool,
    isRelationship: bool,
    isExternal: bool,
    /**
     * `isVersioned()` holds and the `version` property is declared with
     * type `Long`; only then does an update match on and bump the version
     */
    versioned: bool,
    hasDynamicAssociations: bool)
  {
    /** The associations of the entity, in declaration order (basic collections excluded). */
    function Associations(): (r: seq<Association>)
      ensures forall k :: 0 <= k < |r| ==> exists p :: p in properties && p.kind == Assoc(r[k])
    {
      AssociationsOf(properties)
    }
  }

  function AssociationsOf(ps: seq<Property>): (r: seq<Association>)
    ensures forall k :: 0 <= k < |r| ==> exists p :: p in ps && p.kind == Assoc(r[k])
  {
    if |ps| == 0 then []
    else
      var rest := AssociationsOf(ps[1..]);
      if ps[0].kind.Assoc? then [ps[0].kind.association] + rest else rest
  }

  /** Property names are unique within an entity and distinct from the identity's name. */
  predicate DistinctNames(e: Entity)
  {
    && (forall i, j :: 0 <= i < j < |e.properties| ==> e.properties[i].name != e.properties[j].name)
    && (forall i :: 0 <= i < |e.properties| ==> e.properties[i].name != e.identityName)
  }

  /**
   * The mapping context: every persistent entity by name, the order in
   * which `getPersistentEntities()` lists them, and `level`, any numbering
   * in which a parent entity is numbered below each of its children (it
   * witnesses that class inheritance has no cycles).
   */
  datatype Context = Context(
    entities: map<EntityName, Entity>,
    order: seq<EntityName>,
    level: map<EntityName, nat>)

  ghost predicate WellFormed(ctx: Context)
  {
    && NoDup(ctx.order)
    && (forall n :: n in ctx.order <==> n in ctx.entities)
    && (forall n :: n in ctx.entities ==> n in ctx.level && ctx.entities[n].name == n)
    && (forall n :: n in ctx.entities && ctx.entities[n].parent.Some? ==>
          ctx.entities[n].parent.value in ctx.entities &&
          ctx.level[ctx.entities[n].parent.value] < ctx.level[n])
  }

  /** A domain object as seen through its entity access. */
  datatype Obj = Obj(
    entity: EntityName,
    id: Option<Id>,
    /** declared property values; an absent name reads as `null` */
    values: map<string, Value>,
    /** the object implements DynamicAttributes */
    dynamicAttributes: bool,
    /** schemaless attributes (DynamicAttributes.attributes()) */
    attributes: map<string, Value>,
    /** the object implements DirtyCheckable */
    dirtyCheckable: bool,
    /** DirtyCheckable.hasChanged() */
    changed: bool,
    /** DirtyCheckable.listDirtyPropertyNames() */
    dirtyNames: seq<string>,
    /** for a relationship entity: identifiers of its `from` and `to` end objects */
    fromId: Option<Id>,
    toId: Option<Id>)
  {
    function Get(name: string): Value
    {
      if name in values then values[name] else Null
    }
  }

  /** `DirtyCheckable.trackChanges()`: the object forgets every recorded change. */
  function TrackChanges(o: Obj): Obj
  {
    o.(changed := false, dirtyNames := [])
  }

  /**
   * String helpers of the mapping layer (GraphPersistentEntity and
   * RelationshipUtils) that are outside this model.
   */
  datatype Helpers = Helpers(
    /** GraphPersistentEntity.getLabelsAsString() */
    labelsAsString: EntityName -> string,
    /** GraphPersistentEntity.formatId(variable) */
    formatId: (EntityName, string) -> string,
    /** RelationshipUtils.matchForAssociation(association, variable) */
    matchForAssociation: (Association, string) -> string,
    /** RelationshipUtils.matchForAssociation(association, variable, attributes) */
    matchWithAttributes: (Association, string, seq<(string, string)>) -> string,
    /** RelationshipUtils.matchForAssociation(association) */
    matchAnonymous: Association -> string,
    /** RelationshipUtils.toMatch(association, relationship) */
    toMatch: (Association, Obj) -> string,
    /** CypherBuilder.buildRelationshipMatch(labelsFrom, relMatch, labelsTo) */
    buildRelationshipMatch: (string, string, string) -> string,
    /** GraphPersistentEntity.getLabelsWithInheritance(object) */
    labelsWithInheritance: (EntityName, Obj) -> string,
    /** GraphPersistentEntity.formatMatchAndUpdate(variable, properties) */
    formatMatchAndUpdate: (EntityName, string, map<string, Value>) -> string,
    /** GraphPersistentEntity.formatReturnId() */
    formatReturnId: EntityName -> string)

  /**
   * The non-null values of the stored (simple, tenant-id, basic) properties
   * of `o`, keyed by property name, leaving out the names in `excluded`.
   */
  function NonNullStored(props: seq<Property>, o: Obj, excluded: set<string>): (r: map<string, Value>)
    ensures forall name :: name in r <==>
              (exists k :: 0 <= k < |props| && props[k].name == name && props[k].kind.IsStored())
              && name !in excluded && o.Get(name) != Null
    ensures forall name :: name in r ==> r[name] == o.Get(name)
  {
    if |props| == 0 then map[]
    else
      var rest := NonNullStored(props[..|props| - 1], o, excluded);
      var p := props[|props| - 1];
      if p.kind.IsStored() && p.name !in excluded && o.Get(p.name) != Null then rest[p.name := o.Get(p.name)]
      else rest
  }
}

=== FILE: persister.dfy ===
/**
 * The entity persister (Neo4jEntityPersister): resolving the most specific
 * entity of a loaded node from its labels, turning a node into an object
 * through the session cache, deciding what saving one object does, and the
 * batched CREATE that saves many objects of a native-id node entity in one
 * statement.
 */
module Persister {
  import opened Values
  import opened Metadata
  import S = Session
  import CB = CypherBuilder

  /** What the persister can throw. */
  datatype Failure =
    | NullObject                          // IllegalStateException "obj is null"
    | IdentityGeneration(entity: EntityName) // CREATE returned no identifier
    | WriteLockUnsupported                // PESSIMISTIC_WRITE lock requested
    | MoreThanOneIdentifier(association: string) // DataIntegrityViolationException
    | MoreThanOneNode(association: string) // IteratorUtil.singleOrNull on several nodes
    | NotANodeCollection(association: string) // the `<name>Nodes` column holds something else
    | UnsupportedProperty(name: string)   // IllegalArgumentException for an unhandled property kind

  // ---------------------------------------------------------------------
  // Inheritance: calcInheritenceChain, isInParentsChain
  // ---------------------------------------------------------------------

  /** `calcInheritenceChain`: how many entities the chain from `n` up to its root has. */
  function ChainLength(ctx: Context, n: EntityName): (r: nat)
    requires WellFormed(ctx) && n in ctx.entities
    decreases ctx.level[n]
  {
    match ctx.entities[n].parent
    case None => 1
    case Some(p) => ChainLength(ctx, p) + 1
  }

  /** `isInParentsChain(parent, it)`: `parent` is `it` or one of its ancestors. */
  function IsInParentsChain(ctx: Context, parent: EntityName, it: EntityName): (r: bool)
    requires WellFormed(ctx) && it in ctx.entities
    decreases ctx.level[it]
  {
    if it == parent then true
    else match ctx.entities[it].parent
      case None => false
      case Some(p) => IsInParentsChain(ctx, parent, p)
  }

  /** Reference definition: the entity `n` followed by its ancestors, nearest first. */
  ghost function Ancestors(ctx: Context, n: EntityName): seq<EntityName>
    requires WellFormed(ctx) && n in ctx.entities
    decreases ctx.level[n]
  {
    match ctx.entities[n].parent
    case None => [n]
    case Some(p) => [n] + Ancestors(ctx, p)
  }

  /** Every entity on the chain is known to the context. */
  lemma {:induction false} AncestorsKnown(ctx: Context, n: EntityName)
    requires WellFormed(ctx) && n in ctx.entities
    ensures forall a :: a in Ancestors(ctx, n) ==> a in ctx.entities
    decreases ctx.level[n]
  {
    match ctx.entities[n].parent
    case None =>
    case Some(p) => AncestorsKnown(ctx, p);
  }

  /** The chain length counts the entity and each of its ancestors. */
  lemma {:induction false} ChainLengthCountsAncestors(ctx: Context, n: EntityName)
    requires WellFormed(ctx) && n in ctx.entities
    ensures ChainLength(ctx, n) == |Ancestors(ctx, n)|
    decreases ctx.level[n]
  {
    match ctx.entities[n].parent
    case None =>
    case Some(p) => ChainLengthCountsAncestors(ctx, p);
  }

  /** `isInParentsChain` holds exactly for the entity itself and its ancestors. */
  lemma {:induction false} InParentsChainIffAncestor(ctx: Context, parent: EntityName, it: EntityName)
    requires WellFormed(ctx) && it in ctx.entities
    ensures IsInParentsChain(ctx, parent, it) <==> parent in Ancestors(ctx, it)
    decreases ctx.level[it]
  {
    match ctx.entities[it].parent
    case None =>
    case Some(p) => InParentsChainIffAncestor(ctx, parent, p);
  }

  /** A proper ancestor has a strictly shorter chain: subclasses rank above their parents. */
  lemma {:induction false} AncestorHasShorterChain(ctx: Context, a: EntityName, n: EntityName)
    requires WellFormed(ctx) && n in ctx.entities
    requires a in Ancestors(ctx, n) && a != n
    ensures a in ctx.entities && ChainLength(ctx, a) < ChainLength(ctx, n)
    decreases ctx.level[n]
  {
    var p := ctx.entities[n].parent.value;
    if a != p {
      AncestorHasShorterChain(ctx, a, p);
    }
  }

  // ---------------------------------------------------------------------
  // findDerivedPersistentEntityWithLabel, mostSpecificPersistentEntity
  // ---------------------------------------------------------------------

  /** Entity `n` descends from (or is) `parent` and declares `lbl`. */
  predicate Qualifies(ctx: Context, parent: EntityName, lbl: string, n: EntityName)
    requires WellFormed(ctx) && n in ctx.entities
  {
    IsInParentsChain(ctx, parent, n) && lbl in ctx.entities[n].labels
  }

  /** The first entity of `names` that qualifies. */
  function FirstQualifying(ctx: Context, parent: EntityName, lbl: string, names: seq<EntityName>): (r: Option<EntityName>)
    requires WellFormed(ctx) && forall k :: 0 <= k < |names| ==> names[k] in ctx.entities
    ensures r.None? ==> forall k :: 0 <= k < |names| ==> !Qualifies(ctx, parent, lbl, names[k])
    ensures r.Some? ==> exists j :: 0 <= j < |names| && names[j] == r.value && Qualifies(ctx, parent, lbl, names[j])
                                    && forall k :: 0 <= k < j ==> !Qualifies(ctx, parent, lbl, names[k])
  {
    if |names| == 0 then None
    else if Qualifies(ctx, parent, lbl, names[0]) then Some(names[0])
    else
      var r := FirstQualifying(ctx, parent, lbl, names[1..]);
      assert forall k :: 1 <= k < |names| ==> names[k] == names[1..][k - 1];
      r
  }

  /**
   * `findDerivedPersistentEntityWithLabel`: the first entity, in the order
   * the mapping context lists them, that descends from `parent` and
   * declares `lbl`.
   */
  function DerivedWithLabel(ctx: Context, parent: EntityName, lbl: string): (r: Option<EntityName>)
    requires WellFormed(ctx)
    ensures r.Some? ==> r.value in ctx.entities
  {
    assert forall k :: 0 <= k < |ctx.order| ==> ctx.order[k] in ctx.entities;
    FirstQualifying(ctx, parent, lbl, ctx.order)
  }

  /**
   * What the lookup finds: a qualifying entity, none preceding it in the
   * context's order; and nothing only when no entity qualifies.
   */
  lemma DerivedWithLabelMeaning(ctx: Context, parent: EntityName, lbl: string)
    requires WellFormed(ctx)
    ensures var r := DerivedWithLabel(ctx, parent, lbl);
            && (r.Some? ==> exists j :: 0 <= j < |ctx.order| && ctx.order[j] == r.value
                                        && Qualifies(ctx, parent, lbl, ctx.order[j])
                                        && forall k :: 0 <= k < j ==> !Qualifies(ctx, parent, lbl, ctx.order[k]))
            && (r.None? ==> forall n :: n in ctx.entities ==> !Qualifies(ctx, parent, lbl, n))
  {
    assert forall k :: 0 <= k < |ctx.order| ==> ctx.order[k] in ctx.entities;
    var r := FirstQualifying(ctx, parent, lbl, ctx.order);
    if r.None? {
      forall n | n in ctx.entities
        ensures !Qualifies(ctx, parent, lbl, n)
      {
        var k :| 0 <= k < |ctx.order| && ctx.order[k] == n;
      }
    }
  }

  /** The chain length of a found entity, or -1 for none: the scan's starting value. */
  function RankOf(ctx: Context, found: Option<EntityName>): (r: int)
    requires WellFormed(ctx) && (found.Some? ==> found.value in ctx.entities)
  {
    match found
    case None => -1
    case Some(n) => ChainLength(ctx, n)
  }

  /** The chain length of the entity found for `lbl`, or -1 when none is found. */
  function Rank(ctx: Context, pe: EntityName, lbl: string): int
    requires WellFormed(ctx)
  {
    RankOf(ctx, DerivedWithLabel(ctx, pe, lbl))
  }

  /**
   * The left-to-right scan of `mostSpecificPersistentEntity` over `labels`:
   * the entity found for a label replaces the current one only when its
   * chain is strictly longer (no entity found counts as -1).
   */
  function BestForLabels(ctx: Context, pe: EntityName, labels: seq<string>): (r: Option<EntityName>)
    requires WellFormed(ctx)
    ensures r.Some? ==> r.value in ctx.entities
  {
    if |labels| == 0 then None
    else
      var prev := BestForLabels(ctx, pe, labels[..|labels| - 1]);
      var found := DerivedWithLabel(ctx, pe, labels[|labels| - 1]);
      if RankOf(ctx, found) > RankOf(ctx, prev) then found else prev
  }

  /** `mostSpecificPersistentEntity`: the scan's winner, or `pe` when no label names a sub-entity. */
  function MostSpecificEntity(ctx: Context, pe: EntityName, labels: seq<string>): (r: EntityName)
    requires WellFormed(ctx) && pe in ctx.entities
    ensures r in ctx.entities
  {
    match BestForLabels(ctx, pe, labels)
    case None => pe
    case Some(n) => n
  }

  /**
   * Label `j` finds an entity whose chain is at least as long as that of
   * every label's entity and strictly longer than that of every earlier
   * label's entity.
   */
  ghost predicate IsFirstLongest(ctx: Context, pe: EntityName, labels: seq<string>, j: int)
    requires WellFormed(ctx)
  {
    && 0 <= j < |labels|
    && Rank(ctx, pe, labels[j]) >= 1
    && (forall i :: 0 <= i < |labels| ==> Rank(ctx, pe, labels[i]) <= Rank(ctx, pe, labels[j]))
    && (forall i :: 0 <= i < j ==> Rank(ctx, pe, labels[i]) < Rank(ctx, pe, labels[j]))
  }

  /** The scan finds nothing exactly when no label finds an entity. */
  lemma {:induction false} BestNoneIff(ctx: Context, pe: EntityName, labels: seq<string>)
    requires WellFormed(ctx)
    ensures BestForLabels(ctx, pe, labels).None? <==> forall i :: 0 <= i < |labels| ==> Rank(ctx, pe, labels[i]) == -1
  {
    if |labels| > 0 {
      var init := labels[..|labels| - 1];
      BestNoneIff(ctx, pe, init);
      assert forall i :: 0 <= i < |init| ==> init[i] == labels[i];
    }
  }

  /** No label's entity has a longer chain than the scan's winner. */
  lemma {:induction false} BestRankIsMax(ctx: Context, pe: EntityName, labels: seq<string>)
    requires WellFormed(ctx)
    ensures forall i :: 0 <= i < |labels| ==> Rank(ctx, pe, labels[i]) <= RankOf(ctx, BestForLabels(ctx, pe, labels))
  {
    if |labels| > 0 {
      var init := labels[..|labels| - 1];
      BestRankIsMax(ctx, pe, init);
      var best := RankOf(ctx, BestForLabels(ctx, pe, labels));
      assert RankOf(ctx, BestForLabels(ctx, pe, init)) <= best;
      forall i | 0 <= i < |labels|
        ensures Rank(ctx, pe, labels[i]) <= best
      {
        if i < |init| {
          assert init[i] == labels[i];
        }
      }
    }
  }

  /**
   * When the scan finds something, it is the entity of label `j`, and
   * every earlier label's entity has a strictly shorter chain.
   */
  lemma {:induction false} BestIsFirst(ctx: Context, pe: EntityName, labels: seq<string>) returns (j: int)
    requires WellFormed(ctx) && BestForLabels(ctx, pe, labels).Some?
    ensures 0 <= j < |labels| && DerivedWithLabel(ctx, pe, labels[j]) == BestForLabels(ctx, pe, labels)
    ensures forall i :: 0 <= i < j ==> Rank(ctx, pe, labels[i]) < RankOf(ctx, BestForLabels(ctx, pe, labels))
  {
    var init := labels[..|labels| - 1];
    var prev := BestForLabels(ctx, pe, init);
    var found := DerivedWithLabel(ctx, pe, labels[|labels| - 1]);
    if RankOf(ctx, found) > RankOf(ctx, prev) {
      BestRankIsMax(ctx, pe, init);
      j := |labels| - 1;
      forall i | 0 <= i < j
        ensures Rank(ctx, pe, labels[i]) < RankOf(ctx, found)
      {
        assert init[i] == labels[i];
      }
    } else {
      j := BestIsFirst(ctx, pe, init);
      assert init[j] == labels[j];
      forall i | 0 <= i < j
        ensures Rank(ctx, pe, labels[i]) < RankOf(ctx, prev)
      {
        assert init[i] == labels[i];
      }
    }
  }

  /**
   * What `mostSpecificPersistentEntity` returns: `pe` when no label finds
   * a sub-entity; otherwise the entity of the first label whose entity has
   * the strictly longest inheritance chain.
   */
  lemma MostSpecificIsFirstLongest(ctx: Context, pe: EntityName, labels: seq<string>)
    requires WellFormed(ctx) && pe in ctx.entities
    ensures (forall i :: 0 <= i < |labels| ==> Rank(ctx, pe, labels[i]) == -1) ==>
              MostSpecificEntity(ctx, pe, labels) == pe
    ensures (exists i :: 0 <= i < |labels| && Rank(ctx, pe, labels[i]) != -1) ==>
              exists j :: IsFirstLongest(ctx, pe, labels, j)
                          && DerivedWithLabel(ctx, pe, labels[j]) == Some(MostSpecificEntity(ctx, pe, labels))
  {
    BestNoneIff(ctx, pe, labels);
    if BestForLabels(ctx, pe, labels).Some? {
      var j := BestIsFirst(ctx, pe, labels);
      BestRankIsMax(ctx, pe, labels);
      assert IsFirstLongest(ctx, pe, labels, j);
    }
  }

  /** Whatever the labels, the result is `pe` itself or an entity descending from it. */
  lemma MostSpecificDescends(ctx: Context, pe: EntityName, labels: seq<string>)
    requires WellFormed(ctx) && pe in ctx.entities
    ensures pe in Ancestors(ctx, MostSpecificEntity(ctx, pe, labels))
  {
    var r := MostSpecificEntity(ctx, pe, labels);
    if r != pe {
      var j := BestIsFirst(ctx, pe, labels);
      DerivedWithLabelMeaning(ctx, pe, labels[j]);
      InParentsChainIffAncestor(ctx, pe, r);
    } else {
      assert Ancestors(ctx, pe)[0] == pe;
    }
  }

  /**
   * `mostSpecificPersistentEntity` as the source writes it: a loop that
   * starts from chain length -1 and keeps the entity of the longest chain
   * seen so far, falling back to `pe`.
   */
  method MostSpecific(ctx: Context, pe: EntityName, labels: seq<string>) returns (r: EntityName)
    requires WellFormed(ctx) && pe in ctx.entities
    ensures r == MostSpecificEntity(ctx, pe, labels)
  {
    var result: Option<EntityName> := None;
    var longest: int := -1;
    for k := 0 to |labels|
      invariant result == BestForLabels(ctx, pe, labels[..k])
      invariant result.None? ==> longest == -1
      invariant result.Some? ==> longest == ChainLength(ctx, result.value)
    {
      assert labels[..k + 1][..k] == labels[..k];
      var found := DerivedWithLabel(ctx, pe, labels[k]);
      if found.Some? {
        var chain := ChainLength(ctx, found.value);
        if chain > longest {
          result := found;
          longest := chain;
        }
      }
    }
    assert labels[..|labels|] == labels;
    r := if result.Some? then result.value else pe;
  }

  // ---------------------------------------------------------------------
  // countUpdates, shouldIgnore
  // ---------------------------------------------------------------------

  /** A counter of the result summary: a non-negative Java `int`. */
  type Counter = x: int | 0 <= x <= MaxInt

  /** The update counters of a statement's result summary. */
  datatype Counters = Counters(
    containsUpdates: bool,
    nodesCreated: Counter,
    nodesDeleted: Counter,
    propertiesSet: Counter,
    relationshipsCreated: Counter,
    relationshipsDeleted: Counter)

  /** The five counters added up without bound. */
  function CounterSum(c: Counters): nat
  {
    c.nodesCreated + c.nodesDeleted + c.propertiesSet + c.relationshipsCreated + c.relationshipsDeleted
  }

  /**
   * `countUpdates`: when the summary reports updates, the five counters
   * added up in `int` arithmetic (the sum wraps before it is widened to
   * `long`), else 0. While the sum fits in an `int` the count is zero
   * exactly when every counter is, and it bounds each counter.
   */
  function CountUpdates(c: Counters): (r: Int32)
    ensures !c.containsUpdates ==> r == 0
    ensures c.containsUpdates ==> (r - CounterSum(c)) % 0x1_0000_0000 == 0
    ensures c.containsUpdates && CounterSum(c) <= MaxInt ==>
              && (r == 0 <==> c.nodesCreated == 0 && c.nodesDeleted == 0 && c.propertiesSet == 0
                              && c.relationshipsCreated == 0 && c.relationshipsDeleted == 0)
              && c.nodesCreated <= r && c.nodesDeleted <= r && c.propertiesSet <= r
              && c.relationshipsCreated <= r && c.relationshipsDeleted <= r
  {
    if c.containsUpdates then WrapInt32(CounterSum(c)) else 0
  }

  /**
   * Past `Integer.MAX_VALUE` the count wraps: one node created on top of
   * `Integer.MAX_VALUE` properties set reports `Integer.MIN_VALUE`.
   */
  lemma CountUpdatesWraps()
    ensures CountUpdates(Counters(true, 1, 0, MaxInt, 0, 0)) == MinInt
  {
    assert CounterSum(Counters(true, 1, 0, MaxInt, 0, 0)) == 0x8000_0000;
  }

  /**
   * `shouldIgnore`: the object is skipped when the session already has it
   * pending in this flush, or when it tracks changes and has none. An
   * object that does not track changes counts as changed.
   */
  function ShouldIgnore(pending: set<nat>, ref: nat, o: Obj): (r: bool)
    ensures r <==> ref in pending || (o.dirtyCheckable && !o.changed)
    ensures !o.dirtyCheckable ==> (r <==> ref in pending)
  {
    ref in pending || (o.dirtyCheckable && !o.changed)
  }

  // ---------------------------------------------------------------------
  // unmarshallOrFromCache, unmarshall
  // ---------------------------------------------------------------------

  /** A node as the driver returns it: its id, labels and properties. */
  datatype Node = Node(nodeId: int, labels: seq<string>, props: map<string, Value>)

  /**
   * A column of the row a node was loaded with: a collection of nodes
   * (relationships of a `<name>Rels` column are carried as nodes too),
   * a collection of ids, or any other value.
   */
  datatype Column = Nodes(nodes: seq<Node>) | Ids(ids: seq<Id>) | Scalar(value: Value)

  /** Lock mode of the load. */
  datatype LockMode = NoLock | PessimisticWrite | OtherLock

  /** What an association of a loaded instance is set to. */
  datatype Loaded =
    | Initialized(value: Value)                          // given by the caller
    | EagerOne(node: Node)                               // unmarshalled from the fetched node
    | EagerMany(nodes: seq<Node>, collection: CollectionType) // collection over the fetched nodes
    | ProxyOne(entity: EntityName, target: Id)           // proxy for the one fetched id
    | IdCollection(ids: seq<Id>, collection: CollectionType) // persistent collection over fetched ids
    | LazyOne(owner: Id)                                 // proxy that queries on first access
    | QueriedOne(value: Value)                           // first result of the association query
    | LazyMany(owner: Id, collection: CollectionType)    // lazy collection keyed by the owner's id

  /** A loaded instance: the object and the values its associations were set to. */
  datatype Instance = Instance(obj: Obj, associations: map<string, Loaded>)

  function NodesKey(a: Association): string { a.name + "Nodes" }
  function IdsKey(a: Association): string { a.name + "Ids" }
  function RelsKey(a: Association): string { a.name + "Rels" }

  /** The ids of an `<name>Ids` column: empty unless the column is a collection of ids. */
  function TargetIds(c: Column): (r: seq<Id>)
    ensures c.Ids? ==> r == c.ids
    ensures !c.Ids? ==> r == []
  {
    if c.Ids? then c.ids else []
  }

  /** Whether the associated entity is a relationship entity. */
  predicate ToRelationshipEntity(ctx: Context, a: Association)
  {
    a.associated in ctx.entities && ctx.entities[a.associated].isRelationship
  }

  /**
   * How `unmarshall` sets one association, in priority order: a value the
   * caller already has; the fetched `<name>Nodes` (a to-one takes the only
   * node, and fails on several; a to-many of relationship entities prefers
   * `<name>Rels`); the fetched `<name>Ids` (a to-one becomes a proxy for
   * its only id, and fails on several); otherwise a lazy proxy or
   * collection, or for an eager to-one the first result of its query.
   * `None` leaves the association unset.
   *
   * Hence the priority order: a caller-supplied value always wins; fetched
   * nodes win over fetched ids; ids over the lazy fallback; only the lazy
   * fallback runs the association query; and the only failures are a
   * to-one with several fetched nodes or ids, or a nodes column that is
   * not a node collection.
   */
  function ResolveAssociation(ctx: Context, a: Association, id: Id, resultData: map<string, Column>,
                              initialized: map<Association, Value>, query: (Association, Id) -> seq<Value>)
    : (r: Result<Option<Loaded>, Failure>)
    ensures a in initialized ==> r == Ok(Some(Initialized(initialized[a])))
    ensures a !in initialized && NodesKey(a) in resultData ==>
              (r.Ok? && r.value.Some? ==> r.value.value.EagerOne? || r.value.value.EagerMany?)
    ensures a !in initialized && NodesKey(a) !in resultData && IdsKey(a) in resultData ==>
              (r.Ok? && r.value.Some? ==> r.value.value.ProxyOne? || r.value.value.IdCollection?)
    ensures a !in initialized && NodesKey(a) !in resultData && IdsKey(a) !in resultData ==>
              r.Ok? && (r.value.Some? ==> r.value.value.LazyOne? || r.value.value.QueriedOne? || r.value.value.LazyMany?)
    ensures r.Err? ==> a !in initialized && (NodesKey(a) in resultData || IdsKey(a) in resultData)
    ensures a !in initialized && NodesKey(a) in resultData && a.IsToOne() ==>
              match resultData[NodesKey(a)]
              case Nodes(ns) =>
                && (|ns| == 0 ==> r == Ok(None))
                && (|ns| == 1 ==> r == Ok(Some(EagerOne(ns[0]))))
                && (|ns| > 1 ==> r == Err(MoreThanOneNode(a.name)))
              case _ => r == Err(NotANodeCollection(a.name))
    ensures a !in initialized && NodesKey(a) in resultData && !a.IsToOne() ==>
              var col := if ToRelationshipEntity(ctx, a) && RelsKey(a) in resultData then resultData[RelsKey(a)]
                         else resultData[NodesKey(a)];
              && (col.Nodes? ==> r == Ok(Some(EagerMany(col.nodes, a.collectionType))))
              && (!col.Nodes? ==> r == Err(NotANodeCollection(a.name)))
    ensures a !in initialized && NodesKey(a) !in resultData && IdsKey(a) in resultData && !a.IsToOne() ==>
              r == Ok(Some(IdCollection(TargetIds(resultData[IdsKey(a)]), a.collectionType)))
    ensures a !in initialized && NodesKey(a) !in resultData && IdsKey(a) !in resultData ==>
              && (a.IsToOne() && a.lazy ==> r == Ok(Some(LazyOne(id))))
              && (a.IsToOne() && !a.lazy ==>
                    && (r == Ok(None) <==> |query(a, id)| == 0)
                    && (|query(a, id)| > 0 ==> r == Ok(Some(QueriedOne(query(a, id)[0])))))
              && (!a.IsToOne() ==> r == Ok(Some(LazyMany(id, a.collectionType))))
  {
    if a in initialized then Ok(Some(Initialized(initialized[a])))
    else if NodesKey(a) in resultData then
      if a.IsToOne() then
        match resultData[NodesKey(a)]
        case Nodes(ns) =>
          if |ns| == 0 then Ok(None)
          else if |ns| == 1 then Ok(Some(EagerOne(ns[0])))
          else Err(MoreThanOneNode(a.name))
        case _ => Err(NotANodeCollection(a.name))
      else
        var col := if ToRelationshipEntity(ctx, a) && RelsKey(a) in resultData then resultData[RelsKey(a)]
                   else resultData[NodesKey(a)];
        match col
        case Nodes(ns) => Ok(Some(EagerMany(ns, a.collectionType)))
        case _ => Err(NotANodeCollection(a.name))
    else if IdsKey(a) in resultData then
      var ids := TargetIds(resultData[IdsKey(a)]);
      if a.IsToOne() then
        if |ids| == 0 then Ok(None)
        else if |ids| == 1 then Ok(Some(ProxyOne(a.associated, ids[0])))
        else Err(MoreThanOneIdentifier(a.name))
      else Ok(Some(IdCollection(ids, a.collectionType)))
    else if a.IsToOne() then
      if a.lazy then Ok(Some(LazyOne(id)))
      else
        var results := query(a, id);
        if |results| == 0 then Ok(None) else Ok(Some(QueriedOne(results[0])))
    else Ok(Some(LazyMany(id, a.collectionType)))
  }

  /**
   * A to-one association loaded from fetched ids fails with a data
   * integrity violation exactly when there is more than one id, and
   * otherwise becomes a proxy for the single id (or stays unset).
   */
  lemma ToOneIds(ctx: Context, a: Association, id: Id, resultData: map<string, Column>,
                 initialized: map<Association, Value>, query: (Association, Id) -> seq<Value>)
    requires a !in initialized && NodesKey(a) !in resultData && IdsKey(a) in resultData && a.IsToOne()
    ensures var r := ResolveAssociation(ctx, a, id, resultData, initialized, query);
            var ids := TargetIds(resultData[IdsKey(a)]);
            && (r.Err? <==> |ids| > 1)
            && (r.Err? ==> r.error == MoreThanOneIdentifier(a.name))
            && (|ids| == 1 ==> r == Ok(Some(ProxyOne(a.associated, ids[0]))))
            && (|ids| == 0 ==> r == Ok(None))
  {
  }

  /** The node properties read into the stored properties among `props`: those the node has. */
  function ReadStored(props: seq<Property>, node: Node): (r: map<string, Value>)
    ensures forall name :: name in r <==>
              name in node.props && exists k :: 0 <= k < |props| && props[k].name == name && props[k].kind.IsStored()
    ensures forall name :: name in r ==> r[name] == node.props[name]
  {
    if |props| == 0 then map[]
    else
      var rest := ReadStored(props[..|props| - 1], node);
      var p := props[|props| - 1];
      if p.kind.IsStored() && p.name in node.props then rest[p.name := node.props[p.name]] else rest
  }

  /** Names of the stored properties among `props`. */
  function StoredNames(props: seq<Property>): (r: set<string>)
    ensures forall name :: name in r <==> exists k :: 0 <= k < |props| && props[k].name == name && props[k].kind.IsStored()
  {
    if |props| == 0 then {}
    else
      var p := props[|props| - 1];
      StoredNames(props[..|props| - 1]) + (if p.kind.IsStored() then {p.name} else {})
  }

  /** The node properties no stored property consumed, other than `__id__`. */
  function Undeclared(props: seq<Property>, node: Node): map<string, Value>
  {
    map k | k in node.props && k !in StoredNames(props) && k != IDENTIFIER :: node.props[k]
  }

  /**
   * Every node property lands in exactly one place: a stored property of
   * the same name, the undeclared attributes, or (only `__id__`) nowhere;
   * in both places its value is the node's.
   */
  lemma NodePropertiesPartition(props: seq<Property>, node: Node)
    ensures var stored := ReadStored(props, node);
            var undeclared := Undeclared(props, node);
            && (forall k :: k in node.props && k != IDENTIFIER ==> (k in stored <==> k !in undeclared))
            && (forall k :: k in stored ==> stored[k] == node.props[k])
            && (forall k :: k in undeclared ==> undeclared[k] == node.props[k] && k != IDENTIFIER)
            && (forall k :: k in stored || k in undeclared ==> k in node.props)
  {
  }

  /** The failure a property raises while loading, if any. */
  function PropertyFailure(ctx: Context, p: Property, id: Id, resultData: map<string, Column>,
                           initialized: map<Association, Value>, query: (Association, Id) -> seq<Value>)
    : Option<Failure>
  {
    match p.kind
    case Assoc(a) =>
      (match ResolveAssociation(ctx, a, id, resultData, initialized, query)
       case Err(f) => Some(f)
       case Ok(_) => None)
    case Custom => Some(UnsupportedProperty(p.name))
    case _ => None
  }

  /**
   * The association values of one load, walking the properties in
   * declaration order; the first property that fails stops the load.
   */
  function ResolveAll(ctx: Context, props: seq<Property>, id: Id, resultData: map<string, Column>,
                      initialized: map<Association, Value>, query: (Association, Id) -> seq<Value>)
    : (r: Result<map<string, Loaded>, Failure>)
  {
    if |props| == 0 then Ok(map[])
    else
      match ResolveAll(ctx, props[..|props| - 1], id, resultData, initialized, query)
      case Err(f) => Err(f)
      case Ok(m) =>
        var p := props[|props| - 1];
        match p.kind
        case Assoc(a) =>
          (match ResolveAssociation(ctx, a, id, resultData, initialized, query)
           case Err(f) => Err(f)
           case Ok(None) => Ok(m)
           case Ok(Some(l)) => Ok(m[p.name := l]))
        case Custom => Err(UnsupportedProperty(p.name))
        case _ => Ok(m)
  }

  /**
   * The load fails exactly when some property fails, and then with the
   * failure of the first such property.
   */
  lemma {:induction false} FirstFailureWins(ctx: Context, props: seq<Property>, id: Id, resultData: map<string, Column>,
                                            initialized: map<Association, Value>, query: (Association, Id) -> seq<Value>)
    ensures var r := ResolveAll(ctx, props, id, resultData, initialized, query);
            && (r.Ok? <==> forall k :: 0 <= k < |props| ==> PropertyFailure(ctx, props[k], id, resultData, initialized, query).None?)
            && (r.Err? ==> exists k :: (0 <= k < |props|
                  && PropertyFailure(ctx, props[k], id, resultData, initialized, query) == Some(r.error)
                  && forall i :: 0 <= i < k ==> PropertyFailure(ctx, props[i], id, resultData, initialized, query).None?))
  {
    if |props| > 0 {
      var init := props[..|props| - 1];
      FirstFailureWins(ctx, init, id, resultData, initialized, query);
      assert forall i :: 0 <= i < |init| ==> init[i] == props[i];
    }
  }

  /** No other property of `props` has the name of property `k`. */
  ghost predicate UniqueNameAt(props: seq<Property>, k: nat)
    requires k < |props|
  {
    forall j :: 0 <= j < |props| && j != k ==> props[j].name != props[k].name
  }

  /**
   * The entries of a successful load: every entry belongs to an
   * association property, and an association whose name no other property
   * shares is present exactly when `ResolveAssociation` sets it, with the
   * value it gives.
   */
  lemma {:induction false} ResolveAllEntries(ctx: Context, props: seq<Property>, id: Id, resultData: map<string, Column>,
                                             initialized: map<Association, Value>, query: (Association, Id) -> seq<Value>)
    requires ResolveAll(ctx, props, id, resultData, initialized, query).Ok?
    ensures var m := ResolveAll(ctx, props, id, resultData, initialized, query).value;
            forall name :: name in m ==> exists k :: 0 <= k < |props| && props[k].name == name && props[k].kind.Assoc?
    ensures var m := ResolveAll(ctx, props, id, resultData, initialized, query).value;
            forall k :: 0 <= k < |props| && props[k].kind.Assoc? && UniqueNameAt(props, k) ==>
              var res := ResolveAssociation(ctx, props[k].kind.association, id, resultData, initialized, query);
              && res.Ok?
              && (props[k].name in m <==> res.value.Some?)
              && (res.value.Some? ==> m[props[k].name] == res.value.value)
  {
    if |props| > 0 {
      var n := |props| - 1;
      var init := props[..n];
      var p := props[n];
      ResolveAllEntries(ctx, init, id, resultData, initialized, query);
      var m0 := ResolveAll(ctx, init, id, resultData, initialized, query).value;
      var m := ResolveAll(ctx, props, id, resultData, initialized, query).value;
      ResolveAllStep(ctx, props, id, resultData, initialized, query);
      assert forall i :: 0 <= i < n ==> init[i] == props[i];
      forall name | name in m
        ensures exists k :: 0 <= k < |props| && props[k].name == name && props[k].kind.Assoc?
      {
        if name in m0 {
          var k :| 0 <= k < n && init[k].name == name && init[k].kind.Assoc?;
          assert props[k] == init[k];
        } else {
          assert props[n].name == name && props[n].kind.Assoc?;
        }
      }
      forall k | 0 <= k < |props| && props[k].kind.Assoc? && UniqueNameAt(props, k)
        ensures var res := ResolveAssociation(ctx, props[k].kind.association, id, resultData, initialized, query);
                && res.Ok?
                && (props[k].name in m <==> res.value.Some?)
                && (res.value.Some? ==> m[props[k].name] == res.value.value)
      {
        if k < n {
          assert props[k] == init[k];
          assert p.name != props[k].name;
          assert UniqueNameAt(init, k);
        } else {
          assert forall j :: 0 <= j < n ==> init[j].name != p.name;
          assert p.name !in m0;
        }
      }
    }
  }

  /** The last property of a successful load adds at most its own entry. */
  lemma ResolveAllStep(ctx: Context, props: seq<Property>, id: Id, resultData: map<string, Column>,
                       initialized: map<Association, Value>, query: (Association, Id) -> seq<Value>)
    requires |props| > 0 && ResolveAll(ctx, props, id, resultData, initialized, query).Ok?
    ensures var init := props[..|props| - 1];
            var p := props[|props| - 1];
            var m := ResolveAll(ctx, props, id, resultData, initialized, query).value;
            && ResolveAll(ctx, init, id, resultData, initialized, query).Ok?
            && var m0 := ResolveAll(ctx, init, id, resultData, initialized, query).value;
               && (!p.kind.Assoc? ==> m == m0)
               && (p.kind.Assoc? ==>
                     var res := ResolveAssociation(ctx, p.kind.association, id, resultData, initialized, query);
                     && res.Ok?
                     && (res.value.None? ==> m == m0)
                     && (res.value.Some? ==> m == m0[p.name := res.value.value]))
  {
  }

  /**
   * `unmarshall`: a new instance of `e` with identifier `id`, its stored
   * properties read from the node, its associations resolved, and the
   * undeclared node properties attached as dynamic attributes when there
   * are any and the instance accepts them.
   */
  function Unmarshall(ctx: Context, e: Entity, id: Id, node: Node, resultData: map<string, Column>,
                      initialized: map<Association, Value>, query: (Association, Id) -> seq<Value>, blank: Obj)
    : (r: Result<Instance, Failure>)
    ensures r.Ok? <==> ResolveAll(ctx, e.properties, id, resultData, initialized, query).Ok?
    ensures r.Err? ==> r.error == ResolveAll(ctx, e.properties, id, resultData, initialized, query).error
    ensures r.Ok? ==> r.value.associations == ResolveAll(ctx, e.properties, id, resultData, initialized, query).value
    ensures r.Ok? ==> r.value.obj.entity == e.name && r.value.obj.id == Some(id)
    ensures r.Ok? ==> forall k :: 0 <= k < |e.properties| && e.properties[k].kind.IsStored() && e.properties[k].name in node.props ==>
                        r.value.obj.Get(e.properties[k].name) == node.props[e.properties[k].name]
  {
    var resolved := ResolveAll(ctx, e.properties, id, resultData, initialized, query);
    if resolved.Err? then Err(resolved.error)
    else
      var assocs := resolved.value;
      var undeclared := Undeclared(e.properties, node);
      var attrs := if blank.dynamicAttributes && |undeclared| > 0 then blank.attributes + undeclared else blank.attributes;
      Ok(Instance(blank.(entity := e.name, id := Some(id), values := blank.values + ReadStored(e.properties, node),
                         attributes := attrs),
                  assocs))
  }

  /**
   * Undeclared node properties reach the instance only when it accepts
   * dynamic attributes; each then carries the node's value.
   */
  lemma UndeclaredAttached(ctx: Context, e: Entity, id: Id, node: Node, resultData: map<string, Column>,
                           initialized: map<Association, Value>, query: (Association, Id) -> seq<Value>, blank: Obj)
    requires Unmarshall(ctx, e, id, node, resultData, initialized, query, blank).Ok?
    ensures var o := Unmarshall(ctx, e, id, node, resultData, initialized, query, blank).value.obj;
            && (!blank.dynamicAttributes ==> o.attributes == blank.attributes)
            && (blank.dynamicAttributes ==>
                  forall k :: k in node.props && k != IDENTIFIER && k !in StoredNames(e.properties) ==>
                    k in o.attributes && o.attributes[k] == node.props[k])
            && (forall k :: k in o.attributes && k !in blank.attributes ==>
                  k in node.props && k != IDENTIFIER && k !in StoredNames(e.properties))
  {
  }

  /** The session's first-level cache: instances by (entity, id). */
  type Cache = map<(EntityName, Id), Instance>

  /**
   * `unmarshallOrFromCache`: write locks are refused; otherwise the most
   * specific entity of the node's labels and the id read by the default
   * entity select the cached instance, and only when there is none is the
   * node unmarshalled, the new instance being cached under that key.
   */
  function UnmarshallOrFromCache(ctx: Context, pe: EntityName, node: Node, resultData: map<string, Column>,
                                 initialized: map<Association, Value>, lock: LockMode, cache: Cache,
                                 readId: (EntityName, Node) -> Id, query: (Association, Id) -> seq<Value>,
                                 blank: EntityName -> Obj)
    : (r: Result<(Instance, Cache), Failure>)
    requires WellFormed(ctx) && pe in ctx.entities
    ensures lock == PessimisticWrite ==> r == Err(WriteLockUnsupported)
    ensures var key := (MostSpecificEntity(ctx, pe, node.labels), readId(pe, node));
            && (lock != PessimisticWrite && key in cache ==> r == Ok((cache[key], cache)))
            && (r.Ok? ==> key in r.value.1 && r.value.1[key] == r.value.0 && r.value.1 - {key} == cache - {key})
  {
    if lock == PessimisticWrite then Err(WriteLockUnsupported)
    else
      var entity := MostSpecificEntity(ctx, pe, node.labels);
      var id := readId(pe, node);
      if (entity, id) in cache then Ok((cache[(entity, id)], cache))
      else
        match Unmarshall(ctx, ctx.entities[entity], id, node, resultData, initialized, query, blank(entity))
        case Err(f) => Err(f)
        case Ok(inst) => Ok((inst, cache[(entity, id) := inst]))
  }

  /**
   * Loading the same node again through the cache the first load left
   * behind returns the same instance and leaves the cache as it is.
   */
  lemma SecondLoadHitsCache(ctx: Context, pe: EntityName, node: Node, resultData: map<string, Column>,
                            initialized: map<Association, Value>, cache: Cache,
                            readId: (EntityName, Node) -> Id, query: (Association, Id) -> seq<Value>,
                            blank: EntityName -> Obj, resultData2: map<string, Column>, initialized2: map<Association, Value>)
    requires WellFormed(ctx) && pe in ctx.entities
    requires UnmarshallOrFromCache(ctx, pe, node, resultData, initialized, NoLock, cache, readId, query, blank).Ok?
    ensures var (inst, cache1) := UnmarshallOrFromCache(ctx, pe, node, resultData, initialized, NoLock, cache, readId, query, blank).value;
            UnmarshallOrFromCache(ctx, pe, node, resultData2, initialized2, NoLock, cache1, readId, query, blank) == Ok((inst, cache1))
  {
  }

  /** A fresh load is the unmarshalled node: an instance of the most specific entity with the id read. */
  lemma FreshLoadUnmarshalls(ctx: Context, pe: EntityName, node: Node, resultData: map<string, Column>,
                             initialized: map<Association, Value>, cache: Cache,
                             readId: (EntityName, Node) -> Id, query: (Association, Id) -> seq<Value>,
                             blank: EntityName -> Obj)
    requires WellFormed(ctx) && pe in ctx.entities
    requires (MostSpecificEntity(ctx, pe, node.labels), readId(pe, node)) !in cache
    requires UnmarshallOrFromCache(ctx, pe, node, resultData, initialized, NoLock, cache, readId, query, blank).Ok?
    ensures var inst := UnmarshallOrFromCache(ctx, pe, node, resultData, initialized, NoLock, cache, readId, query, blank).value.0;
            && inst.obj.entity == MostSpecificEntity(ctx, pe, node.labels)
            && inst.obj.id == Some(readId(pe, node))
  {
  }

  // ---------------------------------------------------------------------
  // persistEntity: the insert/update decision of one object
  // ---------------------------------------------------------------------

  /**
   * An object handed to the persister: `ref` stands for its identity (what
   * the session registers as pending), `proxyKey` is set when it is an
   * uninitialised proxy, `inSession` says whether the session already holds
   * it, and `vetoed` whether its pre-insert event cancels an insert.
   */
  datatype Item = Item(ref: nat, obj: Obj, proxyKey: Option<Id>, inSession: bool, vetoed: bool)

  /** What saving one object did. */
  datatype Action =
    | Ignored                                             // already pending, or unchanged
    | Proxied                                             // a proxy: its key is returned
    | UpdateRegistered(obj: Obj, id: Id)                  // a pending update for the flush
    | Vetoed                                              // a native-id insert its event cancelled
    | Inserted(statement: Statement, insert: S.PendingInsert) // run now to obtain a native id
    | InsertQueued(insert: S.PendingInsert)               // a pending insert for the flush

  /** The identifier returned, the objects pending afterwards, and what was done. */
  datatype Saved = Saved(id: Option<Id>, pending: set<nat>, action: Action)

  /**
   * The statement that inserts one object of a native-id entity at once:
   * `CREATE (n<labels> {props})` followed by the entity's id return clause,
   * with `props` bound to the insert's node properties.
   */
  function SingleCreate(h: Helpers, e: Entity, o: Obj): (r: Statement)
    ensures r.params.Keys == {S.PROPS}
    ensures r.params[S.PROPS] == Props(S.NodePropertiesForInsert(e, S.PendingInsert(o, None, true, false)))
  {
    Statement(CB.CYPHER_CREATE + S.CreatePattern(h, e, o, "") + h.formatReturnId(e.name),
              map[S.PROPS := Props(S.NodePropertiesForInsert(e, S.PendingInsert(o, None, true, false)))])
  }

  /**
   * An object is updated when it has an identifier and the caller did not
   * ask for an insert, except that an assigned-id object the session does
   * not hold yet is always inserted.
   */
  predicate IsUpdate(e: Entity, it: Item, isInsert: bool)
  {
    it.obj.id.Some? && !isInsert && !(e.assignedId && !it.inSession)
  }

  /**
   * `persistEntity`. `nextId` is what the entity's id generator would hand
   * out, and `reply` the identifier column of the row the immediate CREATE
   * returns (`None`: no row; `Some(None)`: a null identifier).
   */
  function PersistEntity(h: Helpers, e: Entity, item: Option<Item>, isInsert: bool, pending: set<nat>,
                         nextId: Id, reply: Option<Option<Id>>): (r: Result<Saved, Failure>)
    ensures r == Err(NullObject) <==> item.None?
    ensures r.Err? && item.Some? ==> r.error == IdentityGeneration(e.name)
    ensures item.Some? && ShouldIgnore(pending, item.value.ref, item.value.obj) ==>
              r == Ok(Saved(item.value.obj.id, pending, Ignored))
    ensures r.Ok? && !r.value.action.Ignored? && !r.value.action.Proxied? ==>
              r.value.pending == pending + {item.value.ref}
    ensures r.Ok? && r.value.action.Inserted? ==>
              reply.Some? && reply.value.Some? && r.value.id == reply.value
              && r.value.action.insert.nativeKey == reply.value && r.value.action.insert.executed
    ensures item.Some? && !ShouldIgnore(pending, item.value.ref, item.value.obj) && item.value.proxyKey.Some? ==>
              r == Ok(Saved(item.value.proxyKey, pending, Proxied))
    ensures item.Some? && !ShouldIgnore(pending, item.value.ref, item.value.obj) && item.value.proxyKey.None? ==>
              (r.Ok? && r.value.action.UpdateRegistered? <==>
                 item.value.obj.id.Some? && !isInsert && (!e.assignedId || item.value.inSession))
    ensures r.Ok? && r.value.action.UpdateRegistered? ==>
              r.value.id == item.value.obj.id && r.value.action.obj == item.value.obj
              && Some(r.value.action.id) == item.value.obj.id
  {
    match item
    case None => Err(NullObject)
    case Some(it) =>
      if ShouldIgnore(pending, it.ref, it.obj) then Ok(Saved(it.obj.id, pending, Ignored))
      else if it.proxyKey.Some? then Ok(Saved(it.proxyKey, pending, Proxied))
      else
        var pending1 := pending + {it.ref};
        if IsUpdate(e, it, isInsert) then
          Ok(Saved(it.obj.id, pending1, UpdateRegistered(it.obj, it.obj.id.value)))
        else
          var native := it.obj.id.None? && e.generator.None?;
          var ident := if it.obj.id.None? && e.generator.Some? then Some(nextId) else it.obj.id;
          var o := it.obj.(id := ident);
          if native && !e.isRelationship then
            if it.vetoed then Ok(Saved(None, pending1, Vetoed))
            else
              match reply
              case Some(Some(i)) =>
                var tracked := o.(id := Some(i), changed := if o.dirtyCheckable then false else o.changed);
                Ok(Saved(Some(i), pending1, Inserted(SingleCreate(h, e, o), S.PendingInsert(tracked, Some(i), true, false))))
              case _ => Err(IdentityGeneration(e.name))
          else
            Ok(Saved(ident, pending1, InsertQueued(S.PendingInsert(o, ident, false, it.vetoed))))
  }

  /** The single CREATE holds one pattern, for variable `n` with no number, and the id return clause. */
  lemma SingleCreateText(h: Helpers, e: Entity, o: Obj)
    ensures SingleCreate(h, e, o).text ==
              CB.CYPHER_CREATE + "(n" + h.labelsWithInheritance(e.name, o) + " {props})" + h.formatReturnId(e.name)
  {
    assert S.CreatePattern(h, e, o, "") == "(n" + h.labelsWithInheritance(e.name, o) + " {props})";
  }

  /** An assigned-id object the session does not hold yet is never updated, whatever the caller asked. */
  lemma AssignedIdNotInSessionInserts(h: Helpers, e: Entity, it: Item, isInsert: bool, pending: set<nat>,
                                      nextId: Id, reply: Option<Option<Id>>)
    requires e.assignedId && !it.inSession
    ensures var r := PersistEntity(h, e, Some(it), isInsert, pending, nextId, reply);
            r.Ok? ==> !r.value.action.UpdateRegistered?
  {
  }

  /**
   * A new object of a native-id node entity is created at once: the
   * statement is `CREATE` with one unnumbered pattern and the id return
   * clause, and the save fails exactly when the CREATE returns no row or
   * a null identifier; a vetoed one returns no identifier.
   */
  lemma NativeInsertIdentity(h: Helpers, e: Entity, it: Item, isInsert: bool, pending: set<nat>,
                             nextId: Id, reply: Option<Option<Id>>)
    requires !ShouldIgnore(pending, it.ref, it.obj) && it.proxyKey.None?
    requires it.obj.id.None? && e.generator.None? && !e.isRelationship
    ensures var r := PersistEntity(h, e, Some(it), isInsert, pending, nextId, reply);
            && (it.vetoed ==> r == Ok(Saved(None, pending + {it.ref}, Vetoed)))
            && (!it.vetoed ==> (r.Err? <==> reply.None? || reply.value.None?))
            && (r.Ok? && !it.vetoed ==>
                  r.value.action.Inserted? && r.value.id == reply.value
                  && r.value.action.statement.text ==
                       CB.CYPHER_CREATE + "(n" + h.labelsWithInheritance(e.name, it.obj) + " {props})" + h.formatReturnId(e.name))
  {
    if !it.vetoed && reply.Some? && reply.value.Some? {
      assert it.obj.(id := it.obj.id) == it.obj;
      SingleCreateText(h, e, it.obj);
    }
  }

  /**
   * A new object of an entity with an id generator takes the generator's
   * next id and is queued for the flush under that key.
   */
  lemma GeneratedIdQueued(h: Helpers, e: Entity, it: Item, isInsert: bool, pending: set<nat>,
                          nextId: Id, reply: Option<Option<Id>>)
    requires !ShouldIgnore(pending, it.ref, it.obj) && it.proxyKey.None?
    requires it.obj.id.None? && e.generator.Some?
    ensures var r := PersistEntity(h, e, Some(it), isInsert, pending, nextId, reply);
            && r.Ok? && r.value.id == Some(nextId)
            && r.value.action.InsertQueued?
            && r.value.action.insert.nativeKey == Some(nextId)
            && r.value.action.insert.obj.id == Some(nextId)
            && !r.value.action.insert.executed
  {
  }

  /**
   * Saving an object that is neither unchanged nor a proxy registers it
   * as pending, so saving it again in the same flush (in whatever state)
   * is ignored and changes nothing.
   */
  lemma RepeatedSaveIgnored(h: Helpers, e: Entity, it: Item, isInsert: bool, pending: set<nat>,
                            nextId: Id, reply: Option<Option<Id>>, again: Item, isInsert2: bool,
                            nextId2: Id, reply2: Option<Option<Id>>)
    requires again.ref == it.ref
    requires PersistEntity(h, e, Some(it), isInsert, pending, nextId, reply).Ok?
    requires var a := PersistEntity(h, e, Some(it), isInsert, pending, nextId, reply).value.action;
             !a.Ignored? && !a.Proxied?
    ensures var p1 := PersistEntity(h, e, Some(it), isInsert, pending, nextId, reply).value.pending;
            PersistEntity(h, e, Some(again), isInsert2, p1, nextId2, reply2) == Ok(Saved(again.obj.id, p1, Ignored))
  {
  }

  // ---------------------------------------------------------------------
  // persistEntities: the batched CREATE of a native-id node entity
  // ---------------------------------------------------------------------

  /**
   * The entry an object gets in the returned id list while the batch is
   * walked: a known identifier (possibly null), or the `index`-th pattern
   * of the CREATE, whose node id arrives with the row.
   */
  datatype Slot = Known(id: Option<Id>) | Awaiting(index: nat)

  /**
   * The batch walk so far: one slot per object, the inserts that became
   * patterns with the list positions of their objects, the pending set,
   * and the objects registered as updates.
   */
  datatype Walk = Walk(slots: seq<Slot>, created: seq<S.PendingInsert>, positions: seq<nat>,
                       pending: set<nat>, updates: seq<Obj>)

  /** The slot the batch walk gives the next object. */
  function SlotOf(w: Walk, it: Item): Slot
  {
    if ShouldIgnore(w.pending, it.ref, it.obj) then Known(it.obj.id)
    else if it.proxyKey.Some? then Known(it.proxyKey)
    else if it.obj.id.Some? then Known(it.obj.id)
    else if it.vetoed then Known(None)
    else Awaiting(|w.created|)
  }

  /** One object of the batch walk. */
  function WalkStep(w: Walk, it: Item): (r: Walk)
    ensures r.slots == w.slots + [SlotOf(w, it)]
    ensures |r.created| - |r.positions| == |w.created| - |w.positions|
  {
    if ShouldIgnore(w.pending, it.ref, it.obj) then w.(slots := w.slots + [Known(it.obj.id)])
    else if it.proxyKey.Some? then w.(slots := w.slots + [Known(it.proxyKey)])
    else
      var pending := w.pending + {it.ref};
      if it.obj.id.Some? then
        w.(slots := w.slots + [Known(it.obj.id)], pending := pending, updates := w.updates + [it.obj])
      else if it.vetoed then
        w.(slots := w.slots + [Known(None)], pending := pending)
      else
        Walk(w.slots + [Awaiting(|w.created|)], w.created + [S.PendingInsert(it.obj, None, true, false)],
             w.positions + [|w.slots|], pending, w.updates)
  }

  /** The batch walk over `items`, starting from the objects already pending. */
  function Classify(items: seq<Item>, pending: set<nat>): (r: Walk)
    ensures |r.slots| == |items| && |r.positions| == |r.created|
  {
    if |items| == 0 then Walk([], [], [], pending, [])
    else WalkStep(Classify(items[..|items| - 1], pending), items[|items| - 1])
  }

  /** Pattern `j` inserts the object at its position, a new object whose insert was not vetoed. */
  predicate PatternAt(w: Walk, items: seq<Item>, j: nat)
    requires j < |w.positions| && j < |w.created|
  {
    && w.positions[j] < |items| && w.positions[j] < |w.slots| && w.slots[w.positions[j]] == Awaiting(j)
    && w.created[j] == S.PendingInsert(items[w.positions[j]].obj, None, true, false)
    && items[w.positions[j]].obj.id.None? && !items[w.positions[j]].vetoed
  }

  /**
   * The walk's bookkeeping: one slot per object; the `j`-th pattern's
   * position holds the slot awaiting pattern `j`, and every awaiting slot
   * names the pattern whose position it is.
   */
  predicate Shaped(w: Walk, items: seq<Item>)
  {
    && |w.slots| == |items| && |w.positions| == |w.created|
    && (forall j :: 0 <= j < |w.positions| ==> PatternAt(w, items, j))
    && (forall p :: 0 <= p < |w.slots| && w.slots[p].Awaiting? ==>
          w.slots[p].index < |w.created| && w.positions[w.slots[p].index] == p)
  }

  lemma PatternAtKept(w: Walk, items: seq<Item>, w2: Walk, it: Item, j: nat)
    requires j < |w.positions| && j < |w.created| && PatternAt(w, items, j)
    requires |w.slots| == |items|
    requires |w2.slots| == |w.slots| + 1 && w2.slots[..|w.slots|] == w.slots
    requires |w2.positions| >= |w.positions| && |w2.created| >= |w.created|
    requires w2.positions[..|w.positions|] == w.positions && w2.created[..|w.created|] == w.created
    ensures PatternAt(w2, items + [it], j)
  {
    assert w2.positions[j] == w.positions[j];
    assert w2.created[j] == w.created[j];
    assert w2.slots[w.positions[j]] == w.slots[w.positions[j]];
    assert (items + [it])[w.positions[j]] == items[w.positions[j]];
  }

  lemma WalkStepShaped(w: Walk, items: seq<Item>, it: Item)
    requires Shaped(w, items)
    ensures Shaped(WalkStep(w, it), items + [it])
  {
    var w2 := WalkStep(w, it);
    assert w2.slots[..|w.slots|] == w.slots;
    if w2.created == w.created {
      assert w2.positions == w.positions;
      forall j | 0 <= j < |w2.positions|
        ensures PatternAt(w2, items + [it], j)
      {
        PatternAtKept(w, items, w2, it, j);
      }
    } else {
      assert w2.positions == w.positions + [|w.slots|];
      assert w2.created[..|w.created|] == w.created;
      forall j | 0 <= j < |w2.positions|
        ensures PatternAt(w2, items + [it], j)
      {
        if j < |w.positions| {
          PatternAtKept(w, items, w2, it, j);
        }
      }
    }
  }

  /** Every walk keeps its bookkeeping. */
  lemma {:induction false} ClassifyShape(items: seq<Item>, pending: set<nat>)
    ensures Shaped(Classify(items, pending), items)
  {
    if |items| > 0 {
      var init := items[..|items| - 1];
      ClassifyShape(init, pending);
      WalkStepShaped(Classify(init, pending), init, items[|items| - 1]);
      assert init + [items[|items| - 1]] == items;
    }
  }

  /** The walk over a prefix is the prefix of the walk. */
  lemma {:induction false} ClassifyPrefix(items: seq<Item>, pending: set<nat>, n: nat)
    requires n <= |items|
    ensures Classify(items[..n], pending).slots == Classify(items, pending).slots[..n]
  {
    if n < |items| {
      var init := items[..|items| - 1];
      assert init[..n] == items[..n];
      ClassifyPrefix(init, pending, n);
    } else {
      assert items[..n] == items;
    }
  }

  /** Object `p` gets the slot the walk assigns it given the walk over the objects before it. */
  lemma SlotAt(items: seq<Item>, pending: set<nat>, p: nat)
    requires p < |items|
    ensures Classify(items, pending).slots[p] == SlotOf(Classify(items[..p], pending), items[p])
  {
    ClassifyPrefix(items, pending, p + 1);
    assert items[..p + 1][..p] == items[..p];
    assert Classify(items[..p + 1], pending).slots[p] == Classify(items, pending).slots[p];
  }

  /**
   * The slot of object `p`, given the objects pending when the walk
   * reaches it: ignored objects keep their identifier, proxies their key,
   * objects with an identifier keep it (as updates), vetoed new objects a
   * null placeholder, and every other new object awaits its pattern.
   */
  lemma SlotMeaning(items: seq<Item>, pending: set<nat>, p: nat)
    requires p < |items|
    ensures var before := Classify(items[..p], pending).pending;
            var it := items[p];
            var slot := Classify(items, pending).slots[p];
            && (ShouldIgnore(before, it.ref, it.obj) ==> slot == Known(it.obj.id))
            && (!ShouldIgnore(before, it.ref, it.obj) && it.proxyKey.Some? ==> slot == Known(it.proxyKey))
            && (!ShouldIgnore(before, it.ref, it.obj) && it.proxyKey.None? && it.obj.id.Some? ==> slot == Known(it.obj.id))
            && (!ShouldIgnore(before, it.ref, it.obj) && it.proxyKey.None? && it.obj.id.None? ==>
                  (it.vetoed <==> slot == Known(None)) && (!it.vetoed <==> slot.Awaiting?))
  {
    SlotAt(items, pending, p);
  }

  /** The batch CREATE: `CREATE ` and the numbered patterns separated by `, `, then ` RETURN *`. */
  function BatchText(h: Helpers, e: Entity, created: seq<S.PendingInsert>): string
  {
    CB.CYPHER_CREATE + Join(S.Patterns(h, e, created), CB.COMMAND_SEPARATOR) + " RETURN *"
  }

  /** The node id in column `n<k>` of the returned row; absent or null reads as `None`. */
  function NodeColumn(row: map<string, Option<int>>, k: nat): Option<int>
  {
    if Numbered(CB.NODE_VAR, k) in row then row[Numbered(CB.NODE_VAR, k)] else None
  }

  /** Whether columns `n1` to `n<k>` all hold a node. */
  predicate AllColumns(row: map<string, Option<int>>, k: nat)
  {
    forall c :: 1 <= c <= k ==> NodeColumn(row, c).Some?
  }

  /** The final identifier of a slot: a pattern's slot takes the node id of its column. */
  function Resolve(slot: Slot, row: map<string, Option<int>>): Option<Id>
  {
    match slot
    case Known(id) => id
    case Awaiting(j) =>
      match NodeColumn(row, j + 1)
      case None => None
      case Some(n) => Some(NativeId(n))
  }

  /** An insert after the row arrived: its object and key carry the node id of its column. */
  function WithNodeId(c: S.PendingInsert, column: Option<int>): S.PendingInsert
  {
    match column
    case None => c
    case Some(n) => c.(obj := c.obj.(id := Some(NativeId(n))), nativeKey := Some(NativeId(n)))
  }

  /** The id list once the row is read: every slot resolved. */
  function FinalIds(slots: seq<Slot>, row: map<string, Option<int>>): (r: seq<Option<Id>>)
    ensures |r| == |slots| && forall p :: 0 <= p < |slots| ==> r[p] == Resolve(slots[p], row)
  {
    seq(|slots|, p requires 0 <= p < |slots| => Resolve(slots[p], row))
  }

  /** The created inserts once the row is read: each carries the node id of its column. */
  function FinalInserts(created: seq<S.PendingInsert>, row: map<string, Option<int>>): (r: seq<S.PendingInsert>)
    ensures |r| == |created| && forall j :: 0 <= j < |created| ==> r[j] == WithNodeId(created[j], NodeColumn(row, j + 1))
  {
    seq(|created|, j requires 0 <= j < |created| => WithNodeId(created[j], NodeColumn(row, j + 1)))
  }

  /** What a successful or empty batch produced. */
  datatype Batch = Batch(ids: seq<Option<Id>>, pending: set<nat>, statement: Option<Statement>,
                         inserts: seq<S.PendingInsert>, updates: seq<Obj>)

  /**
   * The batch path of `persistEntities`, stated declaratively: nothing is
   * run when no object becomes a pattern; otherwise one CREATE with a
   * numbered pattern and `props<i>` parameter per new object, which fails
   * unless the row has a node in every column `n1` to `n<k>`; the id list
   * has one entry per object, with each pattern's node id at its object's
   * position.
   */
  function BatchPersist(h: Helpers, e: Entity, items: seq<Item>, pending: set<nat>,
                        row: Option<map<string, Option<int>>>): (r: Result<Batch, Failure>)
    ensures var w := Classify(items, pending);
            && (r.Err? <==> |w.created| > 0 && (row.None? || !AllColumns(row.value, |w.created|)))
            && (r.Err? ==> r.error == IdentityGeneration(e.name))
            && (r.Ok? ==> |r.value.ids| == |items| && r.value.pending == w.pending)
            && (r.Ok? ==> (r.value.statement.None? <==> |w.created| == 0))
  {
    var w := Classify(items, pending);
    ClassifyShape(items, pending);
    if |w.created| == 0 then
      Ok(Batch(FinalIds(w.slots, map[]), w.pending, None, [], w.updates))
    else if row.None? || !AllColumns(row.value, |w.created|) then Err(IdentityGeneration(e.name))
    else
      Ok(Batch(FinalIds(w.slots, row.value), w.pending,
               Some(Statement(BatchText(h, e, w.created), S.ParamsFor(e, w.created))),
               FinalInserts(w.created, row.value), w.updates))
  }

  /** With every column present, the slot awaiting pattern `j` resolves to column `n<j+1>`'s node. */
  lemma ColumnResolvesPattern(w: Walk, items: seq<Item>, row: map<string, Option<int>>, j: nat)
    requires Shaped(w, items) && j < |w.created| && AllColumns(row, |w.created|)
    ensures NodeColumn(row, j + 1).Some? && w.positions[j] < |items|
    ensures FinalIds(w.slots, row)[w.positions[j]] == Some(NativeId(NodeColumn(row, j + 1).value))
  {
    assert PatternAt(w, items, j);
    assert NodeColumn(row, j + 1).Some?;
  }

  /** A batch that wrote patterns and succeeded read every node column of its row. */
  lemma BatchReadsRow(h: Helpers, e: Entity, items: seq<Item>, pending: set<nat>,
                      row: Option<map<string, Option<int>>>)
    requires BatchPersist(h, e, items, pending, row).Ok? && |Classify(items, pending).created| > 0
    ensures row.Some? && AllColumns(row.value, |Classify(items, pending).created|)
    ensures BatchPersist(h, e, items, pending, row).value.ids == FinalIds(Classify(items, pending).slots, row.value)
  {
  }

  /**
   * Batch id correlation: the `j`-th pattern inserts the object at list
   * position `positions[j]`, which receives the node id of column
   * `n<j+1>`.
   */
  lemma BatchCorrelation(h: Helpers, e: Entity, items: seq<Item>, pending: set<nat>,
                         row: Option<map<string, Option<int>>>, j: nat)
    requires BatchPersist(h, e, items, pending, row).Ok?
    requires j < |Classify(items, pending).created|
    ensures var w := Classify(items, pending);
            var b := BatchPersist(h, e, items, pending, row).value;
            && row.Some? && NodeColumn(row.value, j + 1).Some?
            && w.positions[j] < |items|
            && b.ids[w.positions[j]] == Some(NativeId(NodeColumn(row.value, j + 1).value))
  {
    ClassifyShape(items, pending);
    BatchReadsRow(h, e, items, pending, row);
    ColumnResolvesPattern(Classify(items, pending), items, row.value, j);
  }

  /**
   * Pattern `j` of the batched CREATE is numbered `j + 1`, is the pattern
   * of the object at position `positions[j]`, and binds that object's
   * node properties as `props<j+1>`.
   */
  lemma BatchPatternNumbering(h: Helpers, e: Entity, items: seq<Item>, pending: set<nat>,
                              row: Option<map<string, Option<int>>>, j: nat)
    requires BatchPersist(h, e, items, pending, row).Ok?
    requires j < |Classify(items, pending).created|
    ensures var w := Classify(items, pending);
            var b := BatchPersist(h, e, items, pending, row).value;
            && w.positions[j] < |items|
            && b.statement.Some?
            && S.Patterns(h, e, w.created)[j] == S.CreatePattern(h, e, items[w.positions[j]].obj, NatToString(j + 1))
            && S.PropsKey(j + 1) in b.statement.value.params
            && b.statement.value.params[S.PropsKey(j + 1)] ==
                 Props(S.NodePropertiesForInsert(e, S.PendingInsert(items[w.positions[j]].obj, None, true, false)))
  {
    ClassifyShape(items, pending);
    var w := Classify(items, pending);
    assert PatternAt(w, items, j);
    S.PatternsAt(h, e, w.created, j);
    S.ParamsForAt(e, w.created, j + 1);
  }

  /** Positions that await no pattern keep the identifier their slot knew; a vetoed insert keeps null. */
  lemma BatchKnownPositions(h: Helpers, e: Entity, items: seq<Item>, pending: set<nat>,
                            row: Option<map<string, Option<int>>>, p: nat)
    requires BatchPersist(h, e, items, pending, row).Ok?
    requires p < |items|
    requires Classify(items, pending).slots[p].Known?
    ensures BatchPersist(h, e, items, pending, row).value.ids[p] == Classify(items, pending).slots[p].id
  {
    ClassifyShape(items, pending);
  }

  /**
   * The objects created by the batch are recorded as executed inserts, so
   * the session's own batched CREATE at flush time creates none of them
   * again.
   */
  lemma BatchInsertsNotRecreated(h: Helpers, e: Entity, items: seq<Item>, pending: set<nat>,
                                 row: Option<map<string, Option<int>>>)
    requires BatchPersist(h, e, items, pending, row).Ok?
    ensures S.Created(e, BatchPersist(h, e, items, pending, row).value.inserts) == []
  {
    ClassifyShape(items, pending);
    var w := Classify(items, pending);
    var ins := BatchPersist(h, e, items, pending, row).value.inserts;
    forall k | 0 <= k < |ins|
      ensures ins[k].executed
    {
      assert PatternAt(w, items, k);
    }
    S.NothingLeftToCreate(e, ins);
  }

  lemma BatchTextSnoc(h: Helpers, e: Entity, cs: seq<S.PendingInsert>, p: S.PendingInsert)
    ensures CB.CYPHER_CREATE + Join(S.Patterns(h, e, cs + [p]), CB.COMMAND_SEPARATOR) ==
            (if |cs| == 0 then CB.CYPHER_CREATE
             else CB.CYPHER_CREATE + Join(S.Patterns(h, e, cs), CB.COMMAND_SEPARATOR) + CB.COMMAND_SEPARATOR)
            + S.CreatePattern(h, e, p.obj, NatToString(|cs| + 1))
  {
    var last := S.CreatePattern(h, e, p.obj, NatToString(|cs| + 1));
    S.PatternsSnoc(h, e, cs, p);
    var ps := S.Patterns(h, e, cs);
    if |cs| > 0 {
      JoinSnoc(ps, last, CB.COMMAND_SEPARATOR);
      AppendAssoc(CB.CYPHER_CREATE, Join(ps, CB.COMMAND_SEPARATOR), CB.COMMAND_SEPARATOR, last);
    } else {
      assert S.Patterns(h, e, cs + [p]) == [last];
    }
  }

  lemma ParamsForSnoc(e: Entity, cs: seq<S.PendingInsert>, p: S.PendingInsert)
    ensures S.ParamsFor(e, cs + [p]) == S.ParamsFor(e, cs)[S.PropsKey(|cs| + 1) := Props(S.NodePropertiesForInsert(e, p))]
  {
    assert (cs + [p])[..|cs|] == cs;
  }

  lemma ClassifySnoc(items: seq<Item>, pending: set<nat>, n: nat)
    requires n < |items|
    ensures Classify(items[..n + 1], pending) == WalkStep(Classify(items[..n], pending), items[n])
  {
    assert items[..n + 1][..n] == items[..n];
  }

  /** A slot's identifier once the columns of patterns `0` to `j - 1` have been read. */
  function Partial(slot: Slot, row: map<string, Option<int>>, j: nat): Option<Id>
  {
    if slot.Awaiting? && slot.index >= j then None else Resolve(slot, row)
  }

  /** Reading column `j + 1` completes exactly the slot awaiting pattern `j`. */
  lemma PartialStep(items: seq<Item>, w: Walk, ids: seq<Option<Id>>, row: map<string, Option<int>>, j: nat)
    requires Shaped(w, items) && j < |w.created| && NodeColumn(row, j + 1).Some?
    requires |ids| == |w.slots| && forall p :: 0 <= p < |ids| ==> ids[p] == Partial(w.slots[p], row, j)
    ensures w.positions[j] < |ids|
    ensures var next := ids[w.positions[j] := Some(NativeId(NodeColumn(row, j + 1).value))];
            forall p :: 0 <= p < |next| ==> next[p] == Partial(w.slots[p], row, j + 1)
  {
    assert PatternAt(w, items, j);
    var target := w.positions[j];
    var next := ids[target := Some(NativeId(NodeColumn(row, j + 1).value))];
    forall p | 0 <= p < |next|
      ensures next[p] == Partial(w.slots[p], row, j + 1)
    {
      if p != target && w.slots[p].Awaiting? {
        assert w.positions[w.slots[p].index] == p;
      }
    }
  }

  /** The variables of the first walk of the batch path. */
  datatype BatchState = BatchState(ids: seq<Option<Id>>, created: seq<S.PendingInsert>, indexMap: seq<nat>,
                                   pending: set<nat>, updates: seq<Obj>, text: string,
                                   params: map<string, Value>, previous: bool)

  /**
   * The walk's variables after `n` of `total` objects agree with the
   * declarative walk `w`: ids hold the known identifiers and null
   * placeholders, the text holds `CREATE ` and the patterns written so
   * far, and `previous` is set exactly when a pattern was written and
   * objects remain.
   */
  ghost predicate Mirrors(h: Helpers, e: Entity, st: BatchState, w: Walk, n: nat, total: nat)
  {
    && st.created == w.created && st.indexMap == w.positions && st.pending == w.pending && st.updates == w.updates
    && |w.slots| == n && |st.ids| == n
    && (forall p :: 0 <= p < |st.ids| ==> st.ids[p] == Resolve(w.slots[p], map[]))
    && st.text == CB.CYPHER_CREATE + Join(S.Patterns(h, e, st.created), CB.COMMAND_SEPARATOR)
    && st.params == S.ParamsFor(e, st.created)
    && (st.previous ==> |st.created| > 0)
    && (|st.created| > 0 && n < total ==> st.previous)
  }

  /** A new object becomes the next pattern. */
  method AppendPattern(h: Helpers, e: Entity, st: BatchState, it: Item, ghost w: Walk, n: nat, total: nat)
    returns (st2: BatchState)
    requires n < total && Mirrors(h, e, st, w, n, total)
    requires !ShouldIgnore(w.pending, it.ref, it.obj) && it.proxyKey.None? && it.obj.id.None? && !it.vetoed
    ensures Mirrors(h, e, st2, WalkStep(w, it), n + 1, total)
  {
    var insert := S.PendingInsert(it.obj, None, true, false);
    var insertIndex := |st.created| + 1;
    BatchTextSnoc(h, e, st.created, insert);
    ParamsForSnoc(e, st.created, insert);
    var text := st.text;
    if st.previous {
      text := text + CB.COMMAND_SEPARATOR;
    } else {
      assert text == CB.CYPHER_CREATE + "";
    }
    text := text + S.CreatePattern(h, e, it.obj, NatToString(insertIndex));
    st2 := BatchState(st.ids + [None], st.created + [insert], st.indexMap + [n], st.pending + {it.ref}, st.updates,
                      text, st.params[S.PropsKey(insertIndex) := Props(S.NodePropertiesForInsert(e, insert))],
                      st.previous || n + 1 < total);
    ghost var w2 := WalkStep(w, it);
    assert w2.slots == w.slots + [Awaiting(|w.created|)];
    assert forall p :: 0 <= p < n ==> st2.ids[p] == st.ids[p] && w2.slots[p] == w.slots[p];
  }

  /** Any other object: its identifier, its proxy key, or a null placeholder for a vetoed insert. */
  method AppendKnown(h: Helpers, e: Entity, st: BatchState, it: Item, ghost w: Walk, n: nat, total: nat)
    returns (st2: BatchState)
    requires n < total && Mirrors(h, e, st, w, n, total)
    requires ShouldIgnore(w.pending, it.ref, it.obj) || it.proxyKey.Some? || it.obj.id.Some? || it.vetoed
    ensures Mirrors(h, e, st2, WalkStep(w, it), n + 1, total)
  {
    if ShouldIgnore(st.pending, it.ref, it.obj) {
      st2 := st.(ids := st.ids + [it.obj.id]);
    } else if it.proxyKey.Some? {
      st2 := st.(ids := st.ids + [it.proxyKey]);
    } else if it.obj.id.Some? {
      st2 := st.(ids := st.ids + [it.obj.id], pending := st.pending + {it.ref}, updates := st.updates + [it.obj]);
    } else {
      st2 := st.(ids := st.ids + [None], pending := st.pending + {it.ref});
    }
    ghost var w2 := WalkStep(w, it);
    assert forall p :: 0 <= p < n ==> st2.ids[p] == st.ids[p] && w2.slots[p] == w.slots[p];
  }

  /**
   * The first walk of the batch path as the source writes it: appends an
   * id (or a null placeholder) per object, records the list position of
   * every new object in an index map, and appends its pattern and
   * parameters, the pattern preceded by `, ` when an earlier pattern was
   * written and objects remained after it.
   */
  method WalkBatch(h: Helpers, e: Entity, items: seq<Item>, pending: set<nat>) returns (st: BatchState)
    ensures Mirrors(h, e, st, Classify(items, pending), |items|, |items|)
  {
    st := BatchState([], [], [], pending, [], CB.CYPHER_CREATE, map[], false);
    assert Join(S.Patterns(h, e, st.created), CB.COMMAND_SEPARATOR) == "";
    for n := 0 to |items|
      invariant Mirrors(h, e, st, Classify(items[..n], pending), n, |items|)
    {
      var it := items[n];
      ClassifySnoc(items, pending, n);
      if ShouldIgnore(st.pending, it.ref, it.obj) || it.proxyKey.Some? || it.obj.id.Some? || it.vetoed {
        st := AppendKnown(h, e, st, it, Classify(items[..n], pending), n, |items|);
      } else {
        st := AppendPattern(h, e, st, it, Classify(items[..n], pending), n, |items|);
      }
    }
    assert items[..|items|] == items;
  }

  /**
   * The second walk of the batch path: for `j` from 0, the node of column
   * `n<j+1>` gives its id to list position `indexMap[j]` and to the
   * `j`-th insert; a missing node stops the walk with `None`.
   */
  method Correlate(ghost items: seq<Item>, ghost w: Walk, ids0: seq<Option<Id>>, created: seq<S.PendingInsert>,
                   indexMap: seq<nat>, record: map<string, Option<int>>)
    returns (r: Option<(seq<Option<Id>>, seq<S.PendingInsert>)>)
    requires Shaped(w, items) && indexMap == w.positions && created == w.created
    requires |ids0| == |w.slots| && forall p :: 0 <= p < |ids0| ==> ids0[p] == Resolve(w.slots[p], map[])
    ensures r.None? <==> !AllColumns(record, |created|)
    ensures r.Some? ==> |r.value.0| == |w.slots| && forall p :: 0 <= p < |w.slots| ==> r.value.0[p] == Resolve(w.slots[p], record)
    ensures r.Some? ==> |r.value.1| == |created|
                        && forall j :: 0 <= j < |created| ==> r.value.1[j] == WithNodeId(created[j], NodeColumn(record, j + 1))
  {
    var ids := ids0;
    var inserts: seq<S.PendingInsert> := [];
    for j := 0 to |indexMap|
      invariant |ids| == |w.slots|
      invariant AllColumns(record, j)
      invariant forall p :: 0 <= p < |ids| ==> ids[p] == Partial(w.slots[p], record, j)
      invariant |inserts| == j
      invariant forall i :: 0 <= i < j ==> inserts[i] == WithNodeId(created[i], NodeColumn(record, i + 1))
    {
      var node := NodeColumn(record, j + 1);
      if node.None? {
        return None;
      }
      PartialStep(items, w, ids, record, j);
      var target := indexMap[j];
      ids := ids[target := Some(NativeId(node.value))];
      inserts := inserts + [WithNodeId(created[j], node)];
    }
    return Some((ids, inserts));
  }

  /**
   * The batch path of `persistEntities` as the source writes it: the
   * first walk; nothing more when no pattern was written; otherwise the
   * CREATE with ` RETURN *`, which fails without a row, and the second
   * walk, which fails on a missing node.
   */
  method RunBatch(h: Helpers, e: Entity, items: seq<Item>, pending: set<nat>,
                  row: Option<map<string, Option<int>>>) returns (r: Result<Batch, Failure>)
    ensures r == BatchPersist(h, e, items, pending, row)
  {
    var st := WalkBatch(h, e, items, pending);
    ClassifyShape(items, pending);
    ghost var w := Classify(items, pending);
    if |st.created| == 0 {
      assert st.ids == FinalIds(w.slots, map[]);
      return Ok(Batch(st.ids, st.pending, None, [], st.updates));
    }
    var text := st.text + " RETURN *";
    if row.None? {
      return Err(IdentityGeneration(e.name));
    }
    var done := Correlate(items, w, st.ids, st.created, st.indexMap, row.value);
    if done.None? {
      return Err(IdentityGeneration(e.name));
    }
    assert done.value.0 == FinalIds(w.slots, row.value);
    assert done.value.1 == FinalInserts(w.created, row.value);
    r := Ok(Batch(done.value.0, st.pending, Some(Statement(text, st.params)), done.value.1, st.updates));
  }

  /**
   * The per-object path of `persistEntities`: each object saved in turn
   * through `persistEntity`, the null identifiers dropped. `nextIds` and
   * `replies` are what each object's save would see from the id generator
   * and from an immediate CREATE.
   */
  function PersistEach(h: Helpers, e: Entity, items: seq<Item>, pending: set<nat>,
                       nextIds: seq<Id>, replies: seq<Option<Option<Id>>>): (r: Result<(seq<Id>, set<nat>), Failure>)
    requires |nextIds| == |items| && |replies| == |items|
    ensures r.Ok? ==> |r.value.0| <= |items|
  {
    if |items| == 0 then Ok(([], pending))
    else
      var n := |items| - 1;
      match PersistEach(h, e, items[..n], pending, nextIds[..n], replies[..n])
      case Err(f) => Err(f)
      case Ok((ids, p)) =>
        match PersistEntity(h, e, Some(items[n]), false, p, nextIds[n], replies[n])
        case Err(f) => Err(f)
        case Ok(saved) => Ok((if saved.id.Some? then ids + [saved.id.value] else ids, saved.pending))
  }

  /**
   * `persistEntities`: entities with dynamic associations, and entities
   * that are not native-id node entities, save object by object; a
   * native-id node entity saves the whole batch with one CREATE.
   */
  function PersistEntities(h: Helpers, e: Entity, items: seq<Item>, pending: set<nat>,
                           nextIds: seq<Id>, replies: seq<Option<Option<Id>>>,
                           row: Option<map<string, Option<int>>>): (r: Result<seq<Option<Id>>, Failure>)
    requires |nextIds| == |items| && |replies| == |items|
    ensures !e.hasDynamicAssociations && e.nativeId && !e.isRelationship ==>
              r == (match BatchPersist(h, e, items, pending, row)
                    case Err(f) => Err(f)
                    case Ok(b) => Ok(b.ids))
    ensures r.Ok? && !e.hasDynamicAssociations && e.nativeId && !e.isRelationship ==> |r.value| == |items|
    ensures r.Ok? && (e.hasDynamicAssociations || !e.nativeId || e.isRelationship) ==>
              |r.value| <= |items| && forall k :: 0 <= k < |r.value| ==> r.value[k].Some?
  {
    if e.hasDynamicAssociations || !(e.nativeId && !e.isRelationship) then
      match PersistEach(h, e, items, pending, nextIds, replies)
      case Err(f) => Err(f)
      case Ok((ids, _)) => Ok(seq(|ids|, k requires 0 <= k < |ids| => Some(ids[k])))
    else
      match BatchPersist(h, e, items, pending, row)
      case Err(f) => Err(f)
      case Ok(b) => Ok(b.ids)
  }

  /** Every object is new, is not a proxy, and would be saved (not yet pending, changed or untracked). */
  predicate AllFresh(items: seq<Item>, pending: set<nat>)
  {
    && (forall k :: 0 <= k < |items| ==>
          items[k].obj.id.None? && items[k].proxyKey.None? && !ShouldIgnore(pending, items[k].ref, items[k].obj))
    && (forall i, j :: 0 <= i < j < |items| ==> items[i].ref != items[j].ref)
  }

  /** The objects of `items`, as the session's pending references. */
  function Refs(items: seq<Item>): (r: set<nat>)
    ensures forall k :: 0 <= k < |items| ==> items[k].ref in r
    ensures forall x :: x in r ==> exists k :: 0 <= k < |items| && items[k].ref == x
  {
    if |items| == 0 then {} else Refs(items[..|items| - 1]) + {items[|items| - 1].ref}
  }

  /**
   * Saving new objects of an entity with an id generator one by one
   * returns the generator's ids in order, one per object, and leaves every
   * object pending.
   */
  lemma {:induction false} PersistEachGenerated(h: Helpers, e: Entity, items: seq<Item>, pending: set<nat>,
                                                nextIds: seq<Id>, replies: seq<Option<Option<Id>>>)
    requires |nextIds| == |items| && |replies| == |items|
    requires e.generator.Some? && AllFresh(items, pending)
    ensures PersistEach(h, e, items, pending, nextIds, replies) == Ok((nextIds, pending + Refs(items)))
  {
    if |items| > 0 {
      var n := |items| - 1;
      var init := items[..n];
      AllFreshSplit(items, pending);
      PersistEachGenerated(h, e, init, pending, nextIds[..n], replies[..n]);
      GeneratedEachStep(h, e, items, pending, nextIds, replies);
    } else {
      assert pending + Refs(items) == pending;
    }
  }

  /** The generated-ids law carried over one more fresh object. */
  lemma GeneratedEachStep(h: Helpers, e: Entity, items: seq<Item>, pending: set<nat>,
                          nextIds: seq<Id>, replies: seq<Option<Option<Id>>>)
    requires |nextIds| == |items| && |replies| == |items| && |items| > 0
    requires var n := |items| - 1;
             PersistEach(h, e, items[..n], pending, nextIds[..n], replies[..n])
               == Ok((nextIds[..n], pending + Refs(items[..n])))
    requires var it := items[|items| - 1];
             && e.generator.Some? && it.obj.id.None? && it.proxyKey.None?
             && !ShouldIgnore(pending, it.ref, it.obj) && it.ref !in Refs(items[..|items| - 1])
    ensures PersistEach(h, e, items, pending, nextIds, replies) == Ok((nextIds, pending + Refs(items)))
  {
    var n := |items| - 1;
    var init := items[..n];
    var p := pending + Refs(init);
    GeneratedStep(h, e, items[n], pending, Refs(init), nextIds[n], replies[n]);
    var saved := PersistEntity(h, e, Some(items[n]), false, p, nextIds[n], replies[n]).value;
    PersistEachSnoc(h, e, items, pending, nextIds, replies, nextIds[..n], p, saved);
    var ids' := nextIds[..n] + [nextIds[n]];
    var p' := p + {items[n].ref};
    assert PersistEach(h, e, items, pending, nextIds, replies) == Ok((ids', p'));
    assert ids' == nextIds;
    assert p' == pending + Refs(items);
  }

  /** A fresh batch splits into a fresh prefix and a last object that is fresh and not in it. */
  lemma AllFreshSplit(items: seq<Item>, pending: set<nat>)
    requires |items| > 0 && AllFresh(items, pending)
    ensures var n := |items| - 1;
            && AllFresh(items[..n], pending)
            && items[n].obj.id.None? && items[n].proxyKey.None? && !ShouldIgnore(pending, items[n].ref, items[n].obj)
            && items[n].ref !in Refs(items[..n])
  {
    var n := |items| - 1;
    var init := items[..n];
    assert forall k :: 0 <= k < n ==> init[k] == items[k];
    assert forall k :: 0 <= k < n ==> init[k].ref != items[n].ref;
  }

  /** One fresh object of a generator entity takes the next id and becomes pending. */
  lemma GeneratedStep(h: Helpers, e: Entity, it: Item, pending: set<nat>, before: set<nat>,
                      nextId: Id, reply: Option<Option<Id>>)
    requires e.generator.Some? && it.obj.id.None? && it.proxyKey.None?
    requires !ShouldIgnore(pending, it.ref, it.obj) && it.ref !in before
    ensures var r := PersistEntity(h, e, Some(it), false, pending + before, nextId, reply);
            && r.Ok? && r.value.id == Some(nextId)
            && r.value.pending == pending + before + {it.ref}
  {
    GeneratedIdQueued(h, e, it, false, pending + before, nextId, reply);
  }

  /** The per-object loop over one more object. */
  lemma PersistEachSnoc(h: Helpers, e: Entity, items: seq<Item>, pending: set<nat>,
                        nextIds: seq<Id>, replies: seq<Option<Option<Id>>>,
                        ids: seq<Id>, p: set<nat>, saved: Saved)
    requires |nextIds| == |items| && |replies| == |items| && |items| > 0
    requires var n := |items| - 1;
             PersistEach(h, e, items[..n], pending, nextIds[..n], replies[..n]) == Ok((ids, p))
    requires var n := |items| - 1;
             PersistEntity(h, e, Some(items[n]), false, p, nextIds[n], replies[n]) == Ok(saved)
    ensures PersistEach(h, e, items, pending, nextIds, replies)
              == Ok((if saved.id.Some? then ids + [saved.id.value] else ids, saved.pending))
  {
  }

  /**
   * On the per-object path, `persistEntities` returns the generated id of
   * each new object of an entity with an id generator, in order.
   */
  lemma PersistEntitiesGenerated(h: Helpers, e: Entity, items: seq<Item>, pending: set<nat>,
                                 nextIds: seq<Id>, replies: seq<Option<Option<Id>>>,
                                 row: Option<map<string, Option<int>>>)
    requires |nextIds| == |items| && |replies| == |items|
    requires e.hasDynamicAssociations || !e.nativeId || e.isRelationship
    requires e.generator.Some? && AllFresh(items, pending)
    ensures var r := PersistEntities(h, e, items, pending, nextIds, replies, row);
            && r.Ok? && |r.value| == |items|
            && forall k :: 0 <= k < |items| ==> r.value[k] == Some(nextIds[k])
  {
    PersistEachGenerated(h, e, items, pending, nextIds, replies);
  }
}

=== FILE: relationship_ops.dfy ===
/**
 * The two pending operations that write edges: the relationship insert
 * (optionally deleting a previous edge, then a MERGE) and the relationship
 * delete. Running one returns the statements it hands to the transaction,
 * in order. Label rendering, identity formatting and relationship pattern
 * rendering are helpers of the mapping layer, taken from `Helpers`.
 */
module RelationshipOps {
  import opened Values
  import opened Metadata

  const START: string := "start"
  const END: string := "end"
  const REL_PROPS: string := "rProps"
  const SOURCE_TYPE: string := "sourceType"
  const TARGET_TYPE: string := "targetType"

  /**
   * The entities a run consults: the owner of the parent object, the
   * association's associated entity, and, when the owner is a relationship
   * entity, the entities associated through its `from` and `to` properties.
   */
  datatype Entities = Entities(parent: Entity, child: Entity, fromEnd: Entity, toEnd: Entity)

  /** The nodes an edge statement joins and the identities bound to `start` and `end`. */
  datatype Ends = Ends(parent: Entity, child: Entity, parentId: Option<Id>, targets: seq<Value>)

  /** For a relationship entity only the `from` association writes the edge. */
  predicate Skipped(es: Entities, a: Association)
  {
    es.parent.isRelationship && a.name != FROM
  }

  /**
   * The endpoint rewrite: for a relationship entity the edge joins the
   * object at its `from` end to the single object at its `to` end;
   * otherwise it joins the parent to the recorded targets.
   */
  function RewriteEnds(es: Entities, access: Obj, targets: seq<Id>): (r: Ends)
    ensures es.parent.isRelationship ==>
              r.parent == es.fromEnd && r.child == es.toEnd && r.parentId == access.fromId
              && r.targets == [IdValue(access.toId)]
    ensures !es.parent.isRelationship ==>
              r.parent == es.parent && r.child == es.child && r.parentId == access.id
              && |r.targets| == |targets|
              && forall k :: 0 <= k < |targets| ==> r.targets[k] == IdVal(targets[k])
  {
    if es.parent.isRelationship then Ends(es.fromEnd, es.toEnd, access.fromId, [IdValue(access.toId)])
    else Ends(es.parent, es.child, access.id, IdList(targets).items)
  }

  /** The `start`/`end` parameters of both the MERGE and the DELETE statement. */
  function EdgeParams(ends: Ends): (r: map<string, Value>)
    ensures r.Keys == {START, END}
    ensures r[START] == IdValue(ends.parentId) && r[END] == List(ends.targets)
  {
    map[START := IdValue(ends.parentId), END := List(ends.targets)]
  }

  /**
   * The relationship entity's edge properties: each non-null simple,
   * basic or tenant-id property except `type`, then its schemaless
   * attributes, which win on a clash.
   */
  function RelProps(relEntity: Entity, relationship: Obj): (r: map<string, Value>)
    ensures forall name :: name in relationship.attributes ==> name in r && r[name] == relationship.attributes[name]
    ensures forall name :: name in r && name !in relationship.attributes ==>
              name != TYPE && relationship.Get(name) != Null && r[name] == relationship.Get(name)
              && exists k :: 0 <= k < |relEntity.properties| && relEntity.properties[k].name == name
                             && relEntity.properties[k].kind.IsStored()
    ensures forall name ::
              (name != TYPE && relationship.Get(name) != Null
               && exists k :: 0 <= k < |relEntity.properties| && relEntity.properties[k].name == name
                              && relEntity.properties[k].kind.IsStored())
              ==> name in r
  {
    NonNullStored(relEntity.properties, relationship, {TYPE}) + relationship.attributes
  }

  // ---------------------------------------------------------------------
  // RelationshipPendingInsert.run
  // ---------------------------------------------------------------------

  /** Whether an insert first removes the edge it replaces. */
  predicate DeletesPrevious(a: Association, isUpdate: bool)
  {
    isUpdate && (a.IsDynamic() || (((a.bidirectional && a.kind == OneToMany) || a.kind == OneToOne) && !a.reversed))
  }

  /** The relationship pattern (bound to `r`) of an insert. */
  function InsertRelMatch(h: Helpers, es: Entities, ends: Ends, access: Obj, a: Association): string
  {
    if a.IsDynamic() then
      h.matchWithAttributes(a, REL_VAR, [(SOURCE_TYPE, ends.parent.simpleName), (TARGET_TYPE, ends.child.simpleName)])
    else if es.parent.isRelationship then h.toMatch(a, access)
    else h.matchForAssociation(a, REL_VAR)
  }

  const REL_VAR: string := "r"

  /** The statement that removes the previous edge before an update re-links it. */
  function DeletePreviousStatement(h: Helpers, ends: Ends, relMatch: string, a: Association): (r: Statement)
    ensures a.kind == OneToOne || a.kind == DynamicToOne ==>
              r.params == map[START := List([IdValue(ends.parentId)])]
    ensures a.kind != OneToOne && a.kind != DynamicToOne ==>
              r.params == map[START := List(ends.targets)]
    ensures a.kind == OneToOne || a.kind == DynamicToOne ==>
              r.text == h.buildRelationshipMatch(h.labelsAsString(ends.parent.name), relMatch, h.labelsAsString(ends.child.name))
                        + h.formatId(ends.child.name, FROM) + " IN $start DELETE r"
    ensures a.kind != OneToOne && a.kind != DynamicToOne ==>
              r.text == h.buildRelationshipMatch(h.labelsAsString(ends.parent.name), relMatch, h.labelsAsString(ends.child.name))
                        + h.formatId(ends.child.name, TO) + " IN $start DELETE r"
  {
    var keyedOnFrom := a.kind == OneToOne || a.kind == DynamicToOne;
    var head := h.buildRelationshipMatch(h.labelsAsString(ends.parent.name), relMatch, h.labelsAsString(ends.child.name));
    var text := head + h.formatId(ends.child.name, if keyedOnFrom then FROM else TO) + " IN $start DELETE r";
    Statement(text, if keyedOnFrom then map[START := List([IdValue(ends.parentId)])] else map[START := List(ends.targets)])
  }

  /** `MATCH (from<L1>), (to<L2>) WHERE <from id> = $start AND <to id> IN $end MERGE (from)`. */
  function MergeHead(h: Helpers, ends: Ends): string
  {
    "MATCH (from" + h.labelsAsString(ends.parent.name) + "), (to" + h.labelsAsString(ends.child.name) + ") WHERE "
    + h.formatId(ends.parent.name, FROM) + " = $start AND " + h.formatId(ends.child.name, TO) + " IN $end MERGE (from)"
  }

  /** The MERGE head, the relationship pattern, `(to)`, and the edge-property clause when asked for. */
  function MergeText(h: Helpers, ends: Ends, relMatch: string, withProps: bool): string
  {
    MergeHead(h, ends) + relMatch + "(to)" + (if withProps then " ON CREATE SET r=$rProps" else "")
  }

  /**
   * `RelationshipPendingInsert.run`: the statements sent, in order.
   * `cancelled` is the outcome of the pre-insert event for a relationship
   * entity (`cancelInsert`).
   */
  function InsertRun(h: Helpers, es: Entities, access: Obj, a: Association, targets: seq<Id>,
                     isUpdate: bool, cancelled: bool): (r: seq<Statement>)
    ensures Skipped(es, a) ==> r == []
    ensures r == [] <==> Skipped(es, a) || (es.parent.isRelationship && !a.IsDynamic() && cancelled)
    ensures r != [] ==> |r| == (if DeletesPrevious(a, isUpdate) then 2 else 1)
    ensures r != [] ==>
              var ends := RewriteEnds(es, access, targets);
              var merge := r[|r| - 1];
              && START in merge.params && END in merge.params
              && merge.params[START] == IdValue(ends.parentId)
              && merge.params[END] == List(ends.targets)
              && (REL_PROPS in merge.params <==> es.parent.isRelationship && !a.IsDynamic())
              && (REL_PROPS in merge.params ==> merge.params[REL_PROPS] == Props(RelProps(es.parent, access)))
              && merge.params.Keys <= {START, END, REL_PROPS}
  {
    if Skipped(es, a) then []
    else if es.parent.isRelationship && !a.IsDynamic() && cancelled then []
    else
      var ends := RewriteEnds(es, access, targets);
      var relMatch := InsertRelMatch(h, es, ends, access, a);
      var params := EdgeParams(ends)
                    + (if es.parent.isRelationship && !a.IsDynamic()
                       then map[REL_PROPS := Props(RelProps(es.parent, access))] else map[]);
      var merge := Statement(MergeText(h, ends, relMatch, es.parent.isRelationship), params);
      if DeletesPrevious(a, isUpdate) then [DeletePreviousStatement(h, ends, relMatch, a), merge]
      else [merge]
  }

  /**
   * When a previous edge is removed, by association kind: never on a first
   * insert; always for a dynamic association on update; for declared
   * associations only when the edge is stored from this side, and then for
   * one-to-one, or one-to-many when bidirectional. Many-to-one and
   * many-to-many never remove one.
   */
  lemma DeletePreviousByKind(a: Association, isUpdate: bool)
    ensures !isUpdate ==> !DeletesPrevious(a, isUpdate)
    ensures isUpdate && a.kind == DynamicToOne ==> DeletesPrevious(a, isUpdate)
    ensures a.kind == ManyToOne || a.kind == ManyToMany ==> !DeletesPrevious(a, isUpdate)
    ensures a.kind != DynamicToOne && a.reversed ==> !DeletesPrevious(a, isUpdate)
    ensures isUpdate && !a.reversed && a.kind == OneToOne ==> DeletesPrevious(a, isUpdate)
    ensures !a.reversed && a.kind == OneToMany ==> (DeletesPrevious(a, isUpdate) <==> isUpdate && a.bidirectional)
  {
  }

  /**
   * The MERGE statement of an insert that is not skipped: its text joins
   * the rewritten ends, binds them to `$start` and `$end`, and ends with the
   * relationship pattern and `(to)`, followed by the edge-property clause
   * exactly for a relationship entity.
   */
  lemma MergeShape(h: Helpers, es: Entities, access: Obj, a: Association, targets: seq<Id>,
                   isUpdate: bool, cancelled: bool)
    requires InsertRun(h, es, access, a, targets, isUpdate, cancelled) != []
    ensures var r := InsertRun(h, es, access, a, targets, isUpdate, cancelled);
            var ends := RewriteEnds(es, access, targets);
            var text := r[|r| - 1].text;
            && MergeHead(h, ends) <= text
            && text == MergeHead(h, ends) + InsertRelMatch(h, es, ends, access, a) + "(to)"
                       + (if es.parent.isRelationship then " ON CREATE SET r=$rProps" else "")
  {
    var r := InsertRun(h, es, access, a, targets, isUpdate, cancelled);
    var ends := RewriteEnds(es, access, targets);
    var relMatch := InsertRelMatch(h, es, ends, access, a);
    var tail := if es.parent.isRelationship then " ON CREATE SET r=$rProps" else "";
    assert r[|r| - 1].text == MergeText(h, ends, relMatch, es.parent.isRelationship);
    PrefixOfAppend(MergeHead(h, ends), relMatch + "(to)" + tail);
    AppendAssoc(MergeHead(h, ends), relMatch, "(to)", tail);
  }

  /**
   * On an update that removes the previous edge, the removal comes first
   * and matches the same relationship pattern between the same labels; the
   * MERGE after it is the one a first insert would send.
   */
  lemma DeletePreviousUsesMergePattern(h: Helpers, es: Entities, access: Obj, a: Association, targets: seq<Id>,
                                       cancelled: bool)
    requires InsertRun(h, es, access, a, targets, true, cancelled) != []
    requires DeletesPrevious(a, true)
    ensures var r := InsertRun(h, es, access, a, targets, true, cancelled);
            var ends := RewriteEnds(es, access, targets);
            var relMatch := InsertRelMatch(h, es, ends, access, a);
            && |r| == 2
            && h.buildRelationshipMatch(h.labelsAsString(ends.parent.name), relMatch, h.labelsAsString(ends.child.name)) <= r[0].text
            && r[1] == InsertRun(h, es, access, a, targets, false, cancelled)[0]
  {
    DeletePreviousByKind(a, false);
  }

  /**
   * The removal of the previous edge, in full: the relationship match
   * between the rewritten ends' labels, then for a one-to-one or dynamic
   * to-one association the `from` identity of the associated entity among
   * `$start`, bound to the owner's id alone, and otherwise its `to`
   * identity among `$start`, bound to the targets; it ends in `DELETE r`.
   */
  lemma DeletePreviousShape(h: Helpers, es: Entities, access: Obj, a: Association, targets: seq<Id>,
                            cancelled: bool)
    requires InsertRun(h, es, access, a, targets, true, cancelled) != []
    requires DeletesPrevious(a, true)
    ensures var r := InsertRun(h, es, access, a, targets, true, cancelled);
            var ends := RewriteEnds(es, access, targets);
            var head := h.buildRelationshipMatch(h.labelsAsString(ends.parent.name), InsertRelMatch(h, es, ends, access, a),
                                                 h.labelsAsString(ends.child.name));
            var toOne := a.kind == OneToOne || a.kind == DynamicToOne;
            && r[0].text == head + h.formatId(ends.child.name, if toOne then FROM else TO) + " IN $start DELETE r"
            && r[0].params == map[START := if toOne then List([IdValue(ends.parentId)]) else List(ends.targets)]
  {
  }

  // ---------------------------------------------------------------------
  // RelationshipPendingDelete.run
  // ---------------------------------------------------------------------

  /** The relationship pattern (bound to `r`) of a delete. */
  function DeleteRelMatch(h: Helpers, es: Entities, access: Obj, a: Association): string
  {
    if es.parent.isRelationship then h.toMatch(a, access) else h.matchForAssociation(a, REL_VAR)
  }

  /**
   * The DELETE of an edge set: the relationship match, then the identity
   * of the `from` end equal to `{start}` and that of the `to` end among
   * `{end}`, binding exactly `start` and `end`.
   */
  function DeleteStatement(h: Helpers, labelsFrom: string, labelsTo: string, ends: Ends, relMatch: string): (r: Statement)
    ensures r.params == EdgeParams(ends)
    ensures h.buildRelationshipMatch(labelsFrom, relMatch, labelsTo) <= r.text
    ensures r.text == h.buildRelationshipMatch(labelsFrom, relMatch, labelsTo)
                      + h.formatId(ends.parent.name, FROM) + " = {start} AND "
                      + h.formatId(ends.child.name, TO) + " IN {end} DELETE r"
  {
    Statement(h.buildRelationshipMatch(labelsFrom, relMatch, labelsTo)
              + h.formatId(ends.parent.name, FROM) + " = {start} AND " + h.formatId(ends.child.name, TO) + " IN {end} DELETE r",
              EdgeParams(ends))
  }

  /**
   * `RelationshipPendingDelete.run` as written: the labels of the MATCH are
   * read before the endpoint rewrite, so for a relationship entity they are
   * those of the relationship entity itself and of its `from` end, while
   * the identity conditions refer to the `from` and `to` ends.
   */
  function DeleteRunAsWritten(h: Helpers, es: Entities, access: Obj, a: Association, targets: seq<Id>): (r: seq<Statement>)
    ensures Skipped(es, a) <==> r == []
    ensures r != [] ==> |r| == 1 && r[0].params == EdgeParams(RewriteEnds(es, access, targets))
    ensures r != [] ==>
              h.buildRelationshipMatch(h.labelsAsString(es.parent.name), DeleteRelMatch(h, es, access, a),
                                       h.labelsAsString(es.child.name)) <= r[0].text
  {
    var labelsFrom := h.labelsAsString(es.parent.name);
    var labelsTo := h.labelsAsString(es.child.name);
    if Skipped(es, a) then []
    else
      var ends := RewriteEnds(es, access, targets);
      [DeleteStatement(h, labelsFrom, labelsTo, ends, DeleteRelMatch(h, es, access, a))]
  }

  /**
   * `RelationshipPendingDelete.run` with the labels taken after the
   * endpoint rewrite, as the insert does: one statement, keyed on the same
   * ends, labels and parameters as the MERGE it undoes.
   */
  function DeleteRun(h: Helpers, es: Entities, access: Obj, a: Association, targets: seq<Id>): (r: seq<Statement>)
    ensures Skipped(es, a) <==> r == []
    ensures r != [] ==>
              var ends := RewriteEnds(es, access, targets);
              && |r| == 1
              && r[0].params == EdgeParams(ends)
              && h.buildRelationshipMatch(h.labelsAsString(ends.parent.name), DeleteRelMatch(h, es, access, a),
                                          h.labelsAsString(ends.child.name)) <= r[0].text
  {
    if Skipped(es, a) then []
    else
      var ends := RewriteEnds(es, access, targets);
      [DeleteStatement(h, h.labelsAsString(ends.parent.name), h.labelsAsString(ends.child.name), ends,
                       DeleteRelMatch(h, es, access, a))]
  }

  /** For an ordinary entity the two readings agree: the rewrite changes nothing. */
  lemma DeleteRunsAgreeOnNodes(h: Helpers, es: Entities, access: Obj, a: Association, targets: seq<Id>)
    requires !es.parent.isRelationship
    ensures DeleteRunAsWritten(h, es, access, a, targets) == DeleteRun(h, es, access, a, targets)
  {
  }

  /**
   * A delete undoes an insert of the same edge set: both bind exactly the
   * same `start` and `end`, and, for a declared association of an ordinary
   * entity, use the same relationship pattern between the same labels.
   */
  lemma DeleteMatchesInsert(h: Helpers, es: Entities, access: Obj, a: Association, targets: seq<Id>,
                            isUpdate: bool, cancelled: bool)
    requires !Skipped(es, a)
    requires !(es.parent.isRelationship && !a.IsDynamic() && cancelled)
    ensures var ins := InsertRun(h, es, access, a, targets, isUpdate, cancelled);
            var del := DeleteRun(h, es, access, a, targets);
            && |del| == 1 && |ins| >= 1
            && del[0].params[START] == ins[|ins| - 1].params[START]
            && del[0].params[END] == ins[|ins| - 1].params[END]
            && (!a.IsDynamic() ==> DeleteRelMatch(h, es, access, a) ==
                                   InsertRelMatch(h, es, RewriteEnds(es, access, targets), access, a))
  {
  }

  /**
   * The delete in full, for both readings: the relationship match, the
   * `from` end's identity equal to `{start}`, the `to` end's identity among
   * `{end}`, then `DELETE r`. The identity conditions name the rewritten
   * ends in both; only the labels of the match differ.
   */
  lemma DeleteShape(h: Helpers, es: Entities, access: Obj, a: Association, targets: seq<Id>)
    requires !Skipped(es, a)
    ensures var ends := RewriteEnds(es, access, targets);
            var rm := DeleteRelMatch(h, es, access, a);
            var conditions := h.formatId(ends.parent.name, FROM) + " = {start} AND "
                              + h.formatId(ends.child.name, TO) + " IN {end} DELETE r";
            && DeleteRun(h, es, access, a, targets)[0].text
               == h.buildRelationshipMatch(h.labelsAsString(ends.parent.name), rm, h.labelsAsString(ends.child.name))
                  + conditions
            && DeleteRunAsWritten(h, es, access, a, targets)[0].text
               == h.buildRelationshipMatch(h.labelsAsString(es.parent.name), rm, h.labelsAsString(es.child.name))
                  + conditions
  {
    var ends := RewriteEnds(es, access, targets);
    var rm := DeleteRelMatch(h, es, access, a);
    var c1 := h.formatId(ends.parent.name, FROM);
    var c2 := h.formatId(ends.child.name, TO);
    AppendAssoc4(h.buildRelationshipMatch(h.labelsAsString(ends.parent.name), rm, h.labelsAsString(ends.child.name)),
                 c1, " = {start} AND ", c2, " IN {end} DELETE r");
    AppendAssoc4(h.buildRelationshipMatch(h.labelsAsString(es.parent.name), rm, h.labelsAsString(es.child.name)),
                 c1, " = {start} AND ", c2, " IN {end} DELETE r");
  }

  lemma AppendAssoc4(a: string, b: string, c: string, d: string, e: string)
    ensures a + b + c + d + e == a + (b + c + d + e)
  {
  }

  lemma DeleteRunsUnfold(h: Helpers, es: Entities, access: Obj, a: Association, targets: seq<Id>)
    requires !Skipped(es, a)
    ensures var ends := RewriteEnds(es, access, targets);
            var rm := DeleteRelMatch(h, es, access, a);
            && DeleteRunAsWritten(h, es, access, a, targets)
               == [DeleteStatement(h, h.labelsAsString(es.parent.name), h.labelsAsString(es.child.name), ends, rm)]
            && DeleteRun(h, es, access, a, targets)
               == [DeleteStatement(h, h.labelsAsString(ends.parent.name), h.labelsAsString(ends.child.name), ends, rm)]
  {
  }

  /**
   * The labels read before the rewrite are wrong for a relationship
   * entity. For a relationship entity `KNOWS` joining `Person` to `Company`
   * the MERGE that created the edge matched a `from` node with the labels
   * of `Person` and a `to` node with those of `Company`; the as-written
   * DELETE instead asks for a `from` node carrying the labels of `KNOWS`
   * itself and a `to` node carrying those of `Person`, while its identity
   * conditions still name `Person` and `Company`. The corrected delete
   * matches the labels of the MERGE.
   */
  lemma DeleteLabelsOfRelationshipEntity(h: Helpers, es: Entities, access: Obj, a: Association, targets: seq<Id>)
    requires es.parent.isRelationship && a.name == FROM
    requires es.child == es.fromEnd
    ensures var ends := RewriteEnds(es, access, targets);
            var rm := DeleteRelMatch(h, es, access, a);
            && ends.parent == es.fromEnd && ends.child == es.toEnd
            && DeleteRunAsWritten(h, es, access, a, targets)
               == [DeleteStatement(h, h.labelsAsString(es.parent.name), h.labelsAsString(es.fromEnd.name), ends, rm)]
            && DeleteRun(h, es, access, a, targets)
               == [DeleteStatement(h, h.labelsAsString(es.fromEnd.name), h.labelsAsString(es.toEnd.name), ends, rm)]
            && MergeHead(h, ends) <= InsertRun(h, es, access, a, targets, false, false)[0].text
  {
    DeleteRunsUnfold(h, es, access, a, targets);
    MergeShape(h, es, access, a, targets, false, false);
  }
}

=== FILE: session.dfy ===
/**
 * The session's flush rules: the flush guard, the UPDATE of one dirty
 * entity (with optimistic locking on the version property), the batched
 * CREATE statement for an entity's pending inserts and the property map of
 * each created node, the cascading-delete columns of a DELETE, and the
 * draining of the relationship ledgers into edge operations.
 */
module Session {
  import opened Values
  import opened Metadata
  import CB = CypherBuilder
  import L = Ledger

  // ---------------------------------------------------------------------
  // flush()
  // ---------------------------------------------------------------------

  /** The session's transaction, when it has one. */
  datatype Transaction = Transaction(active: bool, readOnly: bool)

  datatype FlushOutcome =
    | NothingFlushed
    | Flushed
    | NoTransactionError(message: string)

  const NoTransactionMessage: string := "Cannot flush write operations without an active transaction!"

  /**
   * `flush()`: a terminated transaction (present but no longer active) and
   * a read-only one flush nothing; without a transaction the flush fails;
   * otherwise the pending writes are flushed.
   */
  function Flush(tx: Option<Transaction>): (r: FlushOutcome)
    ensures r.Flushed? <==> tx.Some? && tx.value.active && !tx.value.readOnly
    ensures r.NoTransactionError? <==> tx.None?
    ensures r.NoTransactionError? ==> r.message == NoTransactionMessage
  {
    if tx.Some? && !tx.value.active then NothingFlushed
    else if tx.None? then NoTransactionError(NoTransactionMessage)
    else if tx.value.readOnly then NothingFlushed
    else Flushed
  }

  // ---------------------------------------------------------------------
  // flushPendingUpdates: one dirty entity
  // ---------------------------------------------------------------------

  const PROPS: string := "props"

  /** A pending update: the object, its native key, and whether its pre-update event vetoed it. */
  datatype PendingUpdate = PendingUpdate(obj: Obj, nativeKey: Option<Id>, vetoed: bool)

  /** The statements an update ran and the object afterwards. */
  datatype Step = Step(log: seq<Statement>, obj: Obj)

  datatype UpdateFailure =
    /** `OptimisticLockingException(entity, id)`, after the statement ran and the version was bumped */
    | OptimisticLocking(entity: EntityName, id: Option<Id>, log: seq<Statement>, obj: Obj)
    /** the version property holds something other than a `Long` (a failing cast) */
    | VersionNotLong

  /** The first property of the entity with the given name. */
  function PropertyNamed(ps: seq<Property>, name: string): (r: Option<Property>)
    ensures r.Some? ==> r.value in ps && r.value.name == name
    ensures r.None? ==> forall k :: 0 <= k < |ps| ==> ps[k].name != name
  {
    if |ps| == 0 then None
    else if ps[0].name == name then Some(ps[0])
    else PropertyNamed(ps[1..], name)
  }

  /** A dirty name that is a simple or basic property of the entity. */
  predicate IsDirtySimple(e: Entity, name: string)
  {
    var p := PropertyNamed(e.properties, name);
    p.Some? && (p.value.kind == Simple || p.value.kind == Basic)
  }

  /**
   * The SET map of an update: each dirty simple or basic property with its
   * current value, null values included (they remove the property).
   */
  function DirtyProps(e: Entity, o: Obj, names: seq<string>): (r: map<string, Value>)
    ensures forall name :: name in r <==> name in names && IsDirtySimple(e, name)
    ensures forall name :: name in r ==> r[name] == o.Get(name)
  {
    if |names| == 0 then map[]
    else
      var rest := DirtyProps(e, o, names[..|names| - 1]);
      var name := names[|names| - 1];
      if IsDirtySimple(e, name) then rest[name := o.Get(name)] else rest
  }

  /** `(Long) access.getProperty("version")`, a null version reading as 0. */
  function CurrentVersion(o: Obj): (r: Result<Long, UpdateFailure>)
    ensures o.Get(VERSION) == Null ==> r == Ok(0)
    ensures o.Get(VERSION).Int? && MinLong <= o.Get(VERSION).i <= MaxLong ==> r == Ok(o.Get(VERSION).i)
    ensures r.Err? <==> o.Get(VERSION) != Null && !(o.Get(VERSION).Int? && MinLong <= o.Get(VERSION).i <= MaxLong)
  {
    match o.Get(VERSION)
    case Null => Ok(0)
    case Int(v) => if MinLong <= v <= MaxLong then Ok(v) else Err(VersionNotLong)
    case _ => Err(VersionNotLong)
  }

  /**
   * One pending update of `flushPendingUpdates`. `hasRow` is whether the
   * UPDATE statement returned a row. A vetoed update, or one with no dirty
   * simple property (only associations changed), runs no statement.
   * Otherwise one statement runs with `id` and `props`; for a versioned
   * entity it also matches on the old `version` and writes version + 1
   * (64-bit) both into the SET map and into the object, and a missing row
   * is an optimistic-locking failure. Every outcome but a veto and a
   * locking failure ends with `trackChanges()`, so the object reports no
   * changes afterwards.
   */
  function FlushUpdate(h: Helpers, e: Entity, u: PendingUpdate, hasRow: bool): (r: Result<Step, UpdateFailure>)
    ensures u.vetoed ==> r == Ok(Step([], u.obj))
    ensures !u.vetoed && |DirtyProps(e, u.obj, u.obj.dirtyNames)| == 0 ==> r.Ok? && r.value.log == []
    ensures r.Ok? && !u.vetoed ==> !r.value.obj.changed && r.value.obj.dirtyNames == []
    ensures r.Ok? ==> r.value.obj == u.obj.(values := r.value.obj.values, changed := r.value.obj.changed,
                                            dirtyNames := r.value.obj.dirtyNames)
    ensures !e.versioned && r.Ok? ==> r.value.obj.values == u.obj.values
    ensures r.Err? && r.error.OptimisticLocking? ==>
              && |r.error.log| == 1 && r.error.id == u.nativeKey
              && r.error.obj == u.obj.(values := r.error.obj.values)
    ensures r.Ok? ==> |r.value.log| <= 1
  {
    if u.vetoed then Ok(Step([], u.obj))
    else
      var dirty := DirtyProps(e, u.obj, u.obj.dirtyNames);
      if |dirty| == 0 then Ok(Step([], TrackChanges(u.obj)))
      else if !e.versioned then
        var params := map[IDENTITY := IdValue(u.nativeKey), PROPS := Props(dirty)];
        Ok(Step([Statement(h.formatMatchAndUpdate(e.name, CB.NODE_VAR, dirty), params)], TrackChanges(u.obj)))
      else
        match CurrentVersion(u.obj)
        case Err(f) => Err(f)
        case Ok(version) =>
          var next := LongIncrement(version);
          var props := dirty[VERSION := Int(next)];
          var params := map[IDENTITY := IdValue(u.nativeKey), PROPS := Props(props), VERSION := Int(version)];
          var obj := u.obj.(values := u.obj.values[VERSION := Int(next)]);
          var log := [Statement(h.formatMatchAndUpdate(e.name, CB.NODE_VAR, props), params)];
          if !hasRow then Err(OptimisticLocking(e.name, u.nativeKey, log, obj))
          else Ok(Step(log, TrackChanges(obj)))
  }

  /**
   * Optimistic locking of a versioned entity with dirty simple properties:
   * the statement matches on the version read (null as 0), sets version + 1
   * (wrapping at the `long` bound) in the node and in the object, and fails
   * exactly when no row comes back. The object keeps the new version even
   * on failure.
   */
  lemma VersionedUpdate(h: Helpers, e: Entity, u: PendingUpdate, hasRow: bool)
    requires e.versioned && !u.vetoed
    requires exists k :: 0 <= k < |u.obj.dirtyNames| && IsDirtySimple(e, u.obj.dirtyNames[k])
    requires CurrentVersion(u.obj).Ok?
    ensures var version := CurrentVersion(u.obj).value;
            var next := LongIncrement(version);
            var r := FlushUpdate(h, e, u, hasRow);
            var log := if r.Ok? then r.value.log else r.error.log;
            var obj := if r.Ok? then r.value.obj else r.error.obj;
            && (r.Err? <==> !hasRow)
            && (r.Err? ==> r.error.OptimisticLocking? && r.error.entity == e.name)
            && |log| == 1
            && VERSION in log[0].params && log[0].params[VERSION] == Int(version)
            && PROPS in log[0].params && log[0].params[PROPS].Props?
            && VERSION in log[0].params[PROPS].props && log[0].params[PROPS].props[VERSION] == Int(next)
            && obj.Get(VERSION) == Int(next)
            && (u.obj.Get(VERSION) == Null ==> log[0].params[VERSION] == Int(0) && obj.Get(VERSION) == Int(1))
  {
    var k :| 0 <= k < |u.obj.dirtyNames| && IsDirtySimple(e, u.obj.dirtyNames[k]);
    assert u.obj.dirtyNames[k] in DirtyProps(e, u.obj, u.obj.dirtyNames);
  }

  /**
   * The statement of a writing update binds the node's identity under `id`
   * and carries every dirty simple property (the version aside) with its
   * current value in the `props` map.
   */
  lemma UpdateStatementParams(h: Helpers, e: Entity, u: PendingUpdate, hasRow: bool)
    requires FlushUpdate(h, e, u, hasRow).Ok? && |FlushUpdate(h, e, u, hasRow).value.log| == 1
    ensures var s := FlushUpdate(h, e, u, hasRow).value.log[0];
            && IDENTITY in s.params && s.params[IDENTITY] == IdValue(u.nativeKey)
            && PROPS in s.params && s.params[PROPS].Props?
            && (forall name :: name in DirtyProps(e, u.obj, u.obj.dirtyNames) && name != VERSION ==>
                  name in s.params[PROPS].props && s.params[PROPS].props[name] == u.obj.Get(name))
  {
    var dirty := DirtyProps(e, u.obj, u.obj.dirtyNames);
    if e.versioned {
      var version := CurrentVersion(u.obj).value;
      var props := dirty[VERSION := Int(LongIncrement(version))];
      assert FlushUpdate(h, e, u, hasRow).value.log[0].params[PROPS] == Props(props);
    }
  }

  /**
   * Nothing else is written: the SET map holds exactly the dirty simple
   * properties, plus `version` for a versioned entity, and the statement
   * binds only `id`, `props` and, when versioned, the old `version`.
   * A property that did not change is never overwritten.
   */
  lemma UpdateSetsOnlyDirty(h: Helpers, e: Entity, u: PendingUpdate, hasRow: bool)
    requires FlushUpdate(h, e, u, hasRow).Ok? && |FlushUpdate(h, e, u, hasRow).value.log| == 1
    ensures var s := FlushUpdate(h, e, u, hasRow).value.log[0];
            && PROPS in s.params && s.params[PROPS].Props?
            && s.params[PROPS].props.Keys
               == DirtyProps(e, u.obj, u.obj.dirtyNames).Keys + (if e.versioned then {VERSION} else {})
            && s.params.Keys == {IDENTITY, PROPS} + (if e.versioned then {VERSION} else {})
  {
    var dirty := DirtyProps(e, u.obj, u.obj.dirtyNames);
    var props := WritingUpdateParams(h, e, u, hasRow);
    if e.versioned {
      MapUpdateKeys(dirty, VERSION, Int(LongIncrement(CurrentVersion(u.obj).value)));
    }
  }

  lemma MapUpdateKeys(m: map<string, Value>, k: string, v: Value)
    ensures m[k := v].Keys == m.Keys + {k}
  {
  }

  /** The parameters of a writing update's statement, and its SET map. */
  lemma WritingUpdateParams(h: Helpers, e: Entity, u: PendingUpdate, hasRow: bool) returns (props: map<string, Value>)
    requires FlushUpdate(h, e, u, hasRow).Ok? && |FlushUpdate(h, e, u, hasRow).value.log| == 1
    ensures var dirty := DirtyProps(e, u.obj, u.obj.dirtyNames);
            && props == (if e.versioned then dirty[VERSION := Int(LongIncrement(CurrentVersion(u.obj).value))] else dirty)
            && var params := FlushUpdate(h, e, u, hasRow).value.log[0].params;
               && params.Keys == {IDENTITY, PROPS} + (if e.versioned then {VERSION} else {})
               && params[IDENTITY] == IdValue(u.nativeKey)
               && params[PROPS] == Props(props)
  {
    var dirty := DirtyProps(e, u.obj, u.obj.dirtyNames);
    var r := FlushUpdate(h, e, u, hasRow);
    if e.versioned {
      var version := CurrentVersion(u.obj).value;
      props := dirty[VERSION := Int(LongIncrement(version))];
      var params := map[IDENTITY := IdValue(u.nativeKey), PROPS := Props(props), VERSION := Int(version)];
      assert r == Ok(Step([Statement(h.formatMatchAndUpdate(e.name, CB.NODE_VAR, props), params)],
                          TrackChanges(u.obj.(values := u.obj.values[VERSION := Int(LongIncrement(version))]))));
    } else {
      props := dirty;
      var params := map[IDENTITY := IdValue(u.nativeKey), PROPS := Props(props)];
      assert r == Ok(Step([Statement(h.formatMatchAndUpdate(e.name, CB.NODE_VAR, props), params)], TrackChanges(u.obj)));
    }
  }

  /**
   * Flushes updates in order, stopping at the first failure; returns the
   * statements run, never more than one per update.
   */
  function FlushUpdates(h: Helpers, e: Entity, us: seq<PendingUpdate>, rows: seq<bool>): (r: Result<seq<Statement>, UpdateFailure>)
    requires |rows| == |us|
    ensures r.Ok? ==> |r.value| <= |us|
  {
    FlushEach((u, hasRow) => FlushUpdate(h, e, u, hasRow), us, rows)
  }

  /** The loop of `flushPendingUpdates` over any one-update step whose logs hold at most one statement. */
  function FlushEach(flush: (PendingUpdate, bool) -> Result<Step, UpdateFailure>, us: seq<PendingUpdate>, rows: seq<bool>)
    : (r: Result<seq<Statement>, UpdateFailure>)
    requires |rows| == |us|
    requires forall u, hasRow :: flush(u, hasRow).Ok? ==> |flush(u, hasRow).value.log| <= 1
    ensures r.Ok? ==> |r.value| <= |us|
  {
    if |us| == 0 then Ok([])
    else
      var n := |us| - 1;
      match FlushEach(flush, us[..n], rows[..n])
      case Err(f) => Err(f)
      case Ok(log) =>
        match flush(us[n], rows[n])
        case Err(f) => Err(f)
        case Ok(step) => Ok(log + step.log)
  }

  /**
   * The flush succeeds exactly when every update does; otherwise it fails
   * with the failure of the first update that fails.
   */
  lemma {:induction false} FlushEachFirstFailure(flush: (PendingUpdate, bool) -> Result<Step, UpdateFailure>,
                                                 us: seq<PendingUpdate>, rows: seq<bool>)
    requires |rows| == |us|
    requires forall u, hasRow :: flush(u, hasRow).Ok? ==> |flush(u, hasRow).value.log| <= 1
    ensures FlushEach(flush, us, rows).Ok? <==> forall i :: 0 <= i < |us| ==> flush(us[i], rows[i]).Ok?
    ensures FlushEach(flush, us, rows).Err? ==>
              exists i :: 0 <= i < |us| && flush(us[i], rows[i]).Err?
                          && FlushEach(flush, us, rows).error == flush(us[i], rows[i]).error
                          && forall j :: 0 <= j < i ==> flush(us[j], rows[j]).Ok?
  {
    if |us| > 0 {
      var n := |us| - 1;
      var init, initRows := us[..n], rows[..n];
      FlushEachFirstFailure(flush, init, initRows);
      assert forall i :: 0 <= i < n ==> init[i] == us[i] && initRows[i] == rows[i];
      var prefix := FlushEach(flush, init, initRows);
      if prefix.Err? {
        var i :| 0 <= i < n && flush(init[i], initRows[i]).Err?
                 && prefix.error == flush(init[i], initRows[i]).error
                 && forall j :: 0 <= j < i ==> flush(init[j], initRows[j]).Ok?;
        assert FlushEach(flush, us, rows) == Err(prefix.error);
        assert flush(us[i], rows[i]).Err?;
      } else if flush(us[n], rows[n]).Err? {
        assert FlushEach(flush, us, rows) == Err(flush(us[n], rows[n]).error);
      }
    }
  }

  /** The same law for the updates of one entity. */
  lemma FlushUpdatesFirstFailure(h: Helpers, e: Entity, us: seq<PendingUpdate>, rows: seq<bool>)
    requires |rows| == |us|
    ensures FlushUpdates(h, e, us, rows).Ok? <==> forall i :: 0 <= i < |us| ==> FlushUpdate(h, e, us[i], rows[i]).Ok?
    ensures FlushUpdates(h, e, us, rows).Err? ==>
              exists i :: 0 <= i < |us| && FlushUpdate(h, e, us[i], rows[i]).Err?
                          && FlushUpdates(h, e, us, rows).error == FlushUpdate(h, e, us[i], rows[i]).error
                          && forall j :: 0 <= j < i ==> FlushUpdate(h, e, us[j], rows[j]).Ok?
  {
    FlushEachFirstFailure((u, hasRow) => FlushUpdate(h, e, u, hasRow), us, rows);
  }

  /** An update writes the node exactly when it is not vetoed and has a dirty simple property. */
  predicate Writes(e: Entity, u: PendingUpdate)
  {
    !u.vetoed && |DirtyProps(e, u.obj, u.obj.dirtyNames)| > 0
  }

  function CountWrites(e: Entity, us: seq<PendingUpdate>): nat
  {
    if |us| == 0 then 0 else CountWrites(e, us[..|us| - 1]) + (if Writes(e, us[|us| - 1]) then 1 else 0)
  }

  /**
   * UPDATE statements are not batched: a successful flush of a sequence of
   * updates runs exactly one statement per writing update, and none for
   * vetoed or association-only ones.
   */
  lemma {:induction false} OneStatementPerWritingUpdate(h: Helpers, e: Entity, us: seq<PendingUpdate>, rows: seq<bool>)
    requires |rows| == |us|
    requires FlushUpdates(h, e, us, rows).Ok?
    ensures |FlushUpdates(h, e, us, rows).value| == CountWrites(e, us)
  {
    if |us| > 0 {
      var n := |us| - 1;
      OneStatementPerWritingUpdate(h, e, us[..n], rows[..n]);
      if Writes(e, us[n]) && e.versioned {
        VersionedUpdate(h, e, us[n], rows[n]);
      }
    }
  }

  // ---------------------------------------------------------------------
  // buildCascadingDeletes
  // ---------------------------------------------------------------------

  /** The associations that cascade removal, in order. */
  function Cascading(assocs: seq<Association>): (r: seq<Association>)
    ensures |r| <= |assocs|
    ensures forall k :: 0 <= k < |r| ==> r[k].cascadeRemove && r[k] in assocs
    ensures forall a :: a in assocs && a.cascadeRemove ==> a in r
  {
    if |assocs| == 0 then []
    else (if assocs[0].cascadeRemove then [assocs[0]] else []) + Cascading(assocs[1..])
  }

  /**
   * Selection keeps declaration order: the cascading associations of a
   * concatenation are those of each part in turn, and a single association
   * is kept exactly when it cascades removal.
   */
  lemma {:induction false} CascadingAppend(xs: seq<Association>, ys: seq<Association>)
    ensures Cascading(xs + ys) == Cascading(xs) + Cascading(ys)
    ensures |xs| == 1 ==> Cascading(xs) == if xs[0].cascadeRemove then xs else []
  {
    if |xs| > 0 {
      var head := if xs[0].cascadeRemove then [xs[0]] else [];
      var rest, restYs := Cascading(xs[1..]), Cascading(xs[1..] + ys);
      assert Cascading(xs + ys) == head + restYs by {
        assert (xs + ys)[0] == xs[0] && (xs + ys)[1..] == xs[1..] + ys;
      }
      assert Cascading(xs) == head + rest;
      assert restYs == rest + Cascading(ys) by {
        CascadingAppend(xs[1..], ys);
      }
      ConcatAssoc(head, rest, Cascading(ys));
      if |xs| == 1 {
        assert rest == [] by {
          assert xs[1..] == [];
        }
        ConcatAssoc(head, [], []);
      }
    } else {
      assert xs + ys == ys;
    }
  }

  lemma ConcatAssoc(a: seq<Association>, b: seq<Association>, c: seq<Association>)
    ensures a + (b + c) == a + b + c
    ensures a + [] == a
  {
  }

  /** The variable bound to the `i`-th cascading association: `a1`, `a2`, ... */
  function CascadeVar(i: nat): string
  {
    Numbered("a", i)
  }

  function CascadeMatch(h: Helpers, a: Association, i: nat): string
  {
    "(n)" + h.matchAnonymous(a) + "(" + CascadeVar(i) + ")"
  }

  function CascadeVars(n: nat, from: nat): (r: seq<string>)
    ensures |r| == n && forall k :: 0 <= k < n ==> r[k] == CascadeVar(from + k)
  {
    if n == 0 then [] else [CascadeVar(from)] + CascadeVars(n - 1, from + 1)
  }

  function CascadeMatches(h: Helpers, cs: seq<Association>, from: nat): (r: seq<string>)
    ensures |r| == |cs| && forall k :: 0 <= k < |cs| ==> r[k] == CascadeMatch(h, cs[k], from + k)
  {
    if |cs| == 0 then [] else [CascadeMatch(h, cs[0], from)] + CascadeMatches(h, cs[1..], from + 1)
  }

  lemma AppendSingleAssoc(xs: seq<string>, x: string, ys: seq<string>)
    ensures xs + [x] + ys == xs + ([x] + ys)
  {
  }

  /** The association loop of `buildCascadingDeletes`, numbering from `i`. */
  function CascadeFrom(h: Helpers, b: CB.Builder, assocs: seq<Association>, i: nat): (r: CB.Builder)
    decreases |assocs|
    ensures var cs := Cascading(assocs);
            && r.deleteColumns == b.deleteColumns + CascadeVars(|cs|, i)
            && r.optionalMatches == b.optionalMatches + CascadeMatches(h, cs, i)
            && r == b.(deleteColumns := r.deleteColumns, optionalMatches := r.optionalMatches)
  {
    if |assocs| == 0 then b
    else if assocs[0].cascadeRemove then
      var b1 := CB.AddDeleteColumn(CB.AddOptionalMatch(b, CascadeMatch(h, assocs[0], i)), CascadeVar(i));
      var r := CascadeFrom(h, b1, assocs[1..], i + 1);
      var cs := Cascading(assocs);
      assert cs[0] == assocs[0] && cs[1..] == Cascading(assocs[1..]);
      assert CascadeMatches(h, cs, i) == [CascadeMatch(h, assocs[0], i)] + CascadeMatches(h, cs[1..], i + 1);
      assert CascadeVars(|cs|, i) == [CascadeVar(i)] + CascadeVars(|cs| - 1, i + 1);
      AppendSingleAssoc(b.deleteColumns, CascadeVar(i), CascadeVars(|cs| - 1, i + 1));
      AppendSingleAssoc(b.optionalMatches, CascadeMatch(h, assocs[0], i), CascadeMatches(h, cs[1..], i + 1));
      r
    else
      assert Cascading(assocs) == Cascading(assocs[1..]);
      CascadeFrom(h, b, assocs[1..], i)
  }

  /**
   * `buildCascadingDeletes`: a relationship entity deletes only `r`;
   * otherwise each association that cascades removal gets an optional
   * match binding `a1`, `a2`, ... (in declaration order) and a delete
   * column of that name, and `n` is always the last delete column.
   */
  function BuildCascadingDeletes(h: Helpers, e: Entity, b: CB.Builder): (r: CB.Builder)
    ensures e.isRelationship ==> r == b.(deleteColumns := b.deleteColumns + [CB.REL_VAR])
    ensures !e.isRelationship ==>
              var cs := Cascading(e.Associations());
              && r.deleteColumns == b.deleteColumns + CascadeVars(|cs|, 1) + [CB.NODE_VAR]
              && r.optionalMatches == b.optionalMatches + CascadeMatches(h, cs, 1)
              && r == b.(deleteColumns := r.deleteColumns, optionalMatches := r.optionalMatches)
    ensures |r.deleteColumns| > 0
    ensures r.deleteColumns[|r.deleteColumns| - 1] == if e.isRelationship then CB.REL_VAR else CB.NODE_VAR
  {
    if e.isRelationship then CB.AddDeleteColumn(b, CB.REL_VAR)
    else CB.AddDeleteColumn(CascadeFrom(h, b, e.Associations(), 1), CB.NODE_VAR)
  }

  /**
   * The DELETE built for an entity on a builder with no delete columns yet:
   * the text is the head followed by `DETACH DELETE` and the comma-joined
   * columns, with no SET or RETURN; a relationship entity, or an entity
   * with no cascading association, deletes just `r`, respectively `n`.
   */
  lemma CascadingDeleteText(h: Helpers, e: Entity, b: CB.Builder)
    requires b.deleteColumns == []
    ensures var r := BuildCascadingDeletes(h, e, b);
            CB.Build(r) == CB.Head(r) + (CB.DELETE + Join(r.deleteColumns, CB.COMMAND_SEPARATOR))
    ensures e.isRelationship ==> CB.Build(BuildCascadingDeletes(h, e, b)) == CB.Head(b) + (CB.DELETE + CB.REL_VAR)
    ensures !e.isRelationship && |Cascading(e.Associations())| == 0 ==>
              CB.Build(BuildCascadingDeletes(h, e, b)) == CB.Head(b) + (CB.DELETE + CB.NODE_VAR)
  {
    var r := BuildCascadingDeletes(h, e, b);
    if !e.isRelationship && |Cascading(e.Associations())| == 0 {
      assert r.optionalMatches == b.optionalMatches;
      assert r.deleteColumns == [CB.NODE_VAR];
    }
  }

  /** Distinct cascading associations are bound to distinct variables. */
  lemma CascadeVarsDistinct(i: nat, j: nat)
    requires i != j
    ensures CascadeVar(i) != CascadeVar(j)
  {
    if CascadeVar(i) == CascadeVar(j) {
      NumberedInjective("a", i, j);
    }
  }

  // ---------------------------------------------------------------------
  // Batched CREATE: buildCypherCreateStatement / buildEntityCreateOperation
  // ---------------------------------------------------------------------

  /** A pending insert: the object, its native key, whether it already ran, and whether its event vetoes it. */
  datatype PendingInsert = PendingInsert(obj: Obj, nativeKey: Option<Id>, executed: bool, vetoed: bool)

  /** Where a non-native key is stored on the node. */
  function IdKey(e: Entity): (r: string)
    ensures r == IDENTIFIER || r == e.identityName
    ensures e.generator == Some(Snowflake) ==> r == IDENTIFIER
    ensures e.generator != Some(Snowflake) ==> r == e.identityName
  {
    if e.generator == Some(Snowflake) then IDENTIFIER else e.identityName
  }

  /**
   * `readNodePropertiesForInsert`: for an entity without native ids the
   * key (possibly null) under `__id__` for a snowflake generator, else
   * under the identity's name; then every stored property whose value is
   * non-null. So the node is created with the key (unless a stored
   * property of the same name overrides it) and exactly the stored
   * properties whose value is non-null, with their values.
   */
  function NodePropertiesForInsert(e: Entity, p: PendingInsert): (r: map<string, Value>)
    ensures !e.nativeId ==> IdKey(e) in r
    ensures !e.nativeId && (forall k :: 0 <= k < |e.properties| ==> e.properties[k].name != IdKey(e)) ==>
              r[IdKey(e)] == IdValue(p.nativeKey)
    ensures forall name :: name in r && (e.nativeId || name != IdKey(e)) ==>
              r[name] != Null && r[name] == p.obj.Get(name)
              && exists k :: 0 <= k < |e.properties| && e.properties[k].name == name && e.properties[k].kind.IsStored()
    ensures forall k :: 0 <= k < |e.properties| && e.properties[k].kind.IsStored() && p.obj.Get(e.properties[k].name) != Null ==>
              e.properties[k].name in r && r[e.properties[k].name] == p.obj.Get(e.properties[k].name)
  {
    var stored := NonNullStored(e.properties, p.obj, {});
    if e.nativeId then stored
    else map[IdKey(e) := IdValue(p.nativeKey)] + stored
  }

  /** The CREATE pattern of one node: `(n<i><labels> {props<i>})`. */
  function CreatePattern(h: Helpers, e: Entity, o: Obj, index: string): (r: string)
    ensures "(" + CB.NODE_VAR + index <= r
    ensures var tail := " {" + PROPS + index + "})"; |tail| <= |r| && r[|r| - |tail|..] == tail
  {
    "(n" + index + h.labelsWithInheritance(e.name, o) + " {props" + index + "})"
  }

  /** Whether an insert becomes a pattern of the batched CREATE. */
  predicate Creates(e: Entity, p: PendingInsert)
  {
    !p.executed && !e.isRelationship && !p.vetoed
  }

  /** The inserts that become patterns, in order. */
  function Created(e: Entity, ps: seq<PendingInsert>): (r: seq<PendingInsert>)
    ensures |r| <= |ps|
    ensures forall k :: 0 <= k < |r| ==> Creates(e, r[k])
  {
    if |ps| == 0 then []
    else Created(e, ps[..|ps| - 1]) + (if Creates(e, ps[|ps| - 1]) then [ps[|ps| - 1]] else [])
  }

  /** The patterns of the created inserts, numbered from 1. */
  function Patterns(h: Helpers, e: Entity, cs: seq<PendingInsert>): (r: seq<string>)
    ensures |r| == |cs|
  {
    if |cs| == 0 then []
    else Patterns(h, e, cs[..|cs| - 1]) + [CreatePattern(h, e, cs[|cs| - 1].obj, NatToString(|cs|))]
  }

  /** Pattern `k` (from 0) is that of the `k`-th created insert, numbered `k + 1`. */
  lemma {:induction false} PatternsAt(h: Helpers, e: Entity, cs: seq<PendingInsert>, k: nat)
    requires k < |cs|
    ensures Patterns(h, e, cs)[k] == CreatePattern(h, e, cs[k].obj, NatToString(k + 1))
  {
    if k < |cs| - 1 {
      PatternsAt(h, e, cs[..|cs| - 1], k);
    }
  }

  /** `CREATE ` followed by the patterns separated by `,\n`; empty when nothing is created. */
  function CreateText(h: Helpers, e: Entity, cs: seq<PendingInsert>): string
  {
    if |cs| == 0 then "" else CB.CYPHER_CREATE + Join(Patterns(h, e, cs), ",\n")
  }

  /** The parameter naming the properties of pattern `i`: `props<i>`. */
  function PropsKey(i: nat): string
  {
    Numbered(PROPS, i)
  }

  lemma PropsKeyDistinct(a: nat, b: nat)
    requires a != b
    ensures PropsKey(a) != PropsKey(b)
  {
    if PropsKey(a) == PropsKey(b) {
      NumberedInjective(PROPS, a, b);
    }
  }

  /**
   * The parameters of the batched CREATE: `props<i>` bound to the node
   * properties of the `i`-th created insert.
   */
  function ParamsFor(e: Entity, cs: seq<PendingInsert>): map<string, Value>
  {
    if |cs| == 0 then map[]
    else ParamsFor(e, cs[..|cs| - 1])[PropsKey(|cs|) := Props(NodePropertiesForInsert(e, cs[|cs| - 1]))]
  }

  /** `props<i>` holds the node properties of the `i`-th created insert. */
  lemma {:induction false} ParamsForAt(e: Entity, cs: seq<PendingInsert>, i: nat)
    requires 1 <= i <= |cs|
    ensures PropsKey(i) in ParamsFor(e, cs)
    ensures ParamsFor(e, cs)[PropsKey(i)] == Props(NodePropertiesForInsert(e, cs[i - 1]))
  {
    if i < |cs| {
      var init := cs[..|cs| - 1];
      PropsKeyDistinct(i, |cs|);
      ParamsForAt(e, init, i);
      assert init[i - 1] == cs[i - 1];
    }
  }

  /** No other parameter is bound: every key is `props<i>` for a created insert `i`. */
  lemma {:induction false} ParamsForKeys(e: Entity, cs: seq<PendingInsert>, key: string)
    requires key in ParamsFor(e, cs)
    ensures exists i :: 1 <= i <= |cs| && key == PropsKey(i)
  {
    if key != PropsKey(|cs|) {
      ParamsForKeys(e, cs[..|cs| - 1], key);
    }
  }

  lemma PatternsSnoc(h: Helpers, e: Entity, cs: seq<PendingInsert>, p: PendingInsert)
    ensures Patterns(h, e, cs + [p]) == Patterns(h, e, cs) + [CreatePattern(h, e, p.obj, NatToString(|cs| + 1))]
  {
    var cs' := cs + [p];
    assert cs'[..|cs'| - 1] == cs;
  }

  lemma CreateTextSnoc(h: Helpers, e: Entity, cs: seq<PendingInsert>, p: PendingInsert)
    ensures CreateText(h, e, cs + [p]) ==
            (if |cs| == 0 then CB.CYPHER_CREATE else CreateText(h, e, cs) + ",\n")
            + CreatePattern(h, e, p.obj, NatToString(|cs| + 1))
  {
    var last := CreatePattern(h, e, p.obj, NatToString(|cs| + 1));
    PatternsSnoc(h, e, cs, p);
    var ps := Patterns(h, e, cs);
    if |cs| > 0 {
      JoinSnoc(ps, last, ",\n");
      AppendAssoc(CB.CYPHER_CREATE, Join(ps, ",\n"), ",\n", last);
    } else {
      assert Patterns(h, e, cs + [p]) == [last];
      assert Join([last], ",\n") == last;
    }
  }

  /** An insert as it is after the walk: marked executed unless the entity is a relationship entity. */
  function Mark(e: Entity, p: PendingInsert): PendingInsert
  {
    p.(executed := p.executed || !e.isRelationship)
  }

  function MarkAll(e: Entity, ps: seq<PendingInsert>): (r: seq<PendingInsert>)
    ensures |r| == |ps|
  {
    if |ps| == 0 then [] else MarkAll(e, ps[..|ps| - 1]) + [Mark(e, ps[|ps| - 1])]
  }

  lemma {:induction false} MarkAllAt(e: Entity, ps: seq<PendingInsert>)
    ensures forall k :: 0 <= k < |ps| ==> MarkAll(e, ps)[k] == ps[k].(executed := ps[k].executed || !e.isRelationship)
  {
    if |ps| > 0 {
      MarkAllAt(e, ps[..|ps| - 1]);
    }
  }

  /** What the walk has built after some inserts: the text, the parameters and the pattern count. */
  datatype CreateAcc = CreateAcc(text: string, params: map<string, Value>, count: nat)

  /** The walk of `buildCypherCreateStatement` over `ps`, one insert at a time. */
  ghost function CreateWalk(h: Helpers, e: Entity, ps: seq<PendingInsert>): CreateAcc
  {
    if |ps| == 0 then CreateAcc("", map[], 0)
    else CreateStep(h, e, CreateWalk(h, e, ps[..|ps| - 1]), ps[|ps| - 1])
  }

  /** One step of the walk: a created insert adds the next numbered pattern and its parameter. */
  function CreateStep(h: Helpers, e: Entity, w: CreateAcc, p: PendingInsert): CreateAcc
  {
    if Creates(e, p) then
      CreateAcc((if w.count == 0 then CB.CYPHER_CREATE else w.text + ",\n")
                + CreatePattern(h, e, p.obj, NatToString(w.count + 1)),
                w.params[PropsKey(w.count + 1) := Props(NodePropertiesForInsert(e, p))],
                w.count + 1)
    else w
  }

  /**
   * The walk builds `CREATE ` followed by one numbered pattern per created
   * insert, and the parameters `props1`, `props2`, ... of those inserts.
   */
  lemma {:induction false} CreateWalkMeaning(h: Helpers, e: Entity, ps: seq<PendingInsert>)
    ensures var w := CreateWalk(h, e, ps);
            && w.count == |Created(e, ps)|
            && w.text == CreateText(h, e, Created(e, ps))
            && w.params == ParamsFor(e, Created(e, ps))
  {
    if |ps| > 0 {
      var init := ps[..|ps| - 1];
      var p := ps[|ps| - 1];
      CreateWalkMeaning(h, e, init);
      var w := CreateWalk(h, e, init);
      var cs := Created(e, init);
      assert CreateWalk(h, e, ps) == CreateStep(h, e, w, p);
      if Creates(e, p) {
        assert Created(e, ps) == cs + [p];
        CreateStepExtends(h, e, w, cs, p);
      } else {
        assert Created(e, ps) == cs;
      }
    }
  }

  /** A created insert extends a walk that matches `cs` into one that matches `cs + [p]`. */
  lemma CreateStepExtends(h: Helpers, e: Entity, w: CreateAcc, cs: seq<PendingInsert>, p: PendingInsert)
    requires w.count == |cs| && w.text == CreateText(h, e, cs) && w.params == ParamsFor(e, cs)
    requires Creates(e, p)
    ensures var w2 := CreateStep(h, e, w, p);
            && w2.count == |cs + [p]|
            && w2.text == CreateText(h, e, cs + [p])
            && w2.params == ParamsFor(e, cs + [p])
  {
    CreateTextSnoc(h, e, cs, p);
    assert (cs + [p])[..|cs|] == cs;
  }

  /** The walk over one more insert. */
  lemma CreateWalkStep(h: Helpers, e: Entity, inserts: seq<PendingInsert>, n: nat)
    requires n < |inserts|
    ensures CreateWalk(h, e, inserts[..n + 1]) == CreateStep(h, e, CreateWalk(h, e, inserts[..n]), inserts[n])
  {
    var ps := inserts[..n + 1];
    assert ps[..|ps| - 1] == inserts[..n];
    assert ps[|ps| - 1] == inserts[n];
    assert CreateWalk(h, e, ps) == CreateStep(h, e, CreateWalk(h, e, inserts[..n]), inserts[n]);
  }

  /**
   * `buildCypherCreateStatement`: walks the inserts once; an insert that
   * already ran, or any insert of a relationship entity, adds no pattern;
   * every other insert is run (and marked executed), and unless its event
   * vetoes it becomes the next numbered pattern. Returns the text, the
   * parameters and the inserts as they are afterwards.
   */
  method BuildCypherCreateStatement(h: Helpers, e: Entity, inserts: seq<PendingInsert>)
    returns (text: string, params: map<string, Value>, after: seq<PendingInsert>)
    ensures text == CreateText(h, e, Created(e, inserts))
    ensures params == ParamsFor(e, Created(e, inserts))
    ensures |after| == |inserts|
    ensures forall k :: 0 <= k < |inserts| ==>
              after[k] == inserts[k].(executed := inserts[k].executed || !e.isRelationship)
  {
    text := "";
    params := map[];
    after := [];
    var i: nat := 0;
    var first := true;
    for n := 0 to |inserts|
      invariant CreateWalk(h, e, inserts[..n]) == CreateAcc(text, params, i)
      invariant first <==> i == 0
      invariant after == MarkAll(e, inserts[..n])
    {
      var p := inserts[n];
      CreateWalkStep(h, e, inserts, n);
      assert inserts[..n + 1][..n] == inserts[..n];
      ghost var w := CreateAcc(text, params, i);
      var marked := p.(executed := p.executed || !e.isRelationship);
      after := after + [marked];
      if !p.executed && !e.isRelationship {
        if !p.vetoed {
          i := i + 1;
          text := (if first then CB.CYPHER_CREATE else text + ",\n") + CreatePattern(h, e, p.obj, NatToString(i));
          first := false;
          params := params[PropsKey(i) := Props(NodePropertiesForInsert(e, p))];
        }
      }
      assert CreateStep(h, e, w, p) == CreateAcc(text, params, i);
    }
    assert inserts[..|inserts|] == inserts;
    MarkAllAt(e, inserts);
    CreateWalkMeaning(h, e, inserts);
  }

  lemma {:induction false} NothingLeftToCreate(e: Entity, ps: seq<PendingInsert>)
    requires forall k :: 0 <= k < |ps| ==> ps[k].executed || e.isRelationship
    ensures Created(e, ps) == []
  {
    if |ps| > 0 {
      NothingLeftToCreate(e, ps[..|ps| - 1]);
    }
  }

  /**
   * Running the batch twice creates nothing the second time: the first run
   * marks every insert of a node entity executed.
   */
  method CreateTwice(h: Helpers, e: Entity, inserts: seq<PendingInsert>) returns (first: string, second: string)
    ensures first == CreateText(h, e, Created(e, inserts))
    ensures second == ""
  {
    var params, after, params2, after2;
    first, params, after := BuildCypherCreateStatement(h, e, inserts);
    NothingLeftToCreate(e, after);
    second, params2, after2 := BuildCypherCreateStatement(h, e, after);
  }

  // ---------------------------------------------------------------------
  // processPendingRelationshipUpdates (per association)
  // ---------------------------------------------------------------------

  /** An edge operation queued as a cascade of the entity's write. */
  datatype EdgeOp =
    | InsertEdges(parent: Obj, association: Association, targets: seq<Id>, isUpdate: bool)
    | DeleteEdges(parent: Obj, association: Association, targets: seq<Id>)

  /**
   * The ledger key under which the edges of association `a` of `parent`
   * are recorded, with the parent and association the operations use. A
   * reversed many-to-many is handled from its owning side (no key); a
   * reversed association with an inverse side whose value `associated` is
   * set is looked up from the associated object through the inverse side.
   */
  function KeyFor(parent: Obj, parentId: Option<Id>, a: Association, inverse: Option<Association>,
                  associated: Option<Obj>): (r: Option<(L.Key, Obj, Association)>)
    ensures a.reversed && a.kind == ManyToMany <==> r.None?
    ensures r.Some? && !a.reversed ==> r.value == (L.Key(parentId, a), parent, a)
    ensures r.Some? && a.reversed && inverse.Some? && associated.Some? ==>
              r.value == (L.Key(associated.value.id, inverse.value), associated.value, inverse.value)
    ensures r.Some? && a.reversed && (inverse.None? || associated.None?) ==> r.value == (L.Key(parentId, a), parent, a)
  {
    if a.reversed && a.kind == ManyToMany then None
    else if a.reversed && inverse.Some? && associated.Some? then
      Some((L.Key(associated.value.id, inverse.value), associated.value, inverse.value))
    else Some((L.Key(parentId, a), parent, a))
  }

  /**
   * Drains the key of one association from both ledgers: a non-empty
   * insert entry becomes an insert operation, then a non-empty delete entry
   * a delete operation, and each drained key is removed from its ledger.
   */
  function ProcessAssociation(p: L.Pending, parent: Obj, parentId: Option<Id>, a: Association,
                              inverse: Option<Association>, associated: Option<Obj>, isUpdate: bool)
    : (r: (seq<EdgeOp>, L.Pending))
    ensures KeyFor(parent, parentId, a, inverse, associated).None? ==> r == ([], p)
  {
    match KeyFor(parent, parentId, a, inverse, associated)
    case None => ([], p)
    case Some((key, owner, assoc)) =>
      var (ins, inserts) := L.Drain(p.inserts, key);
      var (del, deletes) := L.Drain(p.deletes, key);
      var ops := (if ins.Some? then [InsertEdges(owner, assoc, ins.value, isUpdate)] else [])
                 + (if del.Some? then [DeleteEdges(owner, assoc, del.value)] else []);
      (ops, L.Pending(inserts, deletes))
  }

  /** Processing an association keeps both ledgers valid. */
  lemma ProcessAssociationValid(p: L.Pending, parent: Obj, parentId: Option<Id>, a: Association,
                                inverse: Option<Association>, associated: Option<Obj>, isUpdate: bool)
    requires L.Valid(p.inserts) && L.Valid(p.deletes)
    ensures var r := ProcessAssociation(p, parent, parentId, a, inverse, associated, isUpdate).1;
            L.Valid(r.inserts) && L.Valid(r.deletes)
  {
  }

  /**
   * Processing an association empties its key in both ledgers (a key whose
   * collection is empty stays, as it is never turned into an operation)
   * and leaves every other key as it was.
   */
  lemma ProcessAssociationDrains(p: L.Pending, parent: Obj, parentId: Option<Id>, a: Association,
                                 inverse: Option<Association>, associated: Option<Obj>, isUpdate: bool)
    requires KeyFor(parent, parentId, a, inverse, associated).Some?
    ensures var key := KeyFor(parent, parentId, a, inverse, associated).value.0;
            var r := ProcessAssociation(p, parent, parentId, a, inverse, associated, isUpdate).1;
            && (key in r.inserts.entries <==> key in p.inserts.entries && |p.inserts.entries[key]| == 0)
            && (key in r.deletes.entries <==> key in p.deletes.entries && |p.deletes.entries[key]| == 0)
            && r.inserts.entries - {key} == p.inserts.entries - {key}
            && r.deletes.entries - {key} == p.deletes.entries - {key}
  {
    var key := KeyFor(parent, parentId, a, inverse, associated).value.0;
    var r := ProcessAssociation(p, parent, parentId, a, inverse, associated, isUpdate).1;
    assert r.inserts == L.Drain(p.inserts, key).1 && r.deletes == L.Drain(p.deletes, key).1;
  }

  /**
   * The operations of one association: an insert of the drained insert
   * targets, if any, then a delete of the drained delete targets, if any,
   * both on the owner and association the key belongs to.
   */
  lemma ProcessAssociationOperations(p: L.Pending, parent: Obj, parentId: Option<Id>, a: Association,
                                     inverse: Option<Association>, associated: Option<Obj>, isUpdate: bool)
    requires KeyFor(parent, parentId, a, inverse, associated).Some?
    ensures var (key, owner, assoc) := KeyFor(parent, parentId, a, inverse, associated).value;
            var ops := ProcessAssociation(p, parent, parentId, a, inverse, associated, isUpdate).0;
            var hasInserts := key in p.inserts.entries && |p.inserts.entries[key]| > 0;
            var hasDeletes := key in p.deletes.entries && |p.deletes.entries[key]| > 0;
            && |ops| == (if hasInserts then 1 else 0) + (if hasDeletes then 1 else 0)
            && (hasInserts ==> ops[0] == InsertEdges(owner, assoc, p.inserts.entries[key], isUpdate))
            && (hasDeletes ==> ops[|ops| - 1] == DeleteEdges(owner, assoc, p.deletes.entries[key]))
  {
  }

  /**
   * What is recorded is what gets flushed: after recording target `id`
   * under `(parentId, a)` for an association stored from this side, the
   * flush of that association yields an insert operation whose targets
   * contain `id`, and the key is gone from the ledger.
   */
  lemma RecordedInsertIsFlushed(p: L.Pending, parent: Obj, parentId: Id, a: Association, id: Id, isUpdate: bool,
                                 victim: L.Key)
    requires !a.reversed
    requires L.Record(p.inserts, Some(parentId), a, Some(id), victim).Ok?
    ensures var p1 := p.(inserts := L.Record(p.inserts, Some(parentId), a, Some(id), victim).value);
            var r := ProcessAssociation(p1, parent, Some(parentId), a, None, None, isUpdate);
            && |r.0| >= 1
            && r.0[0].InsertEdges? && id in r.0[0].targets && r.0[0].association == a
            && L.Key(Some(parentId), a) !in r.1.inserts.entries
  {
    var p1 := p.(inserts := L.Record(p.inserts, Some(parentId), a, Some(id), victim).value);
    var key := L.Key(Some(parentId), a);
    assert key in p1.inserts.entries && id in p1.inserts.entries[key];
    ProcessAssociationOperations(p1, parent, Some(parentId), a, None, None, isUpdate);
    ProcessAssociationDrains(p1, parent, Some(parentId), a, None, None, isUpdate);
  }

  /**
   * The reversed side finds the edges recorded by the owning side: an
   * entry recorded under the associated object's id and the inverse
   * association is drained when the reversed association is processed.
   */
  lemma ReversedSideDrainsInverseKey(p: L.Pending, parent: Obj, parentId: Option<Id>, a: Association,
                                     inverse: Association, associated: Obj, isUpdate: bool)
    requires a.reversed && a.kind != ManyToMany
    requires L.Key(associated.id, inverse) in p.inserts.entries && |p.inserts.entries[L.Key(associated.id, inverse)]| > 0
    ensures var r := ProcessAssociation(p, parent, parentId, a, Some(inverse), Some(associated), isUpdate);
            && |r.0| >= 1
            && r.0[0] == InsertEdges(associated, inverse, p.inserts.entries[L.Key(associated.id, inverse)], isUpdate)
            && L.Key(associated.id, inverse) !in r.1.inserts.entries
  {
    ProcessAssociationOperations(p, parent, parentId, a, Some(inverse), Some(associated), isUpdate);
    ProcessAssociationDrains(p, parent, parentId, a, Some(inverse), Some(associated), isUpdate);
  }

  // ---------------------------------------------------------------------
  // processPendingRelationshipUpdates (per entity)
  // ---------------------------------------------------------------------

  /**
   * What the key of an association depends on beyond the parent: its
   * inverse side in the mapping, and the object the parent holds in it
   * (`None` for null).
   */
  datatype Sides = Sides(inverseOf: Association -> Option<Association>, associatedOf: Association -> Option<Obj>)

  /** The association loop: each association in turn drains its key, its operations following the earlier ones. */
  function ProcessAssociations(p: L.Pending, parent: Obj, parentId: Option<Id>, assocs: seq<Association>,
                               sides: Sides, isUpdate: bool): (r: (seq<EdgeOp>, L.Pending))
    decreases |assocs|
  {
    if |assocs| == 0 then ([], p)
    else
      var a := assocs[0];
      var step := ProcessAssociation(p, parent, parentId, a, sides.inverseOf(a), sides.associatedOf(a), isUpdate);
      var rest := ProcessAssociations(step.1, parent, parentId, assocs[1..], sides, isUpdate);
      (step.0 + rest.0, rest.1)
  }

  /**
   * The identity the entity's keys use: for a relationship entity whose
   * `from` end is set, the identity of that object; otherwise the
   * entity's own.
   */
  function KeyId(e: Entity, id: Option<Id>, from: Option<Obj>): Option<Id>
  {
    if e.isRelationship && from.Some? then from.value.id else id
  }

  /**
   * `processPendingRelationshipUpdates(entity, access, id, ...)` before its
   * dynamic-association part: every association of the entity, in
   * declaration order, keyed by `KeyId`. Basic collections are a property
   * kind of their own in this model and never among `Associations()`,
   * which is how the loop skips them.
   */
  function ProcessEntity(p: L.Pending, e: Entity, parent: Obj, id: Option<Id>, from: Option<Obj>,
                         sides: Sides, isUpdate: bool): (r: (seq<EdgeOp>, L.Pending))
    ensures L.Valid(p.inserts) && L.Valid(p.deletes) ==> L.Valid(r.1.inserts) && L.Valid(r.1.deletes)
  {
    ProcessAssociationsValid(p, parent, KeyId(e, id, from), e.Associations(), sides, isUpdate);
    ProcessAssociations(p, parent, KeyId(e, id, from), e.Associations(), sides, isUpdate)
  }

  /** The loop keeps both ledgers valid. */
  lemma {:induction false} ProcessAssociationsValid(p: L.Pending, parent: Obj, parentId: Option<Id>,
                                                    assocs: seq<Association>, sides: Sides, isUpdate: bool)
    ensures var r := ProcessAssociations(p, parent, parentId, assocs, sides, isUpdate).1;
            L.Valid(p.inserts) && L.Valid(p.deletes) ==> L.Valid(r.inserts) && L.Valid(r.deletes)
    decreases |assocs|
  {
    if |assocs| > 0 {
      var a := assocs[0];
      var step := ProcessAssociation(p, parent, parentId, a, sides.inverseOf(a), sides.associatedOf(a), isUpdate);
      if L.Valid(p.inserts) && L.Valid(p.deletes) {
        ProcessAssociationValid(p, parent, parentId, a, sides.inverseOf(a), sides.associatedOf(a), isUpdate);
      }
      ProcessAssociationsValid(step.1, parent, parentId, assocs[1..], sides, isUpdate);
    }
  }

  /** Nothing is pending under `key`: it is absent, or its collection is empty. */
  predicate NothingPending(l: L.Ledger, key: L.Key)
  {
    !(key in l.entries && |l.entries[key]| > 0)
  }

  /** The keys the association loop drains. */
  function DrainedKeys(parent: Obj, parentId: Option<Id>, assocs: seq<Association>, sides: Sides): set<L.Key>
    decreases |assocs|
  {
    if |assocs| == 0 then {}
    else
      var k := KeyFor(parent, parentId, assocs[0], sides.inverseOf(assocs[0]), sides.associatedOf(assocs[0]));
      (if k.Some? then {k.value.0} else {}) + DrainedKeys(parent, parentId, assocs[1..], sides)
  }

  lemma MapMinusMinus(m: map<L.Key, seq<Id>>, a: set<L.Key>, b: set<L.Key>)
    ensures m - a - b == m - (a + b)
  {
  }

  /**
   * One step of the loop's frame: a ledger `p1` that differs from `p` only
   * at a settled `key`, followed by a ledger `r` that differs from `p1`
   * only at the settled keys `rest`.
   */
  lemma FrameStep(p: L.Ledger, p1: L.Ledger, r: L.Ledger, key: L.Key, rest: set<L.Key>)
    requires p1.entries - {key} == p.entries - {key} && NothingPending(p1, key)
    requires r.entries - rest == p1.entries - rest
    requires forall k :: k in rest ==> NothingPending(r, k)
    ensures forall k :: k in {key} + rest ==> NothingPending(r, k)
    ensures r.entries - ({key} + rest) == p.entries - ({key} + rest)
  {
    if key !in rest {
      assert key in r.entries <==> key in r.entries - rest;
      assert key in p1.entries <==> key in p1.entries - rest;
      assert key in r.entries ==> r.entries[key] == (r.entries - rest)[key];
    }
    MapMinusMinus(r.entries, rest, {key});
    MapMinusMinus(p1.entries, rest, {key});
    MapMinusMinus(p1.entries, {key}, rest);
    MapMinusMinus(p.entries, {key}, rest);
    assert rest + {key} == {key} + rest;
  }

  /** The frame of one association's step composed with that of the rest of the loop. */
  lemma DrainStep(p: L.Pending, parent: Obj, parentId: Option<Id>, a: Association, sides: Sides, isUpdate: bool,
                  r: L.Pending, rest: set<L.Key>)
    requires KeyFor(parent, parentId, a, sides.inverseOf(a), sides.associatedOf(a)).Some?
    requires var p1 := ProcessAssociation(p, parent, parentId, a, sides.inverseOf(a), sides.associatedOf(a), isUpdate).1;
             && r.inserts.entries - rest == p1.inserts.entries - rest
             && r.deletes.entries - rest == p1.deletes.entries - rest
    requires forall k :: k in rest ==> NothingPending(r.inserts, k) && NothingPending(r.deletes, k)
    ensures var keys := {KeyFor(parent, parentId, a, sides.inverseOf(a), sides.associatedOf(a)).value.0} + rest;
            && (forall k :: k in keys ==> NothingPending(r.inserts, k) && NothingPending(r.deletes, k))
            && r.inserts.entries - keys == p.inserts.entries - keys
            && r.deletes.entries - keys == p.deletes.entries - keys
  {
    var key := KeyFor(parent, parentId, a, sides.inverseOf(a), sides.associatedOf(a)).value.0;
    var p1 := ProcessAssociation(p, parent, parentId, a, sides.inverseOf(a), sides.associatedOf(a), isUpdate).1;
    ProcessAssociationDrains(p, parent, parentId, a, sides.inverseOf(a), sides.associatedOf(a), isUpdate);
    FrameStep(p.inserts, p1.inserts, r.inserts, key, rest);
    FrameStep(p.deletes, p1.deletes, r.deletes, key, rest);
  }

  /**
   * After the loop nothing is pending under any key it drained, in either
   * ledger, and every other key is as it was.
   */
  lemma {:induction false} ProcessAssociationsDrains(p: L.Pending, parent: Obj, parentId: Option<Id>,
                                                     assocs: seq<Association>, sides: Sides, isUpdate: bool)
    ensures var r := ProcessAssociations(p, parent, parentId, assocs, sides, isUpdate).1;
            var keys := DrainedKeys(parent, parentId, assocs, sides);
            && (forall key :: key in keys ==> NothingPending(r.inserts, key) && NothingPending(r.deletes, key))
            && r.inserts.entries - keys == p.inserts.entries - keys
            && r.deletes.entries - keys == p.deletes.entries - keys
    decreases |assocs|
  {
    if |assocs| > 0 {
      var a := assocs[0];
      var k := KeyFor(parent, parentId, a, sides.inverseOf(a), sides.associatedOf(a));
      var p1 := ProcessAssociation(p, parent, parentId, a, sides.inverseOf(a), sides.associatedOf(a), isUpdate).1;
      var rest := DrainedKeys(parent, parentId, assocs[1..], sides);
      var r := ProcessAssociations(p1, parent, parentId, assocs[1..], sides, isUpdate).1;
      ProcessAssociationsCons(p, parent, parentId, assocs, sides, isUpdate);
      ProcessAssociationsDrains(p1, parent, parentId, assocs[1..], sides, isUpdate);
      if k.None? {
        assert p1 == p;
      } else {
        DrainStep(p, parent, parentId, a, sides, isUpdate, r, rest);
      }
    }
  }

  /** The loop over a non-empty list: the first association's step, then the rest on the ledgers it leaves. */
  lemma ProcessAssociationsCons(p: L.Pending, parent: Obj, parentId: Option<Id>, assocs: seq<Association>,
                                sides: Sides, isUpdate: bool)
    requires |assocs| > 0
    ensures var a := assocs[0];
            var step := ProcessAssociation(p, parent, parentId, a, sides.inverseOf(a), sides.associatedOf(a), isUpdate);
            var rest := ProcessAssociations(step.1, parent, parentId, assocs[1..], sides, isUpdate);
            ProcessAssociations(p, parent, parentId, assocs, sides, isUpdate) == (step.0 + rest.0, rest.1)
  {
  }

  /**
   * The loop visits the associations in order: running it over `xs + ys`
   * is running it over `xs` and then, on the ledgers that leaves, over
   * `ys`, the operations of `xs` first.
   */
  lemma {:induction false} ProcessAssociationsAppend(p: L.Pending, parent: Obj, parentId: Option<Id>,
                                                     xs: seq<Association>, ys: seq<Association>, sides: Sides,
                                                     isUpdate: bool)
    ensures var first := ProcessAssociations(p, parent, parentId, xs, sides, isUpdate);
            var second := ProcessAssociations(first.1, parent, parentId, ys, sides, isUpdate);
            ProcessAssociations(p, parent, parentId, xs + ys, sides, isUpdate) == (first.0 + second.0, second.1)
    decreases |xs|
  {
    SplitFirst(xs, ys);
    if |xs| == 0 {
      var second := ProcessAssociations(p, parent, parentId, ys, sides, isUpdate);
      OpsAssoc([], [], second.0);
    } else {
      var a := xs[0];
      var step := ProcessAssociation(p, parent, parentId, a, sides.inverseOf(a), sides.associatedOf(a), isUpdate);
      ProcessAssociationsCons(p, parent, parentId, xs, sides, isUpdate);
      ProcessAssociationsCons(p, parent, parentId, xs + ys, sides, isUpdate);
      ProcessAssociationsAppend(step.1, parent, parentId, xs[1..], ys, sides, isUpdate);
      var first := ProcessAssociations(step.1, parent, parentId, xs[1..], sides, isUpdate);
      var second := ProcessAssociations(first.1, parent, parentId, ys, sides, isUpdate);
      OpsAssoc(step.0, first.0, second.0);
    }
  }

  lemma SplitFirst(xs: seq<Association>, ys: seq<Association>)
    ensures |xs| == 0 ==> xs + ys == ys
    ensures |xs| > 0 ==> (xs + ys)[0] == xs[0] && (xs + ys)[1..] == xs[1..] + ys
  {
    if |xs| == 0 {
      assert xs + ys == ys;
    } else {
      assert (xs + ys)[1..] == xs[1..] + ys;
    }
  }

  lemma OpsAssoc(a: seq<EdgeOp>, b: seq<EdgeOp>, c: seq<EdgeOp>)
    ensures a + (b + c) == a + b + c
    ensures [] + c == c
  {
  }

  /** Over a single association the loop is that association's processing. */
  lemma ProcessAssociationsSingle(p: L.Pending, parent: Obj, parentId: Option<Id>, a: Association, sides: Sides,
                                  isUpdate: bool)
    ensures ProcessAssociations(p, parent, parentId, [a], sides, isUpdate)
            == ProcessAssociation(p, parent, parentId, a, sides.inverseOf(a), sides.associatedOf(a), isUpdate)
  {
    var step := ProcessAssociation(p, parent, parentId, a, sides.inverseOf(a), sides.associatedOf(a), isUpdate);
    assert [a][1..] == [];
    assert step.0 + [] == step.0;
  }

  /** A non-reversed association's own key is among those the loop drains. */
  lemma {:induction false} DrainedKeysContains(parent: Obj, parentId: Option<Id>, assocs: seq<Association>,
                                               sides: Sides, k: nat)
    requires k < |assocs| && !assocs[k].reversed
    ensures L.Key(parentId, assocs[k]) in DrainedKeys(parent, parentId, assocs, sides)
    decreases k
  {
    if k > 0 {
      DrainedKeysContains(parent, parentId, assocs[1..], sides, k - 1);
      assert assocs[1..][k - 1] == assocs[k];
    }
  }

  /**
   * After the entity's loop nothing is pending under the key of any of its
   * associations stored from its side. For a relationship entity whose
   * `from` end is set, that key carries the identity of the `from` object
   * rather than the entity's own.
   */
  lemma EntityDrainsOwnKeys(p: L.Pending, e: Entity, parent: Obj, id: Option<Id>, from: Option<Obj>,
                            sides: Sides, isUpdate: bool)
    ensures var r := ProcessEntity(p, e, parent, id, from, sides, isUpdate).1;
            var keyId := if e.isRelationship && from.Some? then from.value.id else id;
            forall k :: 0 <= k < |e.Associations()| && !e.Associations()[k].reversed ==>
              NothingPending(r.inserts, L.Key(keyId, e.Associations()[k]))
              && NothingPending(r.deletes, L.Key(keyId, e.Associations()[k]))
  {
    var assocs := e.Associations();
    var keyId := KeyId(e, id, from);
    ProcessAssociationsDrains(p, parent, keyId, assocs, sides, isUpdate);
    forall k | 0 <= k < |assocs| && !assocs[k].reversed
      ensures L.Key(keyId, assocs[k]) in DrainedKeys(parent, keyId, assocs, sides)
    {
      DrainedKeysContains(parent, keyId, assocs, sides, k);
    }
  }

  lemma {:induction false} AssociationsOfSnocNonAssoc(ps: seq<Property>, q: Property)
    requires !q.kind.Assoc?
    ensures AssociationsOf(ps + [q]) == AssociationsOf(ps)
    decreases |ps|
  {
    if |ps| == 0 {
      assert [q][1..] == [];
    } else {
      assert (ps + [q])[0] == ps[0] && (ps + [q])[1..] == ps[1..] + [q];
      AssociationsOfSnocNonAssoc(ps[1..], q);
    }
  }

  /**
   * Basic collections are skipped: an entity with one more basic
   * collection property yields the same operations and ledgers.
   */
  lemma BasicCollectionSkipped(p: L.Pending, e: Entity, basic: Property, parent: Obj, id: Option<Id>,
                               from: Option<Obj>, sides: Sides, isUpdate: bool)
    requires basic.kind == Basic
    ensures ProcessEntity(p, e.(properties := e.properties + [basic]), parent, id, from, sides, isUpdate)
            == ProcessEntity(p, e, parent, id, from, sides, isUpdate)
  {
    AssociationsOfSnocNonAssoc(e.properties, basic);
  }
}

=== FILE: values.dfy ===
/**
 * Shared vocabulary of the model: optional values (Java's nullable
 * references), identities, statement parameters, the statements handed to
 * the transactional runner, and the two string helpers every statement
 * builder relies on (joining with a separator, decimal rendering of a count).
 */
module Values {

  /** A nullable reference: `None` is Java's `null`. */
  datatype Option<+T> = None | Some(value: T)

  /** Success or a failure raised as a Java exception. */
  datatype Result<+T, +E> = Ok(value: T) | Err(error: E)

  /**
   * An entity identity: either the numeric id the backend assigns to a node
   * after a CREATE, or an application-assigned / generated key.
   */
  datatype Id = NativeId(n: int) | AssignedId(key: string)

  /** A statement parameter value, as handed to the driver. */
  datatype Value =
    | Null
    | IdVal(id: Id)
    | Str(s: string)
    | Int(i: int)
    | Bool(b: bool)
    | List(items: seq<Value>)
    | Props(props: map<string, Value>)

  /** The parameter value for a nullable identity. */
  function IdValue(id: Option<Id>): (v: Value)
    ensures id.None? <==> v == Null
    ensures id.Some? ==> v == IdVal(id.value)
  {
    match id
    case None => Null
    case Some(i) => IdVal(i)
  }

  function IdList(ids: seq<Id>): (v: Value)
    ensures v.List? && |v.items| == |ids|
    ensures forall k :: 0 <= k < |ids| ==> v.items[k] == IdVal(ids[k])
  {
    List(seq(|ids|, k requires 0 <= k < |ids| => IdVal(ids[k])))
  }

  /** One call of the runner: statement text and its named parameters. */
  datatype Statement = Statement(text: string, params: map<string, Value>)

  /** Bounds of Java's `long`. */
  const MinLong: int := -0x8000_0000_0000_0000
  const MaxLong: int := 0x7FFF_FFFF_FFFF_FFFF

  type Long = x: int | MinLong <= x <= MaxLong

  /** Bounds of Java's `int`. */
  const MinInt: int := -0x8000_0000
  const MaxInt: int := 0x7FFF_FFFF

  type Int32 = x: int | MinInt <= x <= MaxInt

  /** Two's-complement wrap-around of an unbounded integer into an `int`. */
  function WrapInt32(x: int): (r: Int32)
    ensures MinInt <= x <= MaxInt ==> r == x
    ensures (r - x) % 0x1_0000_0000 == 0
  {
    (x - MinInt) % 0x1_0000_0000 + MinInt
  }

  /** `v + 1` on a Java `long`: `Long.MAX_VALUE + 1` wraps to `Long.MIN_VALUE`. */
  function LongIncrement(v: Long): (r: Long)
    ensures v < MaxLong ==> r == v + 1
    ensures v == MaxLong ==> r == MinLong
  {
    if v == MaxLong then MinLong else v + 1
  }

  // ---------------------------------------------------------------------
  // Joining with a separator (the Iterator loops of CypherBuilder.build)
  // ---------------------------------------------------------------------

  /** `xs[0] + sep + xs[1] + sep + ...`; the empty string for no elements. */
  function Join(xs: seq<string>, sep: string): string
  {
    if |xs| == 0 then ""
    else if |xs| == 1 then xs[0]
    else xs[0] + sep + Join(xs[1..], sep)
  }

  /** Appending one more element extends the joined text by `sep + x`. */
  lemma {:induction false} JoinSnoc(xs: seq<string>, x: string, sep: string)
    requires |xs| > 0
    ensures Join(xs + [x], sep) == Join(xs, sep) + sep + x
  {
    if |xs| == 1 {
      assert (xs + [x])[1..] == [x];
    } else {
      assert (xs + [x])[1..] == xs[1..] + [x];
      JoinSnoc(xs[1..], x, sep);
    }
  }

  /** A text is a prefix of itself followed by anything. */
  lemma PrefixOfAppend(a: string, b: string)
    ensures a <= a + b
  {
  }

  /** The prefix relation is transitive. */
  lemma PrefixTrans(a: string, b: string, c: string)
    requires a <= b && b <= c
    ensures a <= c
  {
  }

  /** Regrouping a four-part concatenation (kept apart so that literals do not enter the proof). */
  lemma AppendAssoc(a: string, b: string, c: string, d: string)
    ensures a + (b + c + d) == a + b + c + d
  {
  }

  /** The joined text of a non-empty list starts with its first element. */
  lemma JoinStartsWithFirst(xs: seq<string>, sep: string)
    requires |xs| > 0
    ensures xs[0] <= Join(xs, sep)
  {
  }

  /** Concatenation of `prefix + x` for each `x`, in order. */
  function PrefixEach(prefix: string, xs: seq<string>): string
  {
    if |xs| == 0 then "" else PrefixEach(prefix, xs[..|xs| - 1]) + prefix + xs[|xs| - 1]
  }

  /** Concatenation of all elements, in order. */
  function Concat(xs: seq<string>): string
  {
    if |xs| == 0 then "" else Concat(xs[..|xs| - 1]) + xs[|xs| - 1]
  }

  lemma PrefixEachSnoc(prefix: string, xs: seq<string>, x: string)
    ensures PrefixEach(prefix, xs + [x]) == PrefixEach(prefix, xs) + prefix + x
  {
    assert (xs + [x])[..|xs|] == xs;
  }

  // ---------------------------------------------------------------------
  // Decimal rendering (String.valueOf on a non-negative int)
  // ---------------------------------------------------------------------

  function DigitChar(d: nat): (c: char)
    requires d < 10
    ensures '0' <= c <= '9'
  {
    "0123456789"[d]
  }

  /** `String.valueOf(n)` for `n >= 0`. */
  function NatToString(n: nat): (s: string)
    ensures |s| >= 1
  {
    if n < 10 then [DigitChar(n)] else NatToString(n / 10) + [DigitChar(n % 10)]
  }

  lemma DigitCharInjective(a: nat, b: nat)
    requires a < 10 && b < 10 && DigitChar(a) == DigitChar(b)
    ensures a == b
  {
  }

  /** Distinct counts render as distinct strings, so `"1"`, `"2"`, ... never collide. */
  lemma {:induction false} NatToStringInjective(a: nat, b: nat)
    requires NatToString(a) == NatToString(b)
    ensures a == b
  {
    var sa, sb := NatToString(a), NatToString(b);
    if a < 10 && b < 10 {
      assert sa[0] == sb[0];
      DigitCharInjective(a, b);
    } else if a < 10 || b < 10 {
      // one rendering has a single digit, the other at least two
      assert false;
    } else {
      var pa, pb := NatToString(a / 10), NatToString(b / 10);
      assert sa == pa + [DigitChar(a % 10)];
      assert sb == pb + [DigitChar(b % 10)];
      assert |pa| == |pb|;
      assert sa[|sa| - 1] == sb[|sb| - 1];
      DigitCharInjective(a % 10, b % 10);
      assert pa == sa[..|sa| - 1] == sb[..|sb| - 1] == pb;
      NatToStringInjective(a / 10, b / 10);
    }
  }

  /** A name followed by a count: `"n" + 1`, `"props" + 2`, `"a" + 3`. */
  function Numbered(name: string, n: nat): string
  {
    name + NatToString(n)
  }

  /** Numbered names with the same stem are distinct for distinct counts. */
  lemma NumberedInjective(name: string, a: nat, b: nat)
    requires Numbered(name, a) == Numbered(name, b)
    ensures a == b
  {
    var sa, sb := NatToString(a), NatToString(b);
    assert Numbered(name, a)[|name|..] == sa;
    assert Numbered(name, b)[|name|..] == sb;
    NatToStringInjective(a, b);
  }

  // ---------------------------------------------------------------------
  // Sequences without duplicates
  // ---------------------------------------------------------------------

  predicate NoDup<T(==)>(xs: seq<T>)
  {
    forall i, j :: 0 <= i < j < |xs| ==> xs[i] != xs[j]
  }

  /** `if (!list.contains(x)) list.add(x)`. */
  function AppendIfAbsent<T(==)>(xs: seq<T>, x: T): (r: seq<T>)
    ensures x in xs ==> r == xs
    ensures x !in xs ==> r == xs + [x]
    ensures NoDup(xs) ==> NoDup(r)
    ensures forall k :: 0 <= k < |r| ==> r[k] in xs || r[k] == x
    ensures x in r && forall k :: 0 <= k < |xs| ==> xs[k] in r
  {
    if x in xs then xs else xs + [x]
  }
}
